=== FILE: README.md ===
# nkust-checkinflow in Dafny

This project models the decision logic of the nkust-checkinflow event check-in system.
The system has a FastAPI backend and a React frontend. Participants sign in through LINE,
open an event page, and check in, then possibly check out. The backend decides whether a
submission is allowed. Before the participant presses anything, the page asks the backend
for advice and sets its buttons from the wording of that advice. Administrators create
events, including recurring series, along with the registration and survey templates the
forms are built from. They also manage other administrators and read statistics.

Each module models one source file. Database queries become sequences of records, the
clock becomes a `now` parameter in integer milliseconds, and the React components become
pure functions from a page state and the server's answer to the next page state. The
geographic distance, float parsing, password hashing and token decoding cannot be seen
here, so they are function parameters.

- `Common`, `Domain` and `Clock` hold the shared vocabulary:
  - results with HTTP errors;
  - Python and JavaScript string and number conversions;
  - the entities;
  - `strftime` rendering.
- Backend modules:
  - `Checkins`: check-in and check-out, and the validation advisory.
  - `Events` and `EventSchema`: listing, updating and series generation, and the
    request schemas.
  - `Templates`: template access rules.
  - `Auth`, `Dependencies` and `Users`: administrators, token authentication and
    participant registration.
  - `Files`: the upload file endpoint.
- Frontend modules:
  - `EventPage`, `CheckinRecord`, `CheckinForm` and `EventStatus`: the participant page.
  - `HomePage`.
  - The admin pages: `Dashboard`, `CreateEventPage`, `EditEventForm`, `TemplateEditor`,
    `UserManagement`, `ChangePasswordPage` and `AdminRegisterPage`.
  - `RegisterForm`.
  - The HTTP client `ApiClient`.
  - The two stores `AuthStore` and `BaseStore`.
- `Agreement` holds the lemmas that tie the page to the server. They show which advice
  message drives which button state, that the countdown target matches the checkout
  threshold, and how the page reads the check-in reply.

## Model

| member | source | states |
|---|---|---|
| `Checkins.Truncate` | backend/app/routers/checkins.py:74 | `int()` of the distance truncates toward zero: the result is within one metre of the distance, on the side of zero |
| `Checkins.ParseCoordinates` | backend/app/routers/checkins.py:66 | "lat,lng" parses exactly when splitting at commas gives two pieces that are both numbers, and the result is those two numbers |
| `Checkins.ParseCoordinatesOfPair` | backend/app/routers/checkins.py:66 | two comma-free numbers joined by a comma read back as exactly those numbers |
| `Checkins.LocationGate` | backend/app/routers/checkins.py:60-81 | no check unless the event validates location; a missing location, an unreadable location, and a distance beyond the radius each give their own 400, while an event without coordinates lets everything through |
| `Checkins.CheckoutGateAt` | backend/app/routers/checkins.py:107-134 | a checkout is open exactly when the event sets no threshold or the threshold has passed; otherwise it reports a duration wait or a wait for the end time |
| `Checkins.WaitIsBounded` | backend/app/routers/checkins.py:118-123 | the reported remaining wait is a whole number of minutes between 0 and the configured duration |
| `Checkins.MergeProfile` | backend/app/routers/checkins.py:143-147 | `{**old, **new}`: the keys are the union, new values win, old values survive where not overridden, and an empty or missing profile changes nothing |
| `Checkins.CreateCheckin` | backend/app/routers/checkins.py:44-178 | 404 for a missing event; the location gate comes first; without a record it creates one "已簽到" for the signed-in user; with a closed record the answer is a 400 "您已經完成簽到和簽退"; with an open record it refuses when checkout is not required or too early, and otherwise closes the record, keeping the old location unless a new one is sent |
| `Checkins.Lookup` | backend/app/routers/checkins.py:86-93 | the record query finds a record of exactly this user and event, or there is none |
| `Checkins.Submit` | backend/app/routers/checkins.py:95-178 | a submission against the store keeps at most one record per (user, event); it either appends a new record or closes the looked-up one in place |
| `Checkins.NextId` | backend/app/routers/checkins.py:164-172 | a new record's id is larger than every id in use |
| `Checkins.NoSecondRecord` | backend/app/routers/checkins.py:95-178 | after any successful submission, a second submission for the same pair never creates another record |
| `Checkins.ClosedRecordStaysClosed` | backend/app/routers/checkins.py:98-101 | once a record has a checkout time, every further submission is refused with "您已經完成簽到和簽退" |
| `Checkins.ValidateCheckin` | backend/app/routers/checkins.py:182-278 | the advisory, with no location check: a missing event, "您已完成簽到退" for a closed record, the submission's own wait text, an end-time text showing only the clock, "您可以進行簽退" for an open record that may close or whose event needs no checkout, and "您可以進行簽到" without a record |
| `Checkins.ValidateAgreesWithCreate` | backend/app/routers/checkins.py:182-278 | once the location gate passes, the advice is valid exactly when the submission would succeed, except for events without checkout, where the advice invites a checkout that the submission refuses |
| `Checkins.WaitAdviceMatchesRefusal` | backend/app/routers/checkins.py:245-252 | when the advice says to wait, the submission is refused with exactly the same text |
| `Clock.Weekday` | backend/app/routers/events.py:194 | `date.weekday()` is a number from 0 to 6, with Monday as 0 |
| `Clock.ClockText` | backend/app/routers/checkins.py:259-265 | `strftime('%H:%M')` produces only digits and ':' |
| `Clock.DateTimeText` | backend/app/routers/checkins.py:131-134 | `strftime('%Y-%m-%d %H:%M')` produces only digits, '-', ' ' and ':' |
| `Agreement.CompletedAdviceIsCompleted` | frontend/src/pages/public/EventPage.tsx:144-148 | the server's "completed" advice selects the page's all-done branch |
| `Agreement.CheckoutAdviceOpensCheckout` | frontend/src/pages/public/EventPage.tsx:149-154 | "您可以進行簽退" selects the checkout-open branch |
| `Agreement.CheckinAdviceOpensCheckin` | frontend/src/pages/public/EventPage.tsx:161-166 | "您可以進行簽到" selects the check-in branch |
| `Agreement.WaitAdviceSaysWait` | backend/app/routers/checkins.py:118-123 | every wait refusal, for any duration and remainder, contains "還需等待" |
| `Agreement.WaitAdviceIsPending` | frontend/src/pages/public/EventPage.tsx:155-160 | every wait message, for any duration and remainder, selects the pending branch and contains "還需等待" |
| `Agreement.EndAdviceLacks` | backend/app/routers/checkins.py:259-265 | the end-time advice never contains '已', '可', '還' or '分' |
| `Agreement.EndAdviceNoCheckin` | backend/app/routers/checkins.py:259-265 | the end-time advice never contains "簽到" |
| `Agreement.EndAdviceIsUnrecognised` | frontend/src/pages/public/EventPage.tsx:144-167 | the end-time advice matches none of the page's tests, so the flags keep their previous values |
| `Agreement.MissingEventIsUnrecognised` | backend/app/routers/checkins.py:195-196 | "活動不存在" matches none of the page's tests |
| `Agreement.AdviceDrivesButton` | frontend/src/pages/public/EventPage.tsx:525-544 | on a fresh page: a closed record hides the form; without a record the check-in button follows the event window; for events needing a checkout the button is enabled exactly when the submission would succeed, and while the event runs to its end the check-in action is shown; for events without one the checkout button is enabled though the submission is refused |
| `Agreement.MinutesOfDecompose` | frontend/src/components/CheckinRecord.tsx:47-49 | hours times 60 plus minutes of the countdown equals the whole minutes remaining |
| `Agreement.CountdownMatchesThreshold` | frontend/src/components/CheckinRecord.tsx:28-33 | the card counts down to exactly the server's checkout threshold, shows the ready text exactly when the server's gate is open, and while the server asks to wait its minutes equal the card's hours and minutes |
| `Agreement.CheckoutReplyMisread` | frontend/src/pages/public/EventPage.tsx:290 | as written, after a successful checkout the page believes it saw a check-in: it shows the "簽到成功" result screen, does not record the checkout, and sets `hasCheckedIn` and `canCheckout`, while the server now refuses any further submission as completed |
| `Agreement.ReplyReadCorrectly` | frontend/src/pages/public/EventPage.tsx:290-318 | reading the record the server returns, the page shows the "簽退成功" screen and hides the form exactly when the server closed the record, and the "簽到成功" screen for a first check-in |
| `EventPage.Classify` | frontend/src/pages/public/EventPage.tsx:144-167 | the first matching substring test wins, in the order completed, checkout open, pending, check-in; anything else is unrecognised |
| `EventPage.SetFlags` | frontend/src/pages/public/EventPage.tsx:144-167 | the four flags each class sets, with every other part of the page unchanged and an unrecognised message changing nothing |
| `EventPage.ApplyAdvice` | frontend/src/pages/public/EventPage.tsx:130-176 | the advice's record replaces the page's when present, an invalid advice shows its message, an unrecognised message keeps all four flags, and a failed request disables check-in with "簽到資格驗證失敗。" |
| `EventPage.WindowNotice` | frontend/src/pages/public/EventPage.tsx:546 | the out-of-window notice shows exactly when the event is not active and nothing was checked in |
| `EventPage.FieldsOfMembership` | frontend/src/pages/public/EventPage.tsx:206-207 | a field is in the combined list exactly when some template holds it |
| `EventPage.FieldsOfAppend` | frontend/src/pages/public/EventPage.tsx:212-217 | combining two template lists one after the other concatenates their fields |
| `EventPage.ComposeForm` | frontend/src/pages/public/EventPage.tsx:197-244 | no event or no fields gives no form; checkout asks the closing surveys; check-in asks registration, opening surveys and the profile fields still missing |
| `EventPage.CheckoutFormFields` | frontend/src/pages/public/EventPage.tsx:204-207 | a field is on the checkout form exactly when a closing survey of the event holds it |
| `EventPage.ProfileFieldSelection` | frontend/src/pages/public/EventPage.tsx:219-231 | with a participant, a profile field is asked for exactly when the stored profile lacks it or holds ""; without one, every profile field is asked for |
| `EventPage.SplitAnswers` | frontend/src/pages/public/EventPage.tsx:258-278 | dynamic_data is the answers unchanged; profile_data holds exactly the answers to profile-extension fields and is absent when there are none |
| `EventPage.BeginSubmit` | frontend/src/pages/public/EventPage.tsx:246-255 | without both an event and a participant only the error is set; otherwise the page is loading with its messages cleared |
| `EventPage.ScreenOf` | frontend/src/pages/public/EventPage.tsx:330-430 | the screens in the page's order: the spinner exactly while loading; then a non-empty error message, which hides everything else; then "活動不存在" when no event is loaded; then the sign-in screen for a visitor; then, for a signed-in participant, only the result screen after a success, titled "簽退成功" or "簽到成功" by the last action, only the error screen after a failure, and otherwise the main screen with the form until checkout |
| `EventPage.IncompleteSubmitShowsOnlyError` | frontend/src/pages/public/EventPage.tsx:246-249 | a submission without an event or participant replaces whatever screen was shown with the incomplete-information message alone |
| `EventPage.CheckinMember` | frontend/src/pages/public/EventPage.tsx:290 | `response.checkin` is absent when the body is a bare record |
| `EventPage.ReturnedRecord` | backend/app/routers/checkins.py:176-178 | the record the server returned, whatever the shape of the body |
| `EventPage.AfterSuccess` | frontend/src/pages/public/EventPage.tsx:296-318 | a checkout record hides the form and disables checkout; anything else marks a check-in and enables checkout when the event needs one |
| `EventPage.AfterFailure` | frontend/src/pages/public/EventPage.tsx:319-327 | the server's detail or "操作失敗，請重試" is shown, a "還需等待" detail also goes to the checkout notice, and the flags stay |
| `EventStatus.StatusAt` | fontend/src/utils/eventUtils.ts:10-22 | upcoming before the start, ended after the end, active in between (inclusive) |
| `EventStatus.InvertedEventNeverActive` | fontend/src/utils/eventUtils.ts:5-8 | an event whose start lies after its end is never active |
| `CheckinRecord.CountdownTarget` | frontend/src/components/CheckinRecord.tsx:28-37 | the countdown runs to the check-in time plus the duration, or to the end time, or nowhere |
| `CheckinRecord.Decompose` | frontend/src/components/CheckinRecord.tsx:47-49 | hours, minutes and seconds of a positive remaining time, with minutes and seconds below 60, together within one second below the remaining time |
| `CheckinRecord.DecomposeBounds` | frontend/src/components/CheckinRecord.tsx:47-49 | the page's floor divisions give exactly that decomposition |
| `CheckinRecord.Tick` | frontend/src/components/CheckinRecord.tsx:19-57 | the text changes only while a countdown runs; it reads "可以簽退了" exactly once the target is reached, and before that it reads back as hours, minutes below 60 and seconds below 60 that fall within one second below the time left |
| `CheckinRecord.CountdownTextReadsBack` | frontend/src/components/CheckinRecord.tsx:51-57 | every countdown text, with its leading zero parts left out, reads back as the hours, minutes and seconds it was written from |
| `CheckinRecord.CountdownNotReady` | frontend/src/components/CheckinRecord.tsx:51-57 | a remaining-time text is never the ready text |
| `CheckinRecord.SectionOf` | frontend/src/components/CheckinRecord.tsx:66-139 | no card without a record, the checked-out block for a closed record, and the waiting block exactly while a countdown runs |
| `CheckinForm.InputFor` | fontend/src/components/CheckinForm.tsx:53-146 | each of select, textarea, radio, checkbox, date and number gets its own input, exactly for that type, and any other type falls back to text |
| `CheckinForm.EditorKindsRenderedDistinctly` | fontend/src/components/CheckinForm.tsx:53-146 | every question type the template editor offers is rendered with a different input, and only "text" as a plain text box |
| `CheckinForm.SetAnswer` | fontend/src/components/CheckinForm.tsx:28-30 | one answer is set and every other is unchanged |
| `CheckinForm.SetOption` | fontend/src/components/CheckinForm.tsx:108-113 | ticking appends the option; unticking removes every occurrence and keeps the others |
| `CheckinForm.ClickTwice` | fontend/src/components/CheckinForm.tsx:108-113 | two clicks on one option restore whether it is ticked and leave the other options' ticks unchanged |
| `CheckinForm.SubmitPayload` | fontend/src/components/CheckinForm.tsx:32-35 | the answers are handed over exactly when the form has a template |
| `CheckinForm.ButtonText` | fontend/src/components/CheckinForm.tsx:37-41 | "處理中..." while loading, otherwise the checkout text after a check-in or for a checkout form, and the check-in text in every other case |
| `HomePage.GroupEvents` | frontend/src/pages/public/HomePage.tsx:33-37 | each group holds only events with its status |
| `HomePage.GroupsPartition` | frontend/src/pages/public/HomePage.tsx:33-37 | the three groups together hold every event as often as the list does |
| `HomePage.GroupMembership` | frontend/src/pages/public/HomePage.tsx:33-37 | an event is in a group exactly when it is listed and has that status |
| `HomePage.Notice` | frontend/src/pages/public/HomePage.tsx:121-124 | "目前沒有公開活動" shows exactly for an empty list |
| `HomePage.QrSource` | frontend/src/pages/public/HomePage.tsx:50-53 | the QR image is fetched from the file endpoint when the event has a QR path, and is empty otherwise |
| `Events.Page` | backend/app/routers/events.py:62 | OFFSET/LIMIT returns the slice from `skip`, at most `limit` long |
| `Events.WithCounts` | backend/app/routers/events.py:64-97 | each listed event carries the number of its check-in records |
| `Events.ListEvents` | backend/app/routers/events.py:45-97 | a negative `skip` or `limit` is a 500 from the database; otherwise an admin's list holds only events they may see, each with its check-in count, at most `limit` of them |
| `Events.PublicEvents` | backend/app/routers/events.py:101-113 | a negative `skip` or `limit` is a 500; otherwise the public list holds only events whose visibility is "public", at most `limit` of them |
| `Events.ListedExactlyWhenVisible` | backend/app/routers/events.py:59-60 | on a large enough first page, an event is listed exactly when the system admin asks or the admin created it |
| `Events.PublicListNewestFirst` | backend/app/routers/events.py:109-111 | filtering and paging keep the newest-first order |
| `Events.FindEvent` | backend/app/routers/events.py:258 | the query finds an event with the id exactly when one exists, and finds nothing exactly when none does |
| `Events.GetEvent` | backend/app/routers/events.py:251-265 | 404 "活動不存在" exactly when no event has the id |
| `Events.TemplatesWithIds` | backend/app/routers/events.py:288-293 | the templates fetched for a list of ids are stored ones with listed ids |
| `Events.UpdateEvent` | backend/app/routers/events.py:269-305 | 422 for a schema failure, then 404; only the supplied fields change, and the templates are replaced only when ids were sent |
| `Events.EmptyUpdateKeepsEvent` | backend/app/routers/events.py:285 | an update supplying nothing returns the stored event unchanged |
| `Events.UnsetFieldsKept` | backend/app/routers/events.py:285-296 | every field left out of an update keeps its value |
| `Events.UpdateIdempotent` | backend/app/routers/events.py:295-296 | applying the same update twice is applying it once |
| `Events.UpdateCanInvertWindow` | backend/app/routers/events.py:269-305 | an update may store an end before the start, because no rule relates the two times on update |
| `Events.ParseClock` | backend/app/routers/events.py:175-179 | "HH:mm" parses exactly when it has two colon-separated pieces that are Python integers |
| `Events.ParseClockRoundTrip` | backend/app/routers/events.py:175-179 | any two integers written as "h:m" parse back to themselves |
| `Events.ClockError` | backend/app/routers/events.py:197-198 | `time(h, m)` fails on the hour first, then the minute, and passes exactly for 0..23 and 0..59 |
| `Events.QualifyingDaysMembership` | backend/app/routers/events.py:171-194 | a day gets a member exactly when it lies in the date range and its weekday is listed |
| `Events.QualifyingDaysAscending` | backend/app/routers/events.py:192-194 | the qualifying days come out strictly ascending and within the range |
| `Events.OutOfRangeWeekdaysIgnored` | backend/app/routers/events.py:194 | listed weekdays outside 0..6 never match |
| `Events.Window` | backend/app/routers/events.py:197-205 | a member's end is the same local day's end time, or the next day's when that would not be after the start, so it is always after the start and at most a day later |
| `Events.SeriesTemplates` | backend/app/routers/events.py:186-190 | templates are fetched only for a non-empty id list |
| `Events.SeriesFor` | backend/app/routers/events.py:192-219 | one member per day, in order |
| `Events.MembersOutcome` | backend/app/routers/events.py:181-248 | an empty range or a bad hour or minute ends in a 500 "創建系列活動失敗: …", and otherwise the members are created |
| `Events.SeriesOutcome` | backend/app/routers/events.py:159-248 | an unparsable time is the 400 format error, and every other failure is a 500 with the series prefix |
| `Events.GenerateMembers` | backend/app/routers/events.py:192-222 | the day-by-day loop produces exactly the outcome the specification functions give |
| `Events.CreateSeries` | backend/app/routers/events.py:159-248 | the endpoint method agrees with the outcome function |
| `Events.SeriesMembers` | backend/app/routers/events.py:192-219 | each member starts at its day's local start time, carries the series id, the shared templates and the creator |
| `Events.SeriesAscending` | backend/app/routers/events.py:238-241 | members are created in ascending start order, so the reload by start time lists them in creation order |
| `Events.EventStats` | backend/app/routers/events.py:331-363 | 404 for a missing event; otherwise the total, the closed records, and the open ones as total minus closed |
| `Events.CheckinRows` | backend/app/routers/events.py:367-415 | the list holds only the event's records whose participant exists |
| `Events.EveryRecordListed` | backend/app/routers/events.py:389-390 | every record of the event whose participant exists has a row |
| `Events.ExportAll` | backend/app/routers/events.py:446-455 | one export row per list row |
| `Events.ExportMatchesList` | backend/app/routers/events.py:419-460 | the export skips and orders records exactly as the list does |
| `EventSchema.EventErrors` | backend/app/schemas/event.py:11-41 | a field is reported exactly when its own rule fails: an empty name, a missing start, an end not after a parsed start, or a limit below 1 |
| `EventSchema.OrDefault` | backend/app/schemas/event.py:20-33 | a missing optional field takes its declared default |
| `EventSchema.ValidateEvent` | backend/app/schemas/event.py:11-41 | a request passes exactly when no rule fails; the draft's window is then strictly increasing and unset fields take their defaults |
| `EventSchema.BareRequestDefaults` | backend/app/schemas/event.py:20-33 | a request with only a name and a window gets radius 100, type "會議", visibility "public" and no checkout |
| `EventSchema.EqualTimesRefused` | backend/app/schemas/event.py:35-41 | an end equal to the start is refused |
| `EventSchema.UpdateErrors` | backend/app/schemas/event.py:49-71 | the update schema checks only a supplied name and a supplied limit |
| `EventSchema.UpdateMayInvertWindow` | backend/app/schemas/event.py:49-71 | an update moving the end before the start passes the update schema |
| `EventSchema.ValidateSeries` | backend/app/schemas/event.py:104-111 | a series request is valid exactly when its shared event fields are |
| `Templates.ListTemplates` | backend/app/routers/templates.py:22-43 | the list holds exactly the templates the admin may see, and all of them for the system admin |
| `Templates.IndexOfId` | backend/app/routers/templates.py:78-88 | the lookup finds the template with the id, or there is none |
| `Templates.CreateTemplate` | backend/app/routers/templates.py:47-67 | only the system admin may create a public template; the new template is appended and owned by its creator |
| `Templates.GetTemplate` | backend/app/routers/templates.py:71-90 | 404 when missing; 403 exactly for another admin's private template, unless the caller is the system admin |
| `Templates.UpdateTemplate` | backend/app/routers/templates.py:94-125 | 404, then 403 for anyone but the owner or the system admin, then 403 for making it public without being the system admin; otherwise only the supplied fields change |
| `Templates.DeleteTemplate` | backend/app/routers/templates.py:129-149 | 404, then the same ownership 403; otherwise exactly that template is removed |
| `Templates.ChangeImpliesSee` | backend/app/routers/templates.py:83-145 | whoever may change or delete a template may also read it and finds it in their list |
| `Templates.OthersPublicTemplatesReadOnly` | backend/app/routers/templates.py:111-145 | an ordinary admin can read but never change or delete a public template someone else owns |
| `Templates.OnlySystemAdminPublishes` | backend/app/routers/templates.py:56-62 | after a successful create or update by an ordinary admin, the template is not public unless it already was |
| `Auth.FindByUsername` | backend/app/routers/auth.py:73-82 | the lookup finds an admin with that username, or there is none |
| `Auth.NextAdminId` | backend/app/routers/auth.py:84-97 | a new admin's id is larger than every id in use |
| `Auth.AppendKeepsUnique` | backend/app/routers/auth.py:78-97 | appending an admin with a new username and id keeps usernames and ids unique |
| `Auth.Register` | backend/app/routers/auth.py:57-97 | 422 for a short password, 403 when registration is closed, 409 for a taken username; otherwise one "Member" account is appended and uniqueness is kept |
| `Auth.SelfRegisteredNeverSystemAdmin` | backend/app/routers/auth.py:87-91 | a self-registered account is never a system admin, whatever name was sent |
| `Auth.Login` | backend/app/routers/auth.py:101-151 | an unknown user and a wrong password give the same 401, a disabled account gets a 403, and success issues a token that is the encoding of claims naming the admin's id, username and role |
| `Auth.LoginTokenAuthenticates` | backend/app/routers/auth.py:139-145 | with a decoder that reads back what the encoder signed, the token issued at login authenticates as the admin who logged in |
| `Auth.CreateAdmin` | backend/app/routers/auth.py:197-235 | system admins only; 422 for a short password and 409 for a taken username; otherwise the named admin is appended and uniqueness is kept |
| `Auth.Without` | backend/app/routers/auth.py:257-260 | removing by id keeps exactly the other admins |
| `Auth.DeleteAdmin` | backend/app/routers/auth.py:239-260 | system admins only; deleting oneself is a 400 before the lookup, then 404; otherwise exactly the admin with that id leaves the admin list (the cascade to events and templates is under Left out) |
| `Auth.ActiveFlag` | backend/app/routers/auth.py:282 | `is_active` from the body, defaulting to true when the key is missing (a boolean value only; see Left out) |
| `Auth.SetAdminStatus` | backend/app/routers/auth.py:264-285 | system admins only; deactivating oneself is a 400, then 404; otherwise only that admin's flag changes |
| `Auth.NoSelfLockout` | backend/app/routers/auth.py:248-274 | a system admin can neither delete nor deactivate their own account |
| `Auth.ChangePassword` | backend/app/routers/auth.py:24-43 | 422 for a short new password, 400 for a wrong old one; otherwise only the caller's password hash changes |
| `Auth.NewPasswordLogsIn` | backend/app/routers/auth.py:24-43 | after a change, the new password logs the caller in |
| `Auth.UniqueUsernameFound` | backend/app/routers/auth.py:120-129 | with unique usernames the login lookup finds the very admin holding the name |
| `Dependencies.SubjectId` | backend/app/core/dependencies.py:34-49 | a decoding failure, and a missing or empty `sub`, are each a 401; otherwise the subject is read as an integer |
| `Common.DetailOf` | backend/app/schemas/admin.py:15-17 | a schema failure (422) reaches the page as an array with one error object per failing field; any other error as its text |
| `Common.DetailOr` | frontend/src/pages/public/AdminRegisterPage.tsx:60 | `detail || fallback`: the array of a 422 is kept even though it is not text; only an empty text gives way to the fallback |
| `Common.ObjectsText` | fontend/src/pages/admin/UserManagementPage.tsx:51 | `String` of an array of n plain objects splits at commas into n pieces, each "[object Object]" |
| `Common.AlertText` | fontend/src/pages/admin/UserManagementPage.tsx:51 | `alert` shows a text as it is and an array of error objects as one "[object Object]" per object |
| `Common.ParseIntPyRoundTrip` | backend/app/core/dependencies.py:49 | an integer rendered as text reads back through Python's `int` as itself |
| `Dependencies.FindAdmin` | backend/app/core/dependencies.py:48-51 | the lookup finds the admin with the id, or there is none |
| `Dependencies.FindUser` | backend/app/core/dependencies.py:85-88 | the lookup finds the user with the id, or there is none |
| `Dependencies.FindAdminUnique` | backend/app/core/dependencies.py:48-51 | with unique ids the lookup finds exactly the admin with that id |
| `Dependencies.CurrentAdmin` | backend/app/core/dependencies.py:20-59 | the authenticated admin is the stored admin the token's subject names; a missing one is 401 "用戶不存在" |
| `Dependencies.CurrentUser` | backend/app/core/dependencies.py:62-96 | the same steps against the LINE users |
| `Dependencies.OptionalAdmin` | backend/app/core/dependencies.py:99-125 | an admin exactly when credentials were sent and they authenticate, and no error in any case |
| `Dependencies.RequireSystemAdmin` | backend/app/core/dependencies.py:128-140 | authentication errors pass through, and any admin but "系統管理員" gets a 403 |
| `Dependencies.SubjectTokenAuthenticates` | backend/app/core/dependencies.py:37-59 | a token whose subject is an admin's id authenticates as that admin |
| `Dependencies.UserTokenServesAsAdminToken` | backend/app/core/dependencies.py:37-59 | the kind of token is not checked: a LINE user's token authenticates as the admin with the same id |
| `Users.CreateErrors` | backend/app/schemas/user.py:10-29 | a field is reported exactly when its rule fails: an empty name, company or department, or a phone not matching `^09\d{8}$` |
| `Users.FindByLineId` | backend/app/routers/users.py:50-54 | the lookup finds the user with that LINE id, or there is none |
| `Users.NextUserId` | backend/app/routers/users.py:62-74 | a new user's id is larger than every id in use |
| `Users.CreateUser` | backend/app/routers/users.py:33-74 | 422 for a schema failure, 409 for a registered LINE id; otherwise one user is appended and LINE ids stay unique |
| `Users.SecondRegistrationRefused` | backend/app/routers/users.py:50-59 | registering the same LINE id again is refused |
| `Users.GetUser` | backend/app/routers/users.py:78-98 | 404 "用戶不存在" exactly when no user has the id |
| `Users.RegisteredUserFound` | backend/app/routers/users.py:62-98 | a newly registered user is found under the id it was given |
| `Users.NewestFound` | backend/app/routers/users.py:78-98 | an appended user with a fresh id is found |
| `Users.UpdateErrors` | backend/app/schemas/user.py:32-46 | the update schema checks only a non-empty phone |
| `Users.TrailingNewlineAccepted` | backend/app/schemas/user.py:22 | Python's `$` lets one trailing newline through, but not two |
| `RegisterForm.Validate` | frontend/src/components/RegisterForm.tsx:21-57 | the first failing check's message, in the order name, phone missing, phone format, company, department, on trimmed values |
| `RegisterForm.HandleSubmit` | frontend/src/components/RegisterForm.tsx:59-74 | a failing check shows its message and sends nothing; otherwise the trimmed values are sent |
| `RegisterForm.SubmitFailure` | frontend/src/components/RegisterForm.tsx:59-74 | the rejection's message, or a fixed text |
| `RegisterForm.FrontendPhoneAcceptedByBackend` | frontend/src/components/RegisterForm.tsx:39-43 | every phone the form accepts also passes the backend rule |
| `RegisterForm.PayloadPassesBackendSchema` | frontend/src/components/RegisterForm.tsx:59-74 | whatever the form sends passes the backend's registration schema |
| `RegisterForm.BackendAcceptsMore` | backend/app/schemas/user.py:22 | the backend accepts phones the form refuses: a trailing newline, or a non-ASCII decimal digit |
| `CreateEventPage.OrUndefined` | frontend/src/pages/admin/CreateEventPage.tsx:104-107 | an empty text is left out and any other is sent |
| `CreateEventPage.MaxParticipantsOf` | frontend/src/pages/admin/CreateEventPage.tsx:95 | an empty limit is left out, and any other is `parseInt` of the text |
| `CreateEventPage.CheckoutModeOf` | frontend/src/pages/admin/CreateEventPage.tsx:99 | the mode is sent exactly when checkout is required |
| `CreateEventPage.CheckoutDurationOf` | frontend/src/pages/admin/CreateEventPage.tsx:100-102 | the duration is sent exactly for a required checkout after a duration |
| `CreateEventPage.Body` | frontend/src/pages/admin/CreateEventPage.tsx:128-151 | corrected: the request carries the window, the name, the optional fields by those rules, and also the selected template ids, which the page as written leaves out (as written: `CreateEventPage.SubmitAsWritten`) |
| `CreateEventPage.Submit` | frontend/src/pages/admin/CreateEventPage.tsx:70-161 | corrected: a series needs both dates and a weekday; a single event needs a valid window; otherwise the matching request is sent, with the ticked template ids (as written: `CreateEventPage.SubmitAsWritten`) |
| `CreateEventPage.SubmitAsWritten` | frontend/src/pages/admin/CreateEventPage.tsx:85-151 | as written, the same outcome but neither request carries template ids |
| `CreateEventPage.SelectedTemplatesDropped` | frontend/src/pages/admin/CreateEventPage.tsx:128-151 | as written, the server's draft names no templates whatever was ticked |
| `CreateEventPage.SelectedTemplatesKept` | frontend/src/pages/admin/CreateEventPage.tsx:240-244 | with the ids sent, the draft names exactly the ticked templates |
| `CreateEventPage.SentWindowAlwaysValid` | frontend/src/pages/admin/CreateEventPage.tsx:121-126 | whatever the page sends passes the schema's end-after-start rule |
| `CreateEventPage.TemplateClickTwice` | frontend/src/pages/admin/CreateEventPage.tsx:273-277 | ticking a template twice restores its selection and leaves the others |
| `CreateEventPage.WeekdayButtons` | frontend/src/pages/admin/CreateEventPage.tsx:350-355 | the weekday toggles keep days within 0..6, and pressing one twice restores the set of days |
| `EditEventForm.OrEmpty` | frontend/src/components/EditEventForm.tsx:89-92 | a missing text shows as "" |
| `EditEventForm.TemplateIds` | frontend/src/components/EditEventForm.tsx:93 | the ids of the event's templates, in order |
| `EditEventForm.Load` | frontend/src/components/EditEventForm.tsx:82-94 | the form is a copy of the stored event, with a zero radius shown as 100 and a null description or location kept null |
| `EditEventForm.MaxParticipantsInput` | frontend/src/components/EditEventForm.tsx:139-144 | an empty box clears the limit, and any other value is `parseInt` of the text |
| `EditEventForm.LimitPatch` | frontend/src/components/EditEventForm.tsx:179 | a limit of 0 or none is not sent |
| `EditEventForm.IdPatch` | frontend/src/components/EditEventForm.tsx:183-186 | an empty template id is not sent |
| `EditEventForm.Body` | frontend/src/components/EditEventForm.tsx:170-188 | corrected: the update sends the window, the name and the listed fields (a null description or location as null), never checkout mode, duration, visibility or series, and also the ticked template ids, which the form as written leaves out (as written: `EditEventForm.SubmitAsWritten`) |
| `EditEventForm.Submit` | frontend/src/components/EditEventForm.tsx:154-200 | corrected: the end must be strictly after the start, an invalid date is refused, and otherwise the update with the ticked template ids is sent (as written: `EditEventForm.SubmitAsWritten`) |
| `EditEventForm.RemoveId` | frontend/src/components/EditEventForm.tsx:395 | `filter(id => id !== x)` leaves no `x` and every other id as it was |
| `EditEventForm.ToggleTemplate` | frontend/src/components/EditEventForm.tsx:391-396 | a box reads ticked exactly when its id is listed: ticking appends the id, unticking removes it, other ids and the rest of the form are kept |
| `EditEventForm.TickThenClear` | frontend/src/components/EditEventForm.tsx:391-396 | ticking a clear box and clearing it again gives back the same form |
| `EditEventForm.SubmitAsWritten` | frontend/src/components/EditEventForm.tsx:170-188 | as written, the same checks and fields but no template ids |
| `EditEventForm.EditKeepsUnsentFields` | frontend/src/components/EditEventForm.tsx:170-188 | saving passes the update schema and keeps checkout mode, duration, visibility and series |
| `EditEventForm.TemplateEditsIgnored` | frontend/src/components/EditEventForm.tsx:392-396 | as written, ticking templates on the edit form does not change the saved templates |
| `EditEventForm.TemplateEditsSaved` | frontend/src/components/EditEventForm.tsx:392-396 | with the ids sent, the saved templates are the stored ones whose ids were ticked |
| `EditEventForm.UntouchedTextsKept` | frontend/src/components/EditEventForm.tsx:170-175 | saving a loaded form whose texts were not touched keeps the stored name, description and location, a missing description or location included |
| `EditEventForm.ClearedLimitKept` | frontend/src/components/EditEventForm.tsx:139-144 | clearing the limit box leaves the stored limit unchanged |
| `TemplateEditor.AddFieldAsWritten` | frontend/src/pages/admin/TemplateManagementPage.tsx:40-48 | as written, the new question is named after the list's new length |
| `TemplateEditor.RemoveField` | frontend/src/pages/admin/TemplateManagementPage.tsx:50-54 | exactly entry i goes, and the others keep their order |
| `TemplateEditor.UpdateField` | frontend/src/pages/admin/TemplateManagementPage.tsx:56-60 | each supplied part (label, type, required, options) replaces entry i's, each part not supplied is kept, the name stays, and no other entry changes |
| `TemplateEditor.ParseOptions` | frontend/src/pages/admin/TemplateManagementPage.tsx:225 | the options are the comma-separated pieces, trimmed |
| `TemplateEditor.EmptyOptionsText` | frontend/src/pages/admin/TemplateManagementPage.tsx:225 | an empty box gives one empty option |
| `TemplateEditor.OptionsRoundTrip` | frontend/src/pages/admin/TemplateManagementPage.tsx:225 | options without commas or surrounding space survive being shown and read back |
| `TemplateEditor.StartEdit` | frontend/src/pages/admin/TemplateManagementPage.tsx:69-80 | the draft copies the template, with a missing trigger shown as "course_start" |
| `TemplateEditor.Save` | frontend/src/pages/admin/TemplateManagementPage.tsx:82-100 | an empty name is refused before any call; an edit sends an update, and anything else a create |
| `TemplateEditor.SaveError` | frontend/src/pages/admin/TemplateManagementPage.tsx:82-100 | the server's detail, or a fixed text |
| `TemplateEditor.PublishedTemplateLocksOwner` | backend/app/routers/templates.py:117-118 | because the editor sends the visibility back on every save, an ordinary admin can no longer save their own template once it is public |
| `TemplateEditor.ResaveKeepsTemplate` | frontend/src/pages/admin/TemplateManagementPage.tsx:69-100 | saving an unchanged draft of one's own template changes no stored field |
| `TemplateEditor.AddAfterRemoveDuplicates` | frontend/src/pages/admin/TemplateManagementPage.tsx:40-54 | as written, add, add, remove the first, add leaves two questions named "field_2" |
| `TemplateEditor.FreshName` | frontend/src/pages/admin/TemplateManagementPage.tsx:40-48 | a name no question has |
| `TemplateEditor.AddField` | frontend/src/pages/admin/TemplateManagementPage.tsx:40-48 | adding a question with a fresh name keeps names unique |
| `TemplateEditor.EditsKeepNamesUnique` | frontend/src/pages/admin/TemplateManagementPage.tsx:40-60 | with fresh naming, adds, removes and updates all keep names unique |
| `TemplateEditor.AddAfterRemoveDistinct` | frontend/src/pages/admin/TemplateManagementPage.tsx:40-54 | with fresh naming, the same sequence gives distinct names |
| `Dashboard.Ids` | fontend/src/pages/admin/DashboardPage.tsx:55-67 | the ids of the listed events |
| `Dashboard.Refetch` | fontend/src/pages/admin/DashboardPage.tsx:21-43 | a successful fetch replaces the rows and clears the selection; a failed one keeps both; loading ends either way |
| `Dashboard.SelectAll` | fontend/src/pages/admin/DashboardPage.tsx:55-67 | ticking the header selects every listed event, and unticking selects none |
| `Dashboard.SelectOne` | fontend/src/pages/admin/DashboardPage.tsx:71-87 | a row's tick flips its event's membership and leaves every other selection |
| `Dashboard.DeleteSelected` | fontend/src/pages/admin/DashboardPage.tsx:91-123 | nothing happens with an empty selection or without confirmation; otherwise the deletes are requested and the outcome is announced |
| `Dashboard.DistinctIdsCount` | fontend/src/pages/admin/DashboardPage.tsx:225 | distinct rows have as many ids as rows |
| `Dashboard.FullSubset` | fontend/src/pages/admin/DashboardPage.tsx:225 | a subset as large as a finite set is that set |
| `Dashboard.HeaderMeansAllSelected` | fontend/src/pages/admin/DashboardPage.tsx:225 | the header box, which compares only sizes, is ticked exactly when the list is non-empty and every row is selected |
| `Dashboard.SelectAllShowsInHeader` | fontend/src/pages/admin/DashboardPage.tsx:55-67 | after "select all" on a non-empty list, the header shows ticked |
| `Dashboard.ActionsKeepConsistent` | fontend/src/pages/admin/DashboardPage.tsx:21-87 | every action keeps the selection within the listed events |
| `Dashboard.SelectOneTwice` | fontend/src/pages/admin/DashboardPage.tsx:71-87 | ticking a row twice restores the selection |
| `Dashboard.DeletedEventsGone` | fontend/src/pages/admin/DashboardPage.tsx:91-123 | after a confirmed deletion the refetched list contains none of the selected events, and the selection is empty |
| `UserManagement.ToggleBody` | fontend/src/pages/admin/UserManagementPage.tsx:132-137 | the toggle sends the negation of the row's status |
| `UserManagement.ToggleLabel` | fontend/src/pages/admin/UserManagementPage.tsx:133-140 | the button is labelled by the action it takes |
| `UserManagement.Request` | fontend/src/pages/admin/UserManagementPage.tsx:42-53 | the dialog's three fields become the create request |
| `UserManagement.HandleCreate` | fontend/src/pages/admin/UserManagementPage.tsx:42-53 | success closes and resets the dialog; failure keeps it and alerts the detail text (a fixed text when empty), or, for a 422, one "[object Object]" per failing field |
| `UserManagement.ShortPasswordAlertsObject` | fontend/src/pages/admin/UserManagementPage.tsx:42-53 | the dialog does not check the length, so a system admin's too-short password is refused by the schema and the alert reads "[object Object]" |
| `UserManagement.ActionsShownIffAccepted` | fontend/src/pages/admin/UserManagementPage.tsx:129 | the row actions show exactly when the server would accept both the delete and the toggle |
| `UserManagement.CreateButtonIffPermitted` | fontend/src/pages/admin/UserManagementPage.tsx:84 | the create button shows exactly for the viewer the server lets create admins |
| `UserManagement.ToggleFlipsStatus` | fontend/src/pages/admin/UserManagementPage.tsx:134 | an accepted toggle stores the opposite of the row's status |
| `UserManagement.DefaultDialogCreatesOrdinaryAdmin` | fontend/src/pages/admin/UserManagementPage.tsx:20 | the default role "管理員" never creates a system admin |
| `ChangePasswordPage.Utf16Length` | frontend/src/pages/admin/ChangePasswordPage.tsx:35-39 | `.length` counts UTF-16 units: between one and two per character |
| `ChangePasswordPage.BmpLength` | frontend/src/pages/admin/ChangePasswordPage.tsx:35-39 | for text without astral characters, `.length` equals the character count |
| `ChangePasswordPage.Check` | frontend/src/pages/admin/ChangePasswordPage.tsx:23-39 | mismatch first, then length, and a request is sent exactly when both pass |
| `ChangePasswordPage.HandleSubmit` | frontend/src/pages/admin/ChangePasswordPage.tsx:23-56 | refusal messages, the request sent, success clearing the fields, and otherwise the server's detail (the array of error objects for a 422, a fixed text for an empty text) with the fields kept |
| `ChangePasswordPage.SameMinimum` | backend/app/schemas/auth.py:17 | the page's minimum equals the schema's |
| `ChangePasswordPage.SentRequestPassesLengthRule` | backend/app/routers/auth.py:24-43 | for a sent request without astral characters, the server succeeds exactly when the old password is right |
| `ChangePasswordPage.AstralPasswordPassesOnlyTheClient` | frontend/src/pages/admin/ChangePasswordPage.tsx:35-39 | three emoji pass the page's length check but fail the server's |
| `ChangePasswordPage.AstralPasswordLeavesUnrenderableError` | frontend/src/pages/admin/ChangePasswordPage.tsx:41-66 | the request those three emoji send leaves as the error an array of error objects the banner cannot render |
| `AdminRegisterPage.ConfigLoaded` | frontend/src/pages/public/AdminRegisterPage.tsx:18-30 | checking ends either way, and sign-up is open only on a fetched true |
| `AdminRegisterPage.ViewOf` | frontend/src/pages/public/AdminRegisterPage.tsx:66-82 | loading while checking, the form only when open, and the closed notice otherwise |
| `AdminRegisterPage.Request` | frontend/src/pages/public/AdminRegisterPage.tsx:51-55 | the request carries username, password and name, but not the confirmation |
| `AdminRegisterPage.HandleSubmit` | frontend/src/pages/public/AdminRegisterPage.tsx:39-64 | differing passwords are refused locally; success goes to the login page; an error leaves its detail, the array of error objects for a 422, or the fixed text for an empty text |
| `AdminRegisterPage.ShortPasswordLeavesUnrenderableError` | frontend/src/pages/public/AdminRegisterPage.tsx:39-96 | the page does not check the length, so a matching password shorter than six characters is sent, refused by the schema, and leaves an error the banner cannot render |
| `AdminRegisterPage.FormOnlyWhenOpen` | frontend/src/pages/public/AdminRegisterPage.tsx:15-30 | the form appears exactly after the server reported sign-up open |
| `AdminRegisterPage.TypedNameIgnored` | backend/app/routers/auth.py:87-91 | whatever name is typed, sign-up stores an ordinary "Member" account |
| `AdminRegisterPage.ShownFormNotClosed` | backend/app/routers/auth.py:66-70 | with the form shown from the server's own setting, the server never answers "closed" |
| `ApiClient.AuthorizationHeader` | frontend/src/services/api.ts:21-39 | the admin token wins, then the LINE token, else no header |
| `ApiClient.LowerAscii` | frontend/src/services/api.ts:24-34 | ASCII lower case, character by character |
| `ApiClient.Credentials` | frontend/src/services/api.ts:24-34 | a reference bearer reader, standing in for the server's: reading a header back yields a token only for the "bearer" scheme with a non-empty token |
| `ApiClient.HeaderCarriesToken` | frontend/src/services/api.ts:24-34 | the header sent yields back exactly the token it was built from |
| `ApiClient.OnError` | frontend/src/services/api.ts:42-79 | a 401 removes the token sent and redirects as the three cases say; other errors change nothing |
| `ApiClient.NoTokenRedirectsOnAdminPages` | frontend/src/services/api.ts:69-75 | with no token, the redirect happens exactly on admin pages |
| `ApiClient.ExpiredTokenNotResent` | frontend/src/services/api.ts:45-76 | after a 401 the rejected token is never sent again |
| `ApiClient.Settle` | frontend/src/services/api.ts:43-77 | successes unwrap to their body, and errors are rejected unchanged |
| `AuthStore.Login` | frontend/src/store/authStore.ts:25-41 | success stores the issued token and the admin's text in browser storage, other keys kept, and holds the admin; a failure first passes through the client's 401 handling, which decides storage and redirect, then signs out and throws again |
| `AuthStore.WrongPasswordClearsOldSession` | frontend/src/services/api.ts:45-62 | a wrong password on the login page, with an old admin token stored, removes the token and the cached admin and reloads the login page; without tokens, or for any other status, storage stays as it was |
| `AuthStore.Logout` | frontend/src/store/authStore.ts:43-56 | signed out whatever the server answered; the token and the admin's text are removed only after a successful call |
| `AuthStore.CheckAuth` | frontend/src/store/authStore.ts:58-84 | without a token no request is made; a failure passes through the client's 401 handling, which decides the redirect, and the token and the cached admin are removed |
| `AuthStore.ExpiredSessionSentToLogin` | frontend/src/services/api.ts:45-62 | a stored token refused with 401 during the check sends the browser to the login page exactly from an admin page or the login page; a 403 sends it nowhere |
| `AuthStore.SetAdmin` | frontend/src/store/authStore.ts:86-88 | authenticated exactly when an admin is given |
| `AuthStore.Step` | frontend/src/store/authStore.ts:20-88 | every action leaves the store authenticated exactly when it holds an admin; a successful login leaves its token stored, a failed one leaves what the 401 handling leaves, a successful logout leaves no token, and setting the admin or a failed logout leave storage alone |
| `AuthStore.RunKeepsValid` | frontend/src/store/authStore.ts:20-88 | from a valid state, any sequence of actions keeps that invariant |
| `AuthStore.InitialValid` | frontend/src/store/authStore.ts:20-23 | the initial state is valid and loading |
| `AuthStore.LoginThenCheckAuth` | frontend/src/store/authStore.ts:25-84 | after a successful login the stored token is the one the server issued, and a later check sends it and keeps the same admin, authenticated, with storage unchanged and no redirect |
| `AuthStore.LogoutThenCheckAuthAsksNothing` | frontend/src/store/authStore.ts:43-66 | after a successful logout a check asks the server nothing and stays signed out |
| `BaseStore.CheckLogin` | fontend/src/store/baseStore.ts:54-95 | only a 200 whose `authenticated` is the boolean true logs in; every answer marks the store initialised |
| `BaseStore.Logout` | fontend/src/store/baseStore.ts:97-111 | success resets the login and keeps `initialized`; failure changes nothing and rejects |
| `BaseStore.Hydrate` | fontend/src/store/baseStore.ts:121-132 | a saved state is restored but marked not initialised |
| `BaseStore.StartupDecidedByServer` | fontend/src/store/baseStore.ts:121-139 | in a browser the state after loading depends only on the server's answer |
| `BaseStore.OnlyBooleanTrueLogsIn` | fontend/src/store/baseStore.ts:68-75 | a truthy `authenticated` other than true does not log in |
| `BaseStore.LogoutAfterCheckStaysInitialized` | fontend/src/store/baseStore.ts:97-111 | after a check and a logout the store is logged out but still initialised |
| `Files.PyJoin` | backend/app/routers/files.py:18 | `os.path.join`: an absolute second part replaces the first, and a separator is added only when needed |
| `Files.Normalize` | backend/app/routers/files.py:22-23 | `normpath` keeps one or two leading separators and only proper names |
| `Files.AbsPathOf` | backend/app/routers/files.py:22-23 | `abspath` of a relative path is taken from the working directory, and the result holds only proper names |
| `Files.Serve` | backend/app/routers/files.py:25-34 | a refused path is a 403 before the file system is asked; a missing path or a directory is a 404; a file is served |
| `Files.GetFileAsWritten` | backend/app/routers/files.py:12-34 | as written, a 403 exactly when the text of the resolved path does not start with the text of the upload directory |
| `Files.GetFile` | backend/app/routers/files.py:12-34 | a 403 exactly when the resolved path is not inside the upload directory, component by component; a served file lies inside it |
| `Files.JoinWalk` | backend/app/routers/files.py:18-23 | normalising a joined path walks the base's components and then the appended path's |
| `Files.RequestWalk` | backend/app/routers/files.py:18-23 | the requested path's components continue the upload directory's |
| `Files.PlainNamesAdmitted` | backend/app/routers/files.py:25-26 | a relative request without ".." is always inside the upload directory |
| `Files.InsideStartsWithDirectory` | backend/app/routers/files.py:25 | when the path and the directory share the same lead of separators, a path inside the directory starts with the directory's text, so for such paths the written check admits everything the intended one does |
| `Files.SiblingAdmittedAsWritten` | backend/app/routers/files.py:25-26 | the written check admits any sibling directory whose name extends the upload directory's name, while the intended check refuses it |
| `Files.SiblingDirectoryAdmitted` | backend/app/routers/files.py:25-26 | "../uploads_x/secret.txt" against "./uploads" from "/app" passes the written check but lies outside |
| `Files.SiblingRefused` | backend/app/routers/files.py:25-26 | with the intended check, that request is a 403 whatever the file system holds |

## Left out

- Distance, float parsing, password hashing and token encoding and decoding are function
  parameters. They are the haversine formula, Python `float`, bcrypt and JWT, which
  cannot be seen here, and floating point is not modelled.
- Time zones: Asia/Taipei is a fixed offset of eight hours, which has held since 1979.
  Times are integers in milliseconds, so sub-millisecond precision is not modelled.
- Python `int()` accepts underscores between digits and non-ASCII Unicode digits.
  `Common.ParseIntPy` models signs, surrounding whitespace and ASCII digits only.
- Events.UpdateEvent: an explicit JSON `null` is modelled only for the fields the event
  schema itself lets be null: description, location, coordinates, participant limit,
  checkout mode and duration, series and the template ids. The update schema
  (backend/app/schemas/event.py:49-71) also lets `null` through for name, the two times,
  radius, event_type, location_validation, require_checkout and visibility, and
  `update_event` writes it (backend/app/routers/events.py:285-296). Name and the two
  times are NOT NULL columns, so the commit fails with a 500. The other five columns
  accept the null (backend/app/models/event.py:33-41), so it is stored. Then
  `EventResponse.model_validate` (events.py:305) fails, which is a 500 for that update
  and for every later read of the event. With location validation on, the check-in
  comparison `distance > event.radius` (backend/app/routers/checkins.py:71) fails the
  same way. The model's `radius: int` and `Patch<int>` fields cannot express these
  paths, and none of these 500s is modelled.
- The HTTP bearer extraction of FastAPI (a missing or malformed Authorization header,
  answered 403 by `HTTPBearer`) is not modelled. The dependencies start from the token.
- The LINE OAuth callback (backend/app/routers/auth.py:288-371) calls LINE's servers,
  so it is not part of this model.
- Persistence, sessions, timers, `setTimeout` and React rendering order are not
  modelled. Each handler is one step from a state and the server's answer.
- Checkins.Submit: the one-record-per-pair property is a precondition, not something the
  database enforces. The check-in table has no unique constraint on (user_id, event_id)
  (backend/app/models/checkin.py:11-25), so two concurrent first submissions can both
  insert. After that, the `scalar_one_or_none()` lookup (backend/app/routers/checkins.py:86-93)
  raises MultipleResultsFound, and every later submission for that pair answers 500.
  Interleaved requests are not modelled.
- The EventPage guard that disables check-in when the event, user or token is missing
  (EventPage.tsx:125-128) is not modelled. Neither are the HomePage's and EventPage's
  reads of the clock, which are `now` parameters.
- JavaScript `Date` parsing is a `DateParser` parameter. NaN comparisons are modelled
  as a refused invalid date, as `toISOString` throws.
- List ordering by the database is modelled as the given sequence order. The export's
  CSV/Excel formatting and QR-code image generation are not modelled.
- Numeric form inputs: the create page's numeric fields are numbers in the model. Only
  `max_participants` is raw text passed through `parseInt`.
- `EditEventForm.formatDateForInput` (local date formatting for the inputs) is a
  parameter.
- The backend's `UserUpdate` schema is modelled as `Users.UpdateErrors`, but no router
  uses it.
- Browser constraint validation (`required`, `minLength`, `type=email`) is not modelled.
  The pages are modelled as if the form were submitted.
- In files.py, `exists` and `isfile` ask the operating system. The model's file system
  is a function from the joined path. Symbolic links, and the OS resolving "..", are not
  modelled. The check itself is lexical, as in the source.
- `Files.Admitted` compares components and ignores the count of leading separators. A
  lead of "//" and a lead of "/" are the same directory on POSIX systems.
- `window.confirm` and `alert` are parameters or outputs.
- Dashboard bulk deletion uses `Promise.all`. A partial failure, where some deletes
  succeed before one fails, is reported as a failure, but which deletions happened is
  not modelled.
- BaseStore hydration restores a saved state as a whole. A partially readable saved
  state is not modelled.
- FastAPI's 422 body is a list of error objects. The model's 422 errors carry the
  failing field names joined by commas, and `Common.DetailOf` turns them into the array
  a page receives; the objects' own fields (location, message, type) are not modelled.
- Auth.ActiveFlag: the body is a free-form `dict`, and the model takes `is_active` as a
  boolean or missing. Any other JSON value (a string, a number, null) is written to the
  Boolean column as it is, where the database layer coerces or rejects it; that path is
  not modelled.
- fontend/src/components/User/UserManagement.tsx and UserTable.tsx, an older
  participant-management screen, are not part of this model.
- Auth.DeleteAdmin: only the admin list is modelled. The database deletes the admin's
  events, with their check-ins, and the admin's templates along with the account
  (`cascade="all, delete-orphan"` in backend/app/models/admin.py:24-25); the contract
  says nothing about those tables.
- ApiClient.Credentials is a reference reader for the bearer scheme, used to state what
  the client's header carries. The server's own reader (FastAPI's `HTTPBearer`) is not
  modelled.
- AuthStore.LoginThenCheckAuth assumes what JWT guarantees and the model cannot see: the
  issued token is not empty and decodes back to the claims it was signed from.
- AuthStore.Logout: a failed server call leaves browser storage as it was. What the
  client's 401 handling (`ApiClient.OnError`) does to storage on that failure is stated
  by `ApiClient.OnError` and not composed into the store's step.
- Checkins.LocationGate: the distance is compared as a real number, not as an IEEE
  double.

## Findings

| source | as written | input that shows it | evidently intended | confidence | as-written member | corrected member |
|---|---|---|---|---|---|---|
| frontend/src/pages/public/EventPage.tsx:290 | the page reads the record from `response.checkin`, but the endpoint returns the bare record, so `isCheckout` is always false | an open record past its threshold; the checkout succeeds and the page sets the message "簽到成功！" and shows the result screen titled "簽到成功", with `hasCheckedIn`/`canCheckout` set, while the server refuses any further submission | read the returned record itself and recognise a closed record | high (not executed) | `Agreement.CheckoutReplyMisread` | `Agreement.ReplyReadCorrectly` |
| backend/app/routers/files.py:25 | `full_path.startswith(upload_abs)` compares text, so a sibling directory whose name extends the upload directory's passes | upload directory "./uploads", working directory "/app", request "../uploads_x/secret.txt" | admit only paths inside the upload directory, component by component | high (not executed) | `Files.SiblingDirectoryAdmitted` | `Files.GetFile` |
| frontend/src/pages/admin/CreateEventPage.tsx:128-151 | neither request carries the ticked `template_ids`, so a new event never gets its templates | any form with a ticked template | send the ticked ids | high (not executed) | `CreateEventPage.SelectedTemplatesDropped` | `CreateEventPage.SelectedTemplatesKept` |
| frontend/src/components/EditEventForm.tsx:170-188 | the update omits `template_ids`, so template edits are silently dropped | any edit that ticks or unticks a template | send the ticked ids | high (not executed) | `EditEventForm.TemplateEditsIgnored` | `EditEventForm.TemplateEditsSaved` |
| frontend/src/pages/admin/TemplateManagementPage.tsx:40-48 | a new question is named `field_${length+1}`, which can collide after a removal | add, add, remove the first, add: two questions named "field_2" | a name not in use | medium (not executed) | `TemplateEditor.AddAfterRemoveDuplicates` | `TemplateEditor.AddAfterRemoveDistinct` |

=== FILE: admin_register.dfy ===
/** The public admin sign-up page (frontend/src/pages/public/AdminRegisterPage.tsx): the
    view chosen from the registration setting fetched on load, the password confirmation
    check and the request it sends, answered by `Auth.Register`. */
module AdminRegisterPage {
  import opened Common
  import opened Domain
  import Auth

  const Mismatch: string := "兩次輸入的密碼不一致"
  const Registered: string := "註冊成功！請登入。"
  const RegisterFailed: string := "註冊失敗，請稍後再試"
  const LoginPath: string := "/login"

  /** The gate: whether the setting is still being fetched and whether sign-up is open. */
  datatype Gate = Gate(checking: bool, allowed: bool)

  const InitialGate: Gate := Gate(true, false)

  /** The setting fetched on load (`None` when the fetch failed): the fetched flag, or
      closed when the fetch failed. Checking is over either way. */
  function ConfigLoaded(g: Gate, config: Option<bool>): (r: Gate)
    ensures !r.checking
    ensures config.Some? ==> r.allowed == config.value
    ensures config.None? ==> r.allowed == g.allowed
  {
    match config
    case Some(flag) => Gate(false, flag)
    case None => g.(checking := false)
  }

  datatype View = Loading | Closed | SignUpForm

  /** The page shows the loading text while checking, the "closed" notice when sign-up is
      not allowed, and the form otherwise. */
  function ViewOf(g: Gate): (v: View)
    ensures v == Loading <==> g.checking
    ensures v == SignUpForm <==> !g.checking && g.allowed
  {
    if g.checking then Loading else if !g.allowed then Closed else SignUpForm
  }

  datatype Fields = Fields(username: string, password: string, confirmPassword: string, name: string)

  /** The request: username, password and name; the confirmation is not sent. */
  function Request(f: Fields): (req: Auth.AdminCreate)
    ensures req.username == f.username && req.password == f.password && req.name == f.name
  {
    Auth.AdminCreate(f.username, f.password, f.name)
  }

  /** What a submission did: the error shown, the request sent, the alert and the page
      navigated to. */
  datatype Submission = Submission(error: Option<Detail>, sent: Option<Auth.AdminCreate>, alert: Option<string>,
                                   navigate: Option<string>)

  /** `handleSubmit` given the server's answer (unused when nothing is sent): differing
      passwords are refused locally; a success announces itself and goes to the login
      page; a server error shows its detail (for a schema failure FastAPI's array of
      error objects) or, when that is an empty text, a fixed text. */
  function HandleSubmit(f: Fields, reply: Result<seq<Admin>>): (r: Submission)
    ensures f.password != f.confirmPassword ==> r == Submission(Some(DetailText(Mismatch)), None, None, None)
    ensures r.sent.Some? <==> f.password == f.confirmPassword
    ensures r.sent.Some? ==> r.sent.value == Request(f)
    ensures r.sent.Some? && reply.Ok? ==> r.error.None? && r.alert == Some(Registered) && r.navigate == Some(LoginPath)
    ensures r.sent.Some? && reply.Err? ==> r.alert.None? && r.navigate.None?
                                           && r.error == Some(DetailOr(reply.error, RegisterFailed))
  {
    if f.password != f.confirmPassword then Submission(Some(DetailText(Mismatch)), None, None, None)
    else match reply
      case Ok(_) => Submission(None, Some(Request(f)), Some(Registered), Some(LoginPath))
      case Err(e) => Submission(Some(DetailOr(e, RegisterFailed)), Some(Request(f)), None, None)
  }

  /** The form appears only after the server reported sign-up open; a failed fetch leaves
      the closed notice. */
  lemma FormOnlyWhenOpen(config: Option<bool>)
    ensures ViewOf(ConfigLoaded(InitialGate, config)) == SignUpForm <==> config == Some(true)
    ensures config.None? ==> ViewOf(ConfigLoaded(InitialGate, config)) == Closed
  {
  }

  /** Whatever name is typed, a successful sign-up stores an ordinary "Member" account
      under the typed username. */
  lemma TypedNameIgnored(admins: seq<Admin>, f: Fields, allowRegistration: bool, hash: Auth.Hasher)
    requires HandleSubmit(f, Ok(admins)).sent.Some?
    requires Auth.Register(admins, HandleSubmit(f, Ok(admins)).sent.value, allowRegistration, hash).Ok?
    ensures var a := Auth.Register(admins, HandleSubmit(f, Ok(admins)).sent.value, allowRegistration, hash).value[|admins|];
            a.name == Auth.MemberRole && a.username == f.username && !IsSystemAdmin(a)
  {
    Auth.SelfRegisteredNeverSystemAdmin(admins, Request(f), allowRegistration, hash);
  }

  /** The page does not check the password's length. A matching pair shorter than the
      server's minimum is sent, refused by the schema, and leaves as the error an array of
      one error object, which the error banner cannot render. */
  lemma ShortPasswordLeavesUnrenderableError(admins: seq<Admin>, f: Fields, allowRegistration: bool, hash: Auth.Hasher)
    requires f.password == f.confirmPassword && |f.password| < Auth.MinPasswordLength
    ensures var r := HandleSubmit(f, Auth.Register(admins, Request(f), allowRegistration, hash));
            r.sent.Some? && r.error == Some(ErrorObjects(1)) && !Renderable(r.error.value)
  {
  }

  /** With the form shown from the server's own setting, the server never answers a sent
      request with "registration closed". */
  lemma ShownFormNotClosed(admins: seq<Admin>, f: Fields, allowRegistration: bool, hash: Auth.Hasher)
    requires ViewOf(ConfigLoaded(InitialGate, Some(allowRegistration))) == SignUpForm
    ensures Auth.Register(admins, Request(f), allowRegistration, hash) != Err(HttpError(403, Auth.RegistrationClosed))
  {
  }
}

=== FILE: agreement.dfy ===
/** How the two halves of the check-in lifecycle fit together: the server's advice
    messages and the page state each one produces, the page's button against the action
    the server will actually take, the countdown against the server's checkout threshold,
    and the page's reading of a successful submission. */
module Agreement {
  import opened Common
  import opened Domain
  import opened Checkins
  import opened EventPage
  import opened CheckinRecord

  // ---------------------------------------------------------------------------
  // Characters of messages.

  predicate Lacks(s: string, c: char) {
    forall k | 0 <= k < |s| :: s[k] != c
  }

  lemma LacksAppend(a: string, b: string, c: char)
    requires Lacks(a, c) && Lacks(b, c)
    ensures Lacks(a + b, c)
  {
  }

  /** A rendered integer holds only digits and the minus sign. */
  lemma IntToStringLacks(n: int, c: char)
    requires !IsAsciiDigit(c) && c != '-'
    ensures Lacks(IntToString(n), c)
  {
    IntToStringChars(n);
  }

  lemma ClockTextLacks(t: int, c: char)
    requires !Clock.IsClockChar(c)
    ensures Lacks(Clock.ClockText(t), c)
  {
  }

  // ---------------------------------------------------------------------------
  // Each server message and the branch the page takes for it.

  lemma CompletedAdviceIsCompleted()
    ensures Classify(AdviceCompleted) == Completed
  {
    ContainsMiddle("您", "已完成簽到退", "");
    assert "您" + "已完成簽到退" + "" == AdviceCompleted;
  }

  lemma CheckoutAdviceOpensCheckout()
    ensures Classify(AdviceCheckout) == CheckoutOpen
  {
    var m := AdviceCheckout;
    NotContainsByChar(m, "已完成簽到退", 0);
    NotContainsByChar(m, "已完成簽到和簽退", 0);
    ContainsMiddle("您", "可以進行簽退", "");
    assert "您" + "可以進行簽退" + "" == m;
  }

  lemma CheckinAdviceOpensCheckin()
    ensures Classify(AdviceCheckin) == CheckinOpen
  {
    var m := AdviceCheckin;
    NotContainsByChar(m, "已完成簽到退", 0);
    NotContainsByChar(m, "已完成簽到和簽退", 0);
    NotContainsByChar(m, "可以進行簽退", 5);
    NotContainsByChar(m, "簽退", 1);
    NotContainsByChar(m, "還需等待", 0);
    ContainsMiddle("您", "可以進行簽到", "");
    assert "您" + "可以進行簽到" + "" == m;
  }

  /** The wait advice holds neither '已' nor '可'. */
  lemma WaitAdviceLacks(duration: int, remaining: int, c: char)
    requires c == '已' || c == '可'
    ensures Lacks(WaitMessage(duration, remaining), c)
  {
    var d := IntToString(duration);
    var r := IntToString(remaining);
    var p1, p2, p3 := "簽到後 ", " 分鐘才能簽退，還需等待 ", " 分鐘";
    assert WaitMessage(duration, remaining) == p1 + d + p2 + r + p3;
    IntToStringLacks(duration, c);
    IntToStringLacks(remaining, c);
    assert Lacks(p1, c) && Lacks(p2, c) && Lacks(p3, c);
    LacksAppend(p1, d, c);
    LacksAppend(p1 + d, p2, c);
    LacksAppend(p1 + d + p2, r, c);
    LacksAppend(p1 + d + p2 + r, p3, c);
  }

  /** The wait advice says "還需等待". */
  lemma WaitAdviceSaysWait(duration: int, remaining: int)
    ensures Contains(WaitMessage(duration, remaining), "還需等待")
  {
    var before := "簽到後 " + IntToString(duration) + " 分鐘才能簽退，";
    var after := " " + IntToString(remaining) + " 分鐘";
    assert WaitMessage(duration, remaining) == before + "還需等待" + after;
    ContainsMiddle(before, "還需等待", after);
  }

  lemma WaitAdviceIsPending(duration: int, remaining: int)
    ensures Classify(WaitMessage(duration, remaining)) == CheckoutPending
    ensures Contains(WaitMessage(duration, remaining), "還需等待")
  {
    var m := WaitMessage(duration, remaining);
    WaitAdviceSaysWait(duration, remaining);
    assert !SaysCompleted(m) by {
      WaitAdviceLacks(duration, remaining, '已');
      NotContainsByChar(m, "已完成簽到退", 0);
      NotContainsByChar(m, "已完成簽到和簽退", 0);
    }
    assert !SaysCheckoutOpen(m) by {
      WaitAdviceLacks(duration, remaining, '可');
      NotContainsByChar(m, "可以進行簽退", 0);
      NotContainsByChar(m, "可以", 0);
    }
  }

  /** The characters the page's tests hang on that the end-of-event advice lacks. */
  lemma EndAdviceLacks(end: int, c: char)
    requires c == '已' || c == '可' || c == '還' || c == '分'
    ensures Lacks(AdviceEndMessage(end), c)
  {
    var p := "活動結束時間（";
    var q := "）到才能簽退";
    var t := Clock.ClockText(end);
    assert AdviceEndMessage(end) == p + t + q;
    ClockTextLacks(end, c);
    assert Lacks(p, c) by {
      forall k | 0 <= k < |p| ensures p[k] != c { }
    }
    assert Lacks(q, c) by {
      forall k | 0 <= k < |q| ensures q[k] != c { }
    }
    LacksAppend(p, t, c);
    LacksAppend(p + t, q, c);
  }

  /** Its only '簽' is followed by '退', so it never says "簽到". */
  lemma EndAdviceNoCheckin(end: int)
    ensures !Contains(AdviceEndMessage(end), "簽到")
  {
    var t := Clock.ClockText(end);
    var m := AdviceEndMessage(end);
    var p := "活動結束時間（";
    var q := "）到才能簽退";
    assert m == (p + t) + q;
    ClockTextLacks(end, '簽');
    assert Lacks(p + t, '簽');
    forall k | 0 <= k < |m| - 1
      ensures !(m[k] == "簽到"[0] && m[k + 1] == "簽到"[1])
    {
      if k < |p| + |t| {
        assert m[k] == (p + t)[k];
      } else {
        assert m[k] == q[k - |p| - |t|];
        assert m[k + 1] == q[k + 1 - |p| - |t|];
      }
    }
    NotContainsByPair(m, "簽到", 0);
  }

  /** The end-of-event advice matches none of the page's tests, so it changes no flag. */
  lemma EndAdviceIsUnrecognised(end: int)
    ensures Classify(AdviceEndMessage(end)) == Unrecognised
  {
    var m := AdviceEndMessage(end);
    EndAdviceLacks(end, '已');
    EndAdviceLacks(end, '可');
    EndAdviceLacks(end, '還');
    EndAdviceLacks(end, '分');
    EndAdviceNoCheckin(end);
    NotContainsByChar(m, "已完成簽到退", 0);
    NotContainsByChar(m, "已完成簽到和簽退", 0);
    NotContainsByChar(m, "可以進行簽退", 0);
    NotContainsByChar(m, "可以", 0);
    NotContainsByChar(m, "還需等待", 0);
    NotContainsByChar(m, "分鐘", 0);
    NotContainsByChar(m, "可以進行簽到", 0);
  }

  lemma MissingEventIsUnrecognised()
    ensures Classify(EventMissing) == Unrecognised
  {
    var m := EventMissing;
    NotContainsByChar(m, "已完成簽到退", 0);
    NotContainsByChar(m, "已完成簽到和簽退", 0);
    NotContainsByChar(m, "可以進行簽退", 0);
    NotContainsByChar(m, "簽退", 0);
    NotContainsByChar(m, "還需等待", 0);
    NotContainsByChar(m, "可以進行簽到", 0);
    NotContainsByChar(m, "簽到", 0);
  }

  // ---------------------------------------------------------------------------
  // The page's button against the server's action.

  /** On a fresh page, the advice leaves the button enabled exactly when the submission
      would succeed for events that need a checkout (once the location gate passes); a
      closed record hides the form; without a record the check-in button follows the event
      window. While an event waits for its end, the page still offers the check-in action
      (disabled). For events without a checkout, an open record leaves the checkout button
      enabled although the submission is refused. */
  lemma AdviceDrivesButton(event: Event, user: User, req: CheckinCreate, existing: Option<Checkin>,
                           now: int, newId: int, parseFloat: FloatParser, distance: Distance,
                           eventActive: bool)
    requires existing.Some? ==> existing.value.userId == user.id
                                && existing.value.eventId == req.eventId
    requires LocationGate(event.info, req.geolocation, parseFloat, distance).None?
    ensures var s := ApplyAdvice(Initial, Some(ValidateCheckin(Some(event), user, existing, now)));
            var outcome := CreateCheckin(Some(event), user, req, existing, now, newId, parseFloat, distance);
            && (existing.Some? && existing.value.checkoutTime.Some? ==> !FormShown(s) && outcome.Err?)
            && (existing.None? ==> FormShown(s) && ActionOf(s) == CheckinAction
                                   && (ActionAvailable(s, eventActive) <==> eventActive) && outcome.Ok?)
            && (existing.Some? && existing.value.checkoutTime.None? && event.info.requireCheckout ==>
                  FormShown(s) && (ActionAvailable(s, eventActive) <==> outcome.Ok?))
            && (existing.Some? && existing.value.checkoutTime.None? && event.info.requireCheckout
                && CheckoutGateAt(event.info, existing.value.checkinTime, now).BeforeEnd? ==>
                  ActionOf(s) == CheckinAction)
            && (existing.Some? && existing.value.checkoutTime.None? && !event.info.requireCheckout ==>
                  ActionAvailable(s, eventActive) && ActionOf(s) == CheckoutAction && outcome.Err?)
  {
    var advice := ValidateCheckin(Some(event), user, existing, now);
    match existing {
      case None =>
        CheckinAdviceOpensCheckin();
      case Some(c) =>
        if c.checkoutTime.Some? {
          CompletedAdviceIsCompleted();
        } else if event.info.requireCheckout {
          match CheckoutGateAt(event.info, c.checkinTime, now) {
            case Open => CheckoutAdviceOpensCheckout();
            case TooSoonAfterCheckin(d, rem) => WaitAdviceIsPending(d, rem);
            case BeforeEnd(end) => EndAdviceIsUnrecognised(end);
          }
        } else {
          CheckoutAdviceOpensCheckout();
        }
    }
  }

  // ---------------------------------------------------------------------------
  // The countdown against the server's threshold.

  lemma MinutesOfDecompose(diff: int)
    requires diff > 0
    ensures Decompose(diff).hours * 60 + Decompose(diff).minutes == diff / MinuteMs
  {
    var r := Decompose(diff);
    var rest := diff - (r.hours * 60 + r.minutes) * MinuteMs;
    assert 0 <= rest < MinuteMs;
    assert diff == (r.hours * 60 + r.minutes) * MinuteMs + rest;
  }

  /** The card counts down to the instant the server starts accepting the checkout: it
      shows the ready text exactly when the server's gate is open, and while it is not, the
      server's reported wait equals the card's whole hours and minutes. */
  lemma CountdownMatchesThreshold(checkin: Checkin, event: Event, now: int, shown: string)
    requires CountdownRuns(Some(checkin), event)
    ensures CountdownTarget(checkin, event) == CheckoutThreshold(event.info, checkin.checkinTime)
    ensures CountdownTarget(checkin, event).Some? ==>
              (Tick(shown, Some(checkin), event, now) == ReadyText
               <==> CheckoutGateAt(event.info, checkin.checkinTime, now).Open?)
    ensures CheckoutGateAt(event.info, checkin.checkinTime, now).TooSoonAfterCheckin? ==>
              var r := Decompose(CountdownTarget(checkin, event).value - now);
              CheckoutGateAt(event.info, checkin.checkinTime, now).remaining == r.hours * 60 + r.minutes
  {
    var g := CheckoutGateAt(event.info, checkin.checkinTime, now);
    if g.TooSoonAfterCheckin? {
      var diff := CountdownTarget(checkin, event).value - now;
      MinutesOfDecompose(diff);
      assert g.remaining == diff / MinuteMs;
    }
  }

  // ---------------------------------------------------------------------------
  // Reading a successful submission.

  /** As written, the page looks for the record under a `checkin` member the server never
      sends, so a successful checkout is taken for a check-in: the page shows the
      "簽到成功" result screen, does not record the checkout, and sets `hasCheckedIn` and
      `canCheckout` as after a check-in; a further submission is refused as completed. */
  lemma CheckoutReplyMisread(s: PageState, event: Event, user: User, req: CheckinCreate, c: Checkin,
                             now: int, newId: int, parseFloat: FloatParser, distance: Distance)
    requires c.userId == user.id && c.eventId == req.eventId
    requires CreateCheckin(Some(event), user, req, Some(c), now, newId, parseFloat, distance).Ok?
    ensures var sub := CreateCheckin(Some(event), user, req, Some(c), now, newId, parseFloat, distance).value;
            var t := HandleReplyAsWritten(BeginSubmit(s, true), event, RecordBody(sub.record));
            && sub.record.checkoutTime.Some?
            && ScreenOf(t, false, true, true) == SuccessScreen(CheckinResultTitle)
            && t.hasCheckedOut == s.hasCheckedOut
            && t.checkinMessage == Some(CheckinSucceededMessage)
            && t.currentCheckin == s.currentCheckin
            && t.hasCheckedIn && t.canCheckout && ActionAvailable(t, false)
            && CreateCheckin(Some(event), user, req, Some(sub.record), now, newId, parseFloat, distance)
               == Err(HttpError(400, AlreadyCompleted))
  {
  }

  /** Reading the record the server returns, a successful checkout is announced as one and
      hides the form, and a first check-in is recognised as such, with the record kept for
      the card. */
  lemma ReplyReadCorrectly(s: PageState, event: Event, user: User, req: CheckinCreate,
                           existing: Option<Checkin>, now: int, newId: int,
                           parseFloat: FloatParser, distance: Distance)
    requires existing.Some? ==> existing.value.userId == user.id
                                && existing.value.eventId == req.eventId
    requires CreateCheckin(Some(event), user, req, existing, now, newId, parseFloat, distance).Ok?
    ensures var sub := CreateCheckin(Some(event), user, req, existing, now, newId, parseFloat, distance).value;
            var t := HandleReply(BeginSubmit(s, true), event, RecordBody(sub.record));
            && t.currentCheckin == Some(sub.record)
            && (existing.Some? ==> ScreenOf(t, false, true, true) == SuccessScreen(CheckoutResultTitle)
                                   && t.hasCheckedOut && !FormShown(t) && t.lastActionWasCheckout
                                   && t.checkinMessage == Some(CheckoutSucceededMessage))
            && (existing.None? ==> ScreenOf(t, false, true, true) == SuccessScreen(CheckinResultTitle)
                                   && t.hasCheckedIn && !t.lastActionWasCheckout
                                   && t.checkinMessage == Some(CheckinSucceededMessage)
                                   && (event.info.requireCheckout ==> t.canCheckout))
  {
  }
}

=== FILE: api_client.dfy ===
/** The shared HTTP client (frontend/src/services/api.ts): the Authorization header the
    request interceptor attaches, and what the response interceptor does to browser
    storage and the location on an error. Browser storage is a map from key to text;
    `getItem` of a missing key is null, and the interceptors test the value for
    truthiness, so an empty text counts as missing. */
module ApiClient {
  import opened Common

  const AccessTokenKey: string := "access_token"
  const AdminKey: string := "admin"
  const LineTokenKey: string := "line_access_token"
  const CurrentUserKey: string := "current_user_id"
  const LoginPath: string := "/login"
  const BearerPrefix: string := "Bearer "

  type Storage = map<string, string>

  /** `if (localStorage.getItem(key))`: present and not empty. */
  predicate Truthy(storage: Storage, key: string) {
    key in storage && storage[key] != ""
  }

  /** The Authorization header: the admin token when there is one, otherwise the LINE user
      token, otherwise none; the value is the scheme "Bearer", a space and the token
      (section 2.1 of RFC 6750). */
  function AuthorizationHeader(storage: Storage): (h: Option<string>)
    ensures h.None? <==> !Truthy(storage, AccessTokenKey) && !Truthy(storage, LineTokenKey)
    ensures Truthy(storage, AccessTokenKey) ==> h == Some(BearerPrefix + storage[AccessTokenKey])
    ensures !Truthy(storage, AccessTokenKey) && Truthy(storage, LineTokenKey) ==>
              h == Some(BearerPrefix + storage[LineTokenKey])
  {
    if Truthy(storage, AccessTokenKey) then Some(BearerPrefix + storage[AccessTokenKey])
    else if Truthy(storage, LineTokenKey) then Some(BearerPrefix + storage[LineTokenKey])
    else None
  }

  /** ASCII lower case, as Python's `str.lower` acts on the letters A to Z. */
  function LowerAscii(s: string): (r: string)
    ensures |r| == |s|
    ensures forall i | 0 <= i < |s| :: r[i] == (if 'A' <= s[i] <= 'Z' then (s[i] as int + 32) as char else s[i])
  {
    if |s| == 0 then "" else [if 'A' <= s[0] <= 'Z' then (s[0] as int + 32) as char else s[0]] + LowerAscii(s[1..])
  }

  /** A reference reader for the bearer scheme, standing in for the server's, which is
      not part of this model: the word before the first space must be "bearer" in any
      case, and the rest, which must not be empty, is the token. It exists to state what
      the header this client builds carries. */
  function Credentials(header: string): (token: Option<string>)
    ensures token.Some? ==> ' ' in header && token.value != ""
                            && header == header[..IndexOf(header, ' ')] + " " + token.value
                            && LowerAscii(header[..IndexOf(header, ' ')]) == "bearer"
  {
    if ' ' !in header then None
    else
      var k := IndexOf(header, ' ');
      if LowerAscii(header[..k]) == "bearer" && header[k + 1..] != "" then Some(header[k + 1..]) else None
  }

  /** The header this client sends always yields back exactly the token it was built from,
      and the admin token wins over the user token. */
  lemma HeaderCarriesToken(storage: Storage)
    requires AuthorizationHeader(storage).Some?
    ensures var token := if Truthy(storage, AccessTokenKey) then storage[AccessTokenKey] else storage[LineTokenKey];
            Credentials(AuthorizationHeader(storage).value) == Some(token)
  {
    var token := if Truthy(storage, AccessTokenKey) then storage[AccessTokenKey] else storage[LineTokenKey];
    var h := BearerPrefix + token;
    assert h[6] == ' ';
    assert ' ' !in h[..6];
    assert IndexOf(h, ' ') == 6;
    assert h[..6] == "Bearer";
    assert h[7..] == token;
  }

  /** An error as the response interceptor sees it: the status, if a response came back. */
  datatype Failure = Failure(status: Option<int>)

  /** What the response interceptor does on an error: the storage afterwards and where
      the browser is sent, if anywhere. The error itself is always rejected again. */
  datatype Handled = Handled(storage: Storage, redirect: Option<string>)

  /** `currentPath.startsWith('/event/') || currentPath.startsWith('/public/')`. */
  predicate IsPublicRoute(path: string) {
    StartsWith(path, "/event/") || StartsWith(path, "/public/")
  }

  /** The error path of the response interceptor. On a 401 with an admin token, the admin
      token and the cached admin are removed and the browser goes to the login page from
      an admin page or the login page itself. With only a user token, the user token and
      user id are removed and the page stays. With no token, only an admin page is left
      for the login page. Any other error changes nothing. */
  function OnError(storage: Storage, path: string, e: Failure): (r: Handled)
    ensures e.status != Some(401) ==> r == Handled(storage, None)
    ensures r.redirect.Some? ==> r.redirect.value == LoginPath
    ensures e.status == Some(401) && Truthy(storage, AccessTokenKey) ==>
              && r.storage == storage - {AccessTokenKey, AdminKey}
              && (r.redirect.Some? <==> StartsWith(path, "/admin") || path == LoginPath)
    ensures e.status == Some(401) && !Truthy(storage, AccessTokenKey) && Truthy(storage, LineTokenKey) ==>
              r == Handled(storage - {LineTokenKey, CurrentUserKey}, None)
    ensures e.status == Some(401) && !Truthy(storage, AccessTokenKey) && !Truthy(storage, LineTokenKey) ==>
              && r.storage == storage
              && (r.redirect.Some? <==> !IsPublicRoute(path) && path != "/" && StartsWith(path, "/admin"))
  {
    if e.status != Some(401) then Handled(storage, None)
    else if Truthy(storage, AccessTokenKey) then
      Handled(storage - {AccessTokenKey, AdminKey},
              if StartsWith(path, "/admin") || path == LoginPath then Some(LoginPath) else None)
    else if Truthy(storage, LineTokenKey) then
      Handled(storage - {LineTokenKey, CurrentUserKey}, None)
    else
      Handled(storage, if !IsPublicRoute(path) && path != "/" && StartsWith(path, "/admin") then Some(LoginPath) else None)
  }

  /** With no token, the extra conditions of the redirect test are implied by the last
      one: the redirect happens exactly on admin pages. */
  lemma NoTokenRedirectsOnAdminPages(storage: Storage, path: string)
    requires !Truthy(storage, AccessTokenKey) && !Truthy(storage, LineTokenKey)
    ensures OnError(storage, path, Failure(Some(401))).redirect.Some? <==> StartsWith(path, "/admin")
  {
    if StartsWith(path, "/admin") {
      assert path[0] == '/' && path[1] == 'a';
    }
  }

  /** A user-token 401 never moves the browser, and a 401 removes the token that was sent:
      after an admin-token 401 the next request carries the user token (or nothing), and
      after a user-token 401 it carries nothing. */
  lemma ExpiredTokenNotResent(storage: Storage, path: string)
    ensures var after := OnError(storage, path, Failure(Some(401))).storage;
            && (Truthy(storage, AccessTokenKey) ==>
                  AuthorizationHeader(after) == (if Truthy(storage, LineTokenKey) then Some(BearerPrefix + storage[LineTokenKey]) else None))
            && (!Truthy(storage, AccessTokenKey) && Truthy(storage, LineTokenKey) ==>
                  AuthorizationHeader(after).None? && OnError(storage, path, Failure(Some(401))).redirect.None?)
  {
  }

  /** The answer a caller of the client sees: the body of a success, or the same error. */
  datatype Settled<T> = Resolved(data: T) | Rejected(failure: Failure)

  /** Successes are unwrapped to their body; every error is rejected unchanged. */
  function Settle<T>(response: Result<T>): (r: Settled<T>)
    ensures response.Ok? <==> r.Resolved?
    ensures response.Ok? ==> r.data == response.value
    ensures response.Err? ==> r.failure == Failure(Some(response.error.status))
  {
    match response
    case Ok(v) => Resolved(v)
    case Err(e) => Rejected(Failure(Some(e.status)))
  }
}

=== FILE: auth.dfy ===
/** The administrator endpoints (backend/app/routers/auth.py): self-registration, login,
    creating, deleting and (de)activating admins, and changing one's own password. The
    admins are a sequence; password hashing and checking are parameters. */
module Auth {
  import opened Common
  import opened Domain
  import Dependencies

  const RegistrationClosed: string := "系統目前不開放註冊"
  const UsernameTaken: string := "用戶名已被使用"
  const BadCredentials: string := "用戶名或密碼不正確"
  const AccountDisabled: string := "帳號已被停用，請聯繫管理員"
  const SelfDelete: string := "不能刪除自己的帳號"
  const SelfDisable: string := "不能停用自己的帳號"
  const AdminMissing: string := "管理員不存在"
  const WrongOldPassword: string := "舊密碼不正確"

  /** The role every self-registered account gets, whatever the request says. */
  const MemberRole: string := "Member"

  /** The schema minimum for a new password (admin creation, registration, change). */
  const MinPasswordLength: int := 6

  type Hasher = string -> string
  type Verifier = (string, string) -> bool

  datatype AdminCreate = AdminCreate(username: string, password: string, name: string)

  predicate UniqueUsernames(admins: seq<Admin>) {
    forall i, j | 0 <= i < j < |admins| :: admins[i].username != admins[j].username
  }

  function FindByUsername(admins: seq<Admin>, username: string): (r: Option<Admin>)
    ensures r.Some? ==> r.value in admins && r.value.username == username
    ensures r.None? <==> forall a | a in admins :: a.username != username
  {
    if |admins| == 0 then None
    else if admins[0].username == username then Some(admins[0])
    else FindByUsername(admins[1..], username)
  }

  /** The id the database assigns next: larger than every id in use. */
  function NextAdminId(admins: seq<Admin>): (id: int)
    ensures forall a | a in admins :: a.id < id
  {
    if |admins| == 0 then 1
    else
      var rest := NextAdminId(admins[1..]);
      assert forall a | a in admins :: a == admins[0] || a in admins[1..];
      if admins[0].id + 1 > rest then admins[0].id + 1 else rest
  }

  /** Appending an admin whose username is new keeps usernames unique, and one whose id is
      new keeps ids unique. */
  lemma AppendKeepsUnique(admins: seq<Admin>, a: Admin)
    requires forall b | b in admins :: b.username != a.username
    requires forall b | b in admins :: b.id < a.id
    ensures UniqueUsernames(admins) ==> UniqueUsernames(admins + [a])
    ensures Dependencies.UniqueAdminIds(admins) ==> Dependencies.UniqueAdminIds(admins + [a])
  {
    var s := admins + [a];
    forall i, j | 0 <= i < j < |s| && j == |admins|
      ensures s[i].username != s[j].username && s[i].id != s[j].id
    {
      assert s[i] in admins;
    }
  }

  /** Self-registration: a too-short password fails validation; then closed registration
      is a 403 and a taken username a 409; otherwise the account is added as an active
      "Member", never with the role the request names. */
  function Register(admins: seq<Admin>, req: AdminCreate, allowRegistration: bool, hash: Hasher)
    : (r: Result<seq<Admin>>)
    ensures |req.password| < MinPasswordLength ==> r == Err(HttpError(ValidationStatus, "password"))
    ensures |req.password| >= MinPasswordLength && !allowRegistration ==> r == Err(HttpError(403, RegistrationClosed))
    ensures |req.password| >= MinPasswordLength && allowRegistration && FindByUsername(admins, req.username).Some? ==>
              r == Err(HttpError(409, UsernameTaken))
    ensures r.Ok? <==> |req.password| >= MinPasswordLength && allowRegistration && FindByUsername(admins, req.username).None?
    ensures r.Ok? ==> |r.value| == |admins| + 1 && r.value[..|admins|] == admins
                      && r.value[|admins|] == Admin(NextAdminId(admins), req.username, hash(req.password), MemberRole, true)
    ensures r.Ok? && UniqueUsernames(admins) ==> UniqueUsernames(r.value)
    ensures r.Ok? && Dependencies.UniqueAdminIds(admins) ==> Dependencies.UniqueAdminIds(r.value)
  {
    if |req.password| < MinPasswordLength then Err(HttpError(ValidationStatus, "password"))
    else if !allowRegistration then Err(HttpError(403, RegistrationClosed))
    else if FindByUsername(admins, req.username).Some? then Err(HttpError(409, UsernameTaken))
    else
      var a := Admin(NextAdminId(admins), req.username, hash(req.password), MemberRole, true);
      AppendKeepsUnique(admins, a);
      Ok(admins + [a])
  }

  /** A self-registered account never holds the system-admin role, so the system-admin
      gate refuses it. */
  lemma SelfRegisteredNeverSystemAdmin(admins: seq<Admin>, req: AdminCreate, allowRegistration: bool, hash: Hasher)
    requires Register(admins, req, allowRegistration, hash).Ok?
    ensures var a := Register(admins, req, allowRegistration, hash).value[|admins|];
            !IsSystemAdmin(a)
            && Dependencies.RequireSystemAdmin(Ok(a)) == Err(HttpError(403, Dependencies.SystemAdminRequired))
  {
    var a := Register(admins, req, allowRegistration, hash).value[|admins|];
    assert a.name == MemberRole;
    assert MemberRole[0] != SystemAdminRole[0];
  }

  /** A successful login: the admin, the claims of the token issued to it, and the token. */
  datatype LoginGrant = LoginGrant(admin: Admin, claims: Dependencies.Claims, token: string)

  /** Signing claims into a token (`create_access_token`; JWT encoding is not modelled). */
  type Encoder = Dependencies.Claims -> string

  /** Login: an unknown username and a wrong password get the same 401; a disabled account
      is reported only after its password checked out; the token names the admin's id,
      username and role, and is the encoding of those claims. */
  function Login(admins: seq<Admin>, username: string, password: string, verify: Verifier, encode: Encoder): (r: Result<LoginGrant>)
    ensures FindByUsername(admins, username).None? ==> r == Err(HttpError(401, BadCredentials))
    ensures FindByUsername(admins, username).Some? && !verify(password, FindByUsername(admins, username).value.password) ==>
              r == Err(HttpError(401, BadCredentials))
    ensures r.Err? && r.error.status == 403 ==>
              r.error.detail == AccountDisabled && FindByUsername(admins, username).Some?
              && verify(password, FindByUsername(admins, username).value.password)
              && !FindByUsername(admins, username).value.isActive
    ensures r.Ok? <==> FindByUsername(admins, username).Some?
                       && verify(password, FindByUsername(admins, username).value.password)
                       && FindByUsername(admins, username).value.isActive
    ensures r.Ok? ==> var a := FindByUsername(admins, username).value;
                      r.value.admin == a
                      && r.value.claims == Dependencies.Claims(Some(IntToString(a.id)), Some(a.username), Some(a.name))
                      && r.value.token == encode(r.value.claims)
  {
    match FindByUsername(admins, username)
    case None => Err(HttpError(401, BadCredentials))
    case Some(a) =>
      if !verify(password, a.password) then Err(HttpError(401, BadCredentials))
      else if !a.isActive then Err(HttpError(403, AccountDisabled))
      else
        var claims := Dependencies.Claims(Some(IntToString(a.id)), Some(a.username), Some(a.name));
        Ok(LoginGrant(a, claims, encode(claims)))
  }

  /** The token issued at login authenticates as the admin who logged in, for as long as
      that admin exists, given a decoder that reads back what the encoder signed. */
  lemma LoginTokenAuthenticates(admins: seq<Admin>, username: string, password: string, verify: Verifier,
                                encode: Encoder, decode: Dependencies.Decoder)
    requires Dependencies.UniqueAdminIds(admins)
    requires Login(admins, username, password, verify, encode).Ok?
    requires decode(Login(admins, username, password, verify, encode).value.token)
             == Dependencies.Decoded(Login(admins, username, password, verify, encode).value.claims)
    ensures var g := Login(admins, username, password, verify, encode).value;
            Dependencies.CurrentAdmin(g.token, decode, admins) == Ok(g.admin)
  {
    var g := Login(admins, username, password, verify, encode).value;
    Dependencies.SubjectTokenAuthenticates(g.token, decode, admins, g.admin);
  }

  /** Creating an admin (system admins only): a too-short password fails validation; a
      taken username is a 409; the new admin keeps the role it was given. */
  function CreateAdmin(admins: seq<Admin>, caller: Admin, req: AdminCreate, hash: Hasher): (r: Result<seq<Admin>>)
    ensures !IsSystemAdmin(caller) ==> r == Err(HttpError(403, Dependencies.SystemAdminRequired))
    ensures IsSystemAdmin(caller) && |req.password| < MinPasswordLength ==> r == Err(HttpError(ValidationStatus, "password"))
    ensures IsSystemAdmin(caller) && |req.password| >= MinPasswordLength && FindByUsername(admins, req.username).Some? ==>
              r == Err(HttpError(409, UsernameTaken))
    ensures r.Ok? <==> IsSystemAdmin(caller) && |req.password| >= MinPasswordLength
                       && FindByUsername(admins, req.username).None?
    ensures r.Ok? ==> |r.value| == |admins| + 1 && r.value[..|admins|] == admins
                      && r.value[|admins|] == Admin(NextAdminId(admins), req.username, hash(req.password), req.name, true)
    ensures r.Ok? && UniqueUsernames(admins) ==> UniqueUsernames(r.value)
    ensures r.Ok? && Dependencies.UniqueAdminIds(admins) ==> Dependencies.UniqueAdminIds(r.value)
  {
    var gate := Dependencies.RequireSystemAdmin(Ok(caller));
    if gate.Err? then Err(gate.error)
    else if |req.password| < MinPasswordLength then Err(HttpError(ValidationStatus, "password"))
    else if FindByUsername(admins, req.username).Some? then Err(HttpError(409, UsernameTaken))
    else
      var a := Admin(NextAdminId(admins), req.username, hash(req.password), req.name, true);
      AppendKeepsUnique(admins, a);
      Ok(admins + [a])
  }

  /** The admins without the one with a given id. */
  function Without(admins: seq<Admin>, id: int): (r: seq<Admin>)
    ensures forall a | a in r :: a in admins && a.id != id
    ensures forall a | a in admins && a.id != id :: a in r
  {
    var r := Filter(admins, (a: Admin) => a.id != id);
    forall a | a in r || a in admins
      ensures a in r <==> a in admins && a.id != id
    {
      FilterMembership(admins, (a: Admin) => a.id != id, a);
    }
    r
  }

  /** Deleting an admin (system admins only): one's own id is refused before any lookup;
      a missing id is a 404; otherwise exactly that admin is gone from the admin list. The
      events, check-ins and templates that go with it are not tracked here. */
  function DeleteAdmin(admins: seq<Admin>, caller: Admin, id: int): (r: Result<seq<Admin>>)
    ensures !IsSystemAdmin(caller) ==> r == Err(HttpError(403, Dependencies.SystemAdminRequired))
    ensures IsSystemAdmin(caller) && caller.id == id ==> r == Err(HttpError(400, SelfDelete))
    ensures IsSystemAdmin(caller) && caller.id != id && Dependencies.FindAdmin(admins, id).None? ==>
              r == Err(HttpError(404, AdminMissing))
    ensures r.Ok? <==> IsSystemAdmin(caller) && caller.id != id && Dependencies.FindAdmin(admins, id).Some?
    ensures r.Ok? ==> forall a | a in admins :: (a in r.value <==> a.id != id)
    ensures r.Ok? && caller in admins ==> caller in r.value
  {
    var gate := Dependencies.RequireSystemAdmin(Ok(caller));
    if gate.Err? then Err(gate.error)
    else if caller.id == id then Err(HttpError(400, SelfDelete))
    else if Dependencies.FindAdmin(admins, id).None? then Err(HttpError(404, AdminMissing))
    else Ok(Without(admins, id))
  }

  /** The body of the status toggle: `is_active` when the key is present. */
  function ActiveFlag(activeIn: Option<bool>): (b: bool)
    ensures activeIn.None? ==> b
    ensures activeIn.Some? ==> b == activeIn.value
  {
    if activeIn.Some? then activeIn.value else true
  }

  /** (De)activating an admin (system admins only): one's own id is refused before any
      lookup; a missing id is a 404; otherwise that admin's flag takes the sent value
      (true when the key is absent) and nothing else changes. */
  function SetAdminStatus(admins: seq<Admin>, caller: Admin, id: int, activeIn: Option<bool>): (r: Result<seq<Admin>>)
    ensures !IsSystemAdmin(caller) ==> r == Err(HttpError(403, Dependencies.SystemAdminRequired))
    ensures IsSystemAdmin(caller) && caller.id == id ==> r == Err(HttpError(400, SelfDisable))
    ensures IsSystemAdmin(caller) && caller.id != id && Dependencies.FindAdmin(admins, id).None? ==>
              r == Err(HttpError(404, AdminMissing))
    ensures r.Ok? <==> IsSystemAdmin(caller) && caller.id != id && Dependencies.FindAdmin(admins, id).Some?
    ensures r.Ok? ==> |r.value| == |admins|
                      && forall i | 0 <= i < |admins| ::
                           if admins[i].id == id then r.value[i] == admins[i].(isActive := ActiveFlag(activeIn))
                           else r.value[i] == admins[i]
  {
    var gate := Dependencies.RequireSystemAdmin(Ok(caller));
    if gate.Err? then Err(gate.error)
    else if caller.id == id then Err(HttpError(400, SelfDisable))
    else if Dependencies.FindAdmin(admins, id).None? then Err(HttpError(404, AdminMissing))
    else Ok(seq(|admins|, i requires 0 <= i < |admins| =>
              if admins[i].id == id then admins[i].(isActive := ActiveFlag(activeIn)) else admins[i]))
  }

  /** No system admin can lock themselves out: deleting or deactivating one's own account
      always fails. */
  lemma NoSelfLockout(admins: seq<Admin>, caller: Admin, activeIn: Option<bool>)
    ensures DeleteAdmin(admins, caller, caller.id).Err?
    ensures SetAdminStatus(admins, caller, caller.id, activeIn).Err?
  {
  }

  /** Changing one's own password: a too-short new password fails validation; a wrong old
      password is a 400 and changes nothing; otherwise the caller's stored hash is replaced
      and every other admin is untouched. */
  function ChangePassword(admins: seq<Admin>, caller: Admin, oldPassword: string, newPassword: string,
                          verify: Verifier, hash: Hasher): (r: Result<seq<Admin>>)
    ensures |newPassword| < MinPasswordLength ==> r == Err(HttpError(ValidationStatus, "new_password"))
    ensures |newPassword| >= MinPasswordLength && !verify(oldPassword, caller.password) ==>
              r == Err(HttpError(400, WrongOldPassword))
    ensures r.Ok? <==> |newPassword| >= MinPasswordLength && verify(oldPassword, caller.password)
    ensures r.Ok? ==> |r.value| == |admins|
                      && forall i | 0 <= i < |admins| ::
                           if admins[i].id == caller.id then r.value[i] == admins[i].(password := hash(newPassword))
                           else r.value[i] == admins[i]
  {
    if |newPassword| < MinPasswordLength then Err(HttpError(ValidationStatus, "new_password"))
    else if !verify(oldPassword, caller.password) then Err(HttpError(400, WrongOldPassword))
    else Ok(seq(|admins|, i requires 0 <= i < |admins| =>
              if admins[i].id == caller.id then admins[i].(password := hash(newPassword)) else admins[i]))
  }

  /** After a password change the new password logs in, provided the hash checks against
      its own password, and the old one no longer does unless it matches the new hash. */
  lemma NewPasswordLogsIn(admins: seq<Admin>, caller: Admin, oldPassword: string, newPassword: string,
                          verify: Verifier, hash: Hasher, encode: Encoder)
    requires UniqueUsernames(admins) && Dependencies.UniqueAdminIds(admins)
    requires caller in admins && caller.isActive
    requires forall p :: verify(p, hash(p))
    requires ChangePassword(admins, caller, oldPassword, newPassword, verify, hash).Ok?
    ensures var next := ChangePassword(admins, caller, oldPassword, newPassword, verify, hash).value;
            Login(next, caller.username, newPassword, verify, encode).Ok?
            && Login(next, caller.username, newPassword, verify, encode).value.admin.id == caller.id
  {
    var next := ChangePassword(admins, caller, oldPassword, newPassword, verify, hash).value;
    var k :| 0 <= k < |admins| && admins[k] == caller;
    assert next[k] == caller.(password := hash(newPassword));
    assert UniqueUsernames(next) by {
      forall i, j | 0 <= i < j < |next| ensures next[i].username != next[j].username {
        assert next[i].username == admins[i].username && next[j].username == admins[j].username;
      }
    }
    UniqueUsernameFound(next, k);
  }

  lemma {:induction false} UniqueUsernameFound(admins: seq<Admin>, k: int)
    requires UniqueUsernames(admins) && 0 <= k < |admins|
    ensures FindByUsername(admins, admins[k].username) == Some(admins[k])
  {
    if k > 0 {
      assert admins[0].username != admins[k].username;
      assert UniqueUsernames(admins[1..]) by {
        forall i, j | 0 <= i < j < |admins| - 1 ensures admins[1..][i].username != admins[1..][j].username {
          assert admins[1..][i] == admins[i + 1] && admins[1..][j] == admins[j + 1];
        }
      }
      UniqueUsernameFound(admins[1..], k - 1);
    }
  }
}

=== FILE: auth_store.dfy ===
/** The admin session store (frontend/src/store/authStore.ts): its state, the transitions
    `login`, `logout`, `checkAuth` and `setAdmin`, and the invariant they keep. Server
    answers are the results of module Auth and Dependencies; browser storage is the map
    of module ApiClient. */
module AuthStore {
  import opened Common
  import opened Domain
  import Auth
  import Dependencies
  import ApiClient

  /** The store: the signed-in admin, whether the session counts as authenticated, and
      whether it is still being established. */
  datatype State = State(admin: Option<Admin>, isAuthenticated: bool, isLoading: bool)

  const Initial: State := State(None, false, true)

  /** The signed-out state every failure and every logout ends in. */
  const SignedOut: State := State(None, false, false)

  /** Authenticated exactly when an admin is held. */
  predicate Valid(s: State) {
    s.isAuthenticated <==> s.admin.Some?
  }

  /** Writing the admin into browser storage (`JSON.stringify`, not modelled). */
  type Serializer = Admin -> string

  /** What `login` did: the new state, the browser storage afterwards, where the browser
      was sent, if anywhere, and whether the error was thrown again. */
  datatype LoginResult = LoginResult(state: State, storage: ApiClient.Storage, redirect: Option<string>, rethrown: bool)

  /** The failure the client's response interceptor sees for a server error. */
  function FailureOf(e: HttpError): ApiClient.Failure {
    ApiClient.Failure(Some(e.status))
  }

  /** `login` on the page at `path`, given the server's answer: on success the auth
      service stores the issued token and the admin's text, and the store holds the
      account and is authenticated. A failure stores nothing, but first passes through the
      client's response interceptor, so a 401 (a wrong password) removes a token still
      stored from an earlier session and may send the browser to the login page; the
      store then signs out and throws again. */
  function Login(storage: ApiClient.Storage, path: string, reply: Result<Auth.LoginGrant>, serialize: Serializer): (r: LoginResult)
    ensures Valid(r.state) && !r.state.isLoading
    ensures r.rethrown <==> reply.Err?
    ensures reply.Ok? ==> r.redirect.None?
    ensures reply.Ok? ==> && r.state.admin == Some(reply.value.admin)
                          && r.storage.Keys == storage.Keys + {ApiClient.AccessTokenKey, ApiClient.AdminKey}
                          && r.storage[ApiClient.AccessTokenKey] == reply.value.token
                          && r.storage[ApiClient.AdminKey] == serialize(reply.value.admin)
                          && forall k | k in storage && k != ApiClient.AccessTokenKey && k != ApiClient.AdminKey ::
                               r.storage[k] == storage[k]
    ensures reply.Err? ==> && r.state == SignedOut
                           && r.storage == ApiClient.OnError(storage, path, FailureOf(reply.error)).storage
                           && r.redirect == ApiClient.OnError(storage, path, FailureOf(reply.error)).redirect
  {
    match reply
    case Ok(grant) =>
      var stored := storage[ApiClient.AccessTokenKey := grant.token][ApiClient.AdminKey := serialize(grant.admin)];
      LoginResult(State(Some(grant.admin), true, false), stored, None, false)
    case Err(e) =>
      var handled := ApiClient.OnError(storage, path, FailureOf(e));
      LoginResult(SignedOut, handled.storage, handled.redirect, true)
  }

  /** A wrong password on the login page while a token from an earlier session is still
      stored: the old token and cached admin are removed and the browser is sent to the
      login page again. Any other refused login leaves storage as it was. */
  lemma WrongPasswordClearsOldSession(storage: ApiClient.Storage, reply: Result<Auth.LoginGrant>, serialize: Serializer)
    ensures var r := Login(storage, ApiClient.LoginPath, Err(HttpError(401, Auth.BadCredentials)), serialize);
            && (ApiClient.Truthy(storage, ApiClient.AccessTokenKey) ==>
                  ApiClient.AccessTokenKey !in r.storage && ApiClient.AdminKey !in r.storage
                  && r.redirect == Some(ApiClient.LoginPath))
            && (!ApiClient.Truthy(storage, ApiClient.AccessTokenKey) && !ApiClient.Truthy(storage, ApiClient.LineTokenKey) ==>
                  r.storage == storage && r.redirect.None?)
    ensures reply.Err? && reply.error.status != 401 ==>
              Login(storage, ApiClient.LoginPath, reply, serialize).storage == storage
  {
    assert ApiClient.LoginPath[1] != "/admin"[1];
  }

  /** The store and the browser storage after an action. */
  datatype Outcome = Outcome(state: State, storage: ApiClient.Storage)

  /** `logout`: signed out whether or not the server call succeeded; the auth service
      removes the token and the admin's text only after a successful call. */
  function Logout(storage: ApiClient.Storage, serverOk: bool): (r: Outcome)
    ensures Valid(r.state) && !r.state.isLoading && !r.state.isAuthenticated && r.state.admin.None?
    ensures serverOk ==> && ApiClient.AccessTokenKey !in r.storage && ApiClient.AdminKey !in r.storage
                         && forall k | k in storage && k != ApiClient.AccessTokenKey && k != ApiClient.AdminKey ::
                              k in r.storage && r.storage[k] == storage[k]
    ensures !serverOk ==> r.storage == storage
  {
    if serverOk then Outcome(SignedOut, storage - {ApiClient.AccessTokenKey, ApiClient.AdminKey})
    else Outcome(SignedOut, storage)
  }

  /** What `checkAuth` did: the new state, the storage afterwards, where the browser was
      sent, if anywhere, and whether the server was asked. */
  datatype Checked = Checked(state: State, storage: ApiClient.Storage, redirect: Option<string>, asked: bool)

  /** `checkAuth` on the page at `path`, given the server's answer for the stored token
      (unused when there is none): without a token the store signs out without asking;
      with one, a valid answer authenticates. A failure first passes through the client's
      response interceptor, which on a 401 removes the token and cached admin and sends
      the browser from an admin page or the login page to the login page; the store's own
      handler then removes the same two keys and signs out. */
  function CheckAuth(storage: ApiClient.Storage, path: string, reply: Result<Admin>): (r: Checked)
    ensures Valid(r.state) && !r.state.isLoading
    ensures r.asked <==> ApiClient.Truthy(storage, ApiClient.AccessTokenKey)
    ensures !r.asked ==> r == Checked(SignedOut, storage, None, false)
    ensures r.asked && reply.Ok? ==> r.state == State(Some(reply.value), true, false) && r.storage == storage
                                     && r.redirect.None?
    ensures r.asked && reply.Err? ==> r.state == SignedOut
                                      && ApiClient.AccessTokenKey !in r.storage && ApiClient.AdminKey !in r.storage
                                      && (forall k | k in storage && k != ApiClient.AccessTokenKey && k != ApiClient.AdminKey ::
                                            k in r.storage && r.storage[k] == storage[k])
                                      && r.redirect == ApiClient.OnError(storage, path, FailureOf(reply.error)).redirect
  {
    if !ApiClient.Truthy(storage, ApiClient.AccessTokenKey) then Checked(SignedOut, storage, None, false)
    else match reply
      case Ok(a) => Checked(State(Some(a), true, false), storage, None, true)
      case Err(e) =>
        var handled := ApiClient.OnError(storage, path, FailureOf(e));
        Checked(SignedOut, handled.storage - {ApiClient.AccessTokenKey, ApiClient.AdminKey}, handled.redirect, true)
  }

  /** A stored token the server no longer accepts (expired, or its admin gone) sends the
      browser to the login page exactly when the check ran on an admin page or on the
      login page; an inactive account's 403 sends it nowhere. */
  lemma ExpiredSessionSentToLogin(storage: ApiClient.Storage, path: string, detail: string)
    requires ApiClient.Truthy(storage, ApiClient.AccessTokenKey)
    ensures var r := CheckAuth(storage, path, Err(HttpError(401, detail)));
            r.state == SignedOut && ApiClient.AccessTokenKey !in r.storage
            && (r.redirect == Some(ApiClient.LoginPath) <==> StartsWith(path, "/admin") || path == ApiClient.LoginPath)
    ensures CheckAuth(storage, path, Err(HttpError(403, detail))).redirect.None?
  {
  }

  /** `setAdmin`: holds the given admin (or none) and is authenticated exactly when there
      is one; the loading flag is untouched. */
  function SetAdmin(s: State, admin: Option<Admin>): (r: State)
    ensures Valid(r)
    ensures r.admin == admin && r.isLoading == s.isLoading
  {
    State(admin, admin.Some?, s.isLoading)
  }

  /** One user-visible action with the outside answers it receives. */
  datatype Action =
    | LoginAction(path: string, loginReply: Result<Auth.LoginGrant>)
    | LogoutAction(serverOk: bool)
    | CheckAuthAction(checkPath: string, checkReply: Result<Admin>)
    | SetAdminAction(admin: Option<Admin>)

  /** The store and the browser storage after one action. */
  function Step(s: State, storage: ApiClient.Storage, a: Action, serialize: Serializer): (r: (State, ApiClient.Storage))
    ensures Valid(r.0)
    ensures !a.SetAdminAction? ==> !r.0.isLoading
    ensures a.LoginAction? && a.loginReply.Ok? ==>
              ApiClient.AccessTokenKey in r.1 && r.1[ApiClient.AccessTokenKey] == a.loginReply.value.token
              && r.0.admin == Some(a.loginReply.value.admin)
    ensures a.LogoutAction? && a.serverOk ==> ApiClient.AccessTokenKey !in r.1 && ApiClient.AdminKey !in r.1
    ensures a.LoginAction? && a.loginReply.Err? ==>
              r.1 == ApiClient.OnError(storage, a.path, FailureOf(a.loginReply.error)).storage
    ensures a.SetAdminAction? || (a.LogoutAction? && !a.serverOk) ==> r.1 == storage
  {
    match a
    case LoginAction(path, reply) => var l := Login(storage, path, reply, serialize); (l.state, l.storage)
    case LogoutAction(ok) => var o := Logout(storage, ok); (o.state, o.storage)
    case CheckAuthAction(path, reply) => var c := CheckAuth(storage, path, reply); (c.state, c.storage)
    case SetAdminAction(admin) => (SetAdmin(s, admin), storage)
  }

  /** The store after a sequence of actions from a given start. */
  function Run(s: State, storage: ApiClient.Storage, actions: seq<Action>, serialize: Serializer): (State, ApiClient.Storage)
    decreases |actions|
  {
    if |actions| == 0 then (s, storage)
    else
      var next := Step(s, storage, actions[0], serialize);
      Run(next.0, next.1, actions[1..], serialize)
  }

  /** From the initial state, after any sequence of actions the store is authenticated
      exactly when it holds an admin. */
  lemma {:induction false} RunKeepsValid(s: State, storage: ApiClient.Storage, actions: seq<Action>, serialize: Serializer)
    requires Valid(s)
    ensures Valid(Run(s, storage, actions, serialize).0)
    decreases |actions|
  {
    if |actions| > 0 {
      var next := Step(s, storage, actions[0], serialize);
      RunKeepsValid(next.0, next.1, actions[1..], serialize);
    }
  }

  /** The store starts valid. */
  lemma InitialValid()
    ensures Valid(Initial) && Initial.isLoading
  {
  }

  /** A login with the right password stores the token the server issued, and a later
      `checkAuth` sends that stored token and keeps the account the login found, given a
      decoder that reads back what the encoder signed and a token that is not empty (a
      signed JWT never is). */
  lemma LoginThenCheckAuth(admins: seq<Admin>, username: string, password: string, verify: Auth.Verifier,
                           encode: Auth.Encoder, decode: Dependencies.Decoder,
                           s: State, storage: ApiClient.Storage, path: string, serialize: Serializer)
    requires Dependencies.UniqueAdminIds(admins)
    requires Auth.Login(admins, username, password, verify, encode).Ok?
    requires var g := Auth.Login(admins, username, password, verify, encode).value;
             decode(g.token) == Dependencies.Decoded(g.claims) && g.token != ""
    ensures var g := Auth.Login(admins, username, password, verify, encode).value;
            var afterLogin := Step(s, storage, LoginAction(ApiClient.LoginPath, Auth.Login(admins, username, password, verify, encode)), serialize);
            && ApiClient.AccessTokenKey in afterLogin.1
            && var sent := afterLogin.1[ApiClient.AccessTokenKey];
               var afterCheck := CheckAuth(afterLogin.1, path, Dependencies.CurrentAdmin(sent, decode, admins));
               && afterCheck.asked
               && afterCheck.state == State(Some(g.admin), true, false)
               && afterCheck.storage == afterLogin.1
               && afterCheck.redirect.None?
  {
    Auth.LoginTokenAuthenticates(admins, username, password, verify, encode, decode);
  }

  /** After a successful logout, `checkAuth` asks the server nothing and stays signed out,
      whatever the server would have said. */
  lemma LogoutThenCheckAuthAsksNothing(s: State, storage: ApiClient.Storage, path: string, reply: Result<Admin>,
                                       serialize: Serializer)
    ensures var afterLogout := Step(s, storage, LogoutAction(true), serialize);
            CheckAuth(afterLogout.1, path, reply) == Checked(SignedOut, afterLogout.1, None, false)
  {
  }
}

=== FILE: base_store.dfy ===
/** The persisted login-state store (fontend/src/store/baseStore.ts): `checkLogin`
    against the session-check endpoint, `logout`, and the manual hydration from browser
    storage that runs before the first check. */
module BaseStore {
  import opened Common

  /** The admin record this store keeps (timestamps left out). */
  datatype Account = Account(id: int, username: string, name: string)

  datatype State = State(role: string, isLoggedIn: bool, initialized: bool, admin: Option<Account>)

  const Initial: State := State("", false, false, None)

  /** A session-check response: its status and the fields of its body. `authenticated`
      is whatever JSON value the body holds; `admin` is `None` for a missing or falsy one. */
  datatype CheckReply = CheckReply(status: int, authenticated: Value, role: string, admin: Option<Account>)

  /** The state every branch other than a confirmed login ends in. */
  const NotLoggedIn: State := State("", false, true, None)

  /** `checkLogin` given the answer (`None` when the request failed, including a status
      outside 200..599, which the request rejects): only a 200 whose `authenticated` is
      the boolean `true` logs in, taking the role and admin from the body. Every answer
      marks the store initialised. Outside a browser nothing is checked. */
  function CheckLogin(s: State, inBrowser: bool, reply: Option<CheckReply>): (r: State)
    ensures !inBrowser ==> r == s
    ensures inBrowser ==> r.initialized
    ensures inBrowser ==> (r.isLoggedIn <==> reply.Some? && reply.value.status == 200
                                             && reply.value.authenticated == Bool(true))
    ensures inBrowser && r.isLoggedIn ==> r.role == reply.value.role && r.admin == reply.value.admin
    ensures inBrowser && !r.isLoggedIn ==> r == NotLoggedIn
  {
    if !inBrowser then s
    else match reply
      case None => NotLoggedIn
      case Some(c) =>
        if 200 <= c.status < 600 && c.status == 200 && c.authenticated == Bool(true) then
          State(c.role, true, true, c.admin)
        else NotLoggedIn
  }

  /** What `logout` did: the new state and whether the returned promise rejects. */
  datatype LogoutResult = LogoutResult(state: State, rejected: bool)

  /** `logout`: a successful call resets login, role and admin and leaves `initialized`
      alone; a failed one changes nothing and rejects. */
  function Logout(s: State, serverOk: bool): (r: LogoutResult)
    ensures r.rejected <==> !serverOk
    ensures serverOk ==> !r.state.isLoggedIn && r.state.role == "" && r.state.admin.None?
                         && r.state.initialized == s.initialized
    ensures !serverOk ==> r.state == s
  {
    if serverOk then LogoutResult(s.(isLoggedIn := false, role := "", admin := None), false)
    else LogoutResult(s, true)
  }

  /** The manual hydration: a saved state that parses replaces the current one but is
      marked not initialised; a missing or unreadable one changes nothing. Outside a
      browser it does not run. */
  function Hydrate(s: State, inBrowser: bool, saved: Option<State>): (r: State)
    ensures !inBrowser || saved.None? ==> r == s
    ensures inBrowser && saved.Some? ==> r == saved.value.(initialized := false)
  {
    if inBrowser && saved.Some? then saved.value.(initialized := false) else s
  }

  /** Loading the module: hydrate, then check at once. */
  function Startup(inBrowser: bool, saved: Option<State>, reply: Option<CheckReply>): (r: State)
  {
    CheckLogin(Hydrate(Initial, inBrowser, saved), inBrowser, reply)
  }

  /** In a browser, the state after loading depends only on the server's answer: a saved
      login never survives by itself, and the store is initialised. Outside a browser the
      store stays at its defaults, not initialised. */
  lemma StartupDecidedByServer(saved: Option<State>, other: Option<State>, reply: Option<CheckReply>)
    ensures Startup(true, saved, reply) == Startup(true, other, reply)
    ensures Startup(true, saved, reply).initialized
    ensures Startup(false, saved, reply) == Initial && !Startup(false, saved, reply).initialized
  {
  }

  /** A truthy `authenticated` other than `true` (the text "true", say) does not log in. */
  lemma OnlyBooleanTrueLogsIn(s: State, role: string)
    ensures !CheckLogin(s, true, Some(CheckReply(200, Str("true"), role, None))).isLoggedIn
    ensures !CheckLogin(s, true, Some(CheckReply(200, Num(1), role, None))).isLoggedIn
    ensures CheckLogin(s, true, Some(CheckReply(200, Bool(true), role, None))).isLoggedIn
  {
  }

  /** After a check and a successful logout the store is logged out but still marked
      initialised, so no new check is triggered by the flag. */
  lemma LogoutAfterCheckStaysInitialized(s: State, reply: Option<CheckReply>)
    ensures var after := Logout(CheckLogin(s, true, reply), true).state;
            !after.isLoggedIn && after.initialized
  {
  }
}

=== FILE: change_password.dfy ===
/** The change-password page (frontend/src/pages/admin/ChangePasswordPage.tsx): the checks
    `handleSubmit` makes before sending, in their order, and the state after the server's
    answer, which is the result of `Auth.ChangePassword`. */
module ChangePasswordPage {
  import opened Common
  import opened Domain
  import Auth

  const Mismatch: string := "新密碼與確認密碼不一致"
  const TooShort: string := "新密碼長度至少需 6 個字元"
  const Changed: string := "密碼修改成功！"
  const ChangeFailed: string := "修改密碼失敗"

  /** The page's own minimum, compared with the JavaScript `length`. */
  const ClientMinLength: int := 6

  /** A JavaScript string's `length`: UTF-16 code units, so a character outside the Basic
      Multilingual Plane counts twice. */
  function Utf16Length(s: string): (n: nat)
    ensures n >= |s|
    ensures n <= 2 * |s|
  {
    if |s| == 0 then 0 else (if s[0] as int > 0xFFFF then 2 else 1) + Utf16Length(s[1..])
  }

  /** Every character lies in the Basic Multilingual Plane. */
  predicate InBmp(s: string) {
    forall i | 0 <= i < |s| :: s[i] as int <= 0xFFFF
  }

  lemma {:induction false} BmpLength(s: string)
    requires InBmp(s)
    ensures Utf16Length(s) == |s|
  {
    if |s| > 0 {
      assert InBmp(s[1..]) by {
        forall i | 0 <= i < |s| - 1 ensures s[1..][i] as int <= 0xFFFF {
          assert s[1..][i] == s[i + 1];
        }
      }
      BmpLength(s[1..]);
    }
  }

  datatype Fields = Fields(oldPassword: string, newPassword: string, confirmPassword: string)

  const EmptyFields: Fields := Fields("", "", "")

  /** The message of the first failing check, confirmation first, then length; `None` when
      the request may be sent. */
  function Check(f: Fields): (r: Option<string>)
    ensures r == Some(Mismatch) <==> f.newPassword != f.confirmPassword
    ensures r == Some(TooShort) <==> f.newPassword == f.confirmPassword && Utf16Length(f.newPassword) < ClientMinLength
    ensures r.None? <==> f.newPassword == f.confirmPassword && Utf16Length(f.newPassword) >= ClientMinLength
  {
    if f.newPassword != f.confirmPassword then Some(Mismatch)
    else if Utf16Length(f.newPassword) < ClientMinLength then Some(TooShort)
    else None
  }

  /** The page state: the fields, the two banners and the busy flag. */
  datatype State = State(fields: Fields, error: Option<Detail>, success: Option<string>, loading: bool)

  /** What a submission did: the state afterwards and whether a request went out. */
  datatype Submission = Submission(state: State, sent: bool)

  /** `handleSubmit` given the server's answer to the request (unused when none is sent):
      a failed check shows its message and sends nothing; a success announces itself and
      clears all three fields; a server error shows its detail (for a schema failure
      FastAPI's array of error objects; a fixed text for an empty one) and keeps the
      fields. The busy flag is off afterwards in every case. */
  function HandleSubmit(st: State, reply: Result<seq<Admin>>): (r: Submission)
    ensures !r.state.loading
    ensures r.sent <==> Check(st.fields).None?
    ensures !r.sent ==> r.state == State(st.fields, Some(DetailText(Check(st.fields).value)), None, false)
    ensures r.sent && reply.Ok? ==> r.state == State(EmptyFields, None, Some(Changed), false)
    ensures r.sent && reply.Err? ==> r.state.fields == st.fields && r.state.success.None?
                                     && r.state.error == Some(DetailOr(reply.error, ChangeFailed))
  {
    match Check(st.fields)
    case Some(msg) => Submission(State(st.fields, Some(DetailText(msg)), None, false), false)
    case None =>
      match reply
      case Ok(_) => Submission(State(EmptyFields, None, Some(Changed), false), true)
      case Err(e) => Submission(State(st.fields, Some(DetailOr(e, ChangeFailed)), None, false), true)
  }

  /** The page's minimum is the server's. */
  lemma SameMinimum()
    ensures ClientMinLength == Auth.MinPasswordLength
  {
  }

  /** For a new password of Basic Multilingual Plane characters, a request this page sends
      never fails the server's length rule: it succeeds exactly when the old password
      verifies, and the fields are then cleared. */
  lemma SentRequestPassesLengthRule(st: State, admins: seq<Admin>, caller: Admin, verify: Auth.Verifier, hash: Auth.Hasher)
    requires InBmp(st.fields.newPassword)
    requires Check(st.fields).None?
    ensures var reply := Auth.ChangePassword(admins, caller, st.fields.oldPassword, st.fields.newPassword, verify, hash);
            && (reply.Ok? <==> verify(st.fields.oldPassword, caller.password))
            && (reply.Ok? ==> HandleSubmit(st, reply).state.fields == EmptyFields)
  {
    BmpLength(st.fields.newPassword);
  }

  /** The two lengths differ outside the Basic Multilingual Plane: three such characters
      make six code units, so the page sends them, and the server, counting three
      characters, refuses with a validation error. */
  lemma AstralPasswordPassesOnlyTheClient(st: State, admins: seq<Admin>, caller: Admin, verify: Auth.Verifier,
                                          hash: Auth.Hasher)
    requires st.fields.newPassword == "\U{1F600}\U{1F600}\U{1F600}"
    requires st.fields.confirmPassword == st.fields.newPassword
    ensures Check(st.fields).None?
    ensures Auth.ChangePassword(admins, caller, st.fields.oldPassword, st.fields.newPassword, verify, hash).Err?
    ensures Auth.ChangePassword(admins, caller, st.fields.oldPassword, st.fields.newPassword, verify, hash).error.status
            == ValidationStatus
  {
    var p := st.fields.newPassword;
    assert Utf16Length(p[2..]) == 2 by {
      assert p[2..][1..] == [];
    }
    assert Utf16Length(p[1..]) == 4 by {
      assert p[1..][1..] == p[2..];
    }
  }

  /** The request such a password sends leaves as the error FastAPI's array of one error
      object, which the error banner cannot render. */
  lemma AstralPasswordLeavesUnrenderableError(st: State, admins: seq<Admin>, caller: Admin, verify: Auth.Verifier,
                                              hash: Auth.Hasher)
    requires st.fields.newPassword == "\U{1F600}\U{1F600}\U{1F600}"
    requires st.fields.confirmPassword == st.fields.newPassword
    ensures var r := HandleSubmit(st, Auth.ChangePassword(admins, caller, st.fields.oldPassword, st.fields.newPassword,
                                                          verify, hash));
            r.sent && r.state.error == Some(ErrorObjects(1)) && !Renderable(r.state.error.value)
  {
    AstralPasswordPassesOnlyTheClient(st, admins, caller, verify, hash);
    SplitNoSeparator("new_password", ',');
  }
}

=== FILE: checkin_form.dfy ===
/** The check-in form (fontend/src/components/CheckinForm.tsx): the answer map it keeps,
    the checkbox handling, what it hands to the page on submit, and its button. */
module CheckinForm {
  import opened Common
  import opened Domain
  import EventPage
  import TemplateEditor

  const LoadingText: string := "處理中..."
  const CheckoutText: string := "立即簽退"
  const CheckinText: string := "立即簽到"

  /** The input rendered for a field; unknown types fall back to a text input. */
  datatype Input = SelectInput | TextAreaInput | RadioInput | CheckboxInput | DateInput | NumberInput | TextInput

  function InputFor(kind: string): (i: Input)
    ensures kind == "select" <==> i == SelectInput
    ensures kind == "textarea" <==> i == TextAreaInput
    ensures kind == "radio" <==> i == RadioInput
    ensures kind == "checkbox" <==> i == CheckboxInput
    ensures kind == "date" <==> i == DateInput
    ensures kind == "number" <==> i == NumberInput
    ensures i == TextInput <==> kind !in {"select", "textarea", "radio", "checkbox", "date", "number"}
  {
    if kind == "select" then SelectInput
    else if kind == "textarea" then TextAreaInput
    else if kind == "radio" then RadioInput
    else if kind == "checkbox" then CheckboxInput
    else if kind == "date" then DateInput
    else if kind == "number" then NumberInput
    else TextInput
  }

  /** Every type the template editor offers is rendered with an input of its own: no two
      menu entries share one, and "text" is the only one shown as a plain text box. */
  lemma EditorKindsRenderedDistinctly()
    ensures forall i, j | 0 <= i < j < |TemplateEditor.FieldKinds| ::
              InputFor(TemplateEditor.FieldKinds[i]) != InputFor(TemplateEditor.FieldKinds[j])
    ensures forall i | 0 <= i < |TemplateEditor.FieldKinds| ::
              (InputFor(TemplateEditor.FieldKinds[i]) == TextInput <==> TemplateEditor.FieldKinds[i] == "text")
  {
  }

  /** The fields are rendered only for a template with at least one field. */
  predicate FieldsShown(template: Option<Template>) {
    template.Some? && |template.value.fields| > 0
  }

  /** `{...prev, [name]: value}`. */
  function SetAnswer(answers: Answers, name: string, value: Value): (r: Answers)
    ensures r.Keys == answers.Keys + {name}
    ensures r[name] == value
    ensures forall k | k in answers && k != name :: r[k] == answers[k]
  {
    answers[name := value]
  }

  /** `answers[name] || []` for a checkbox field: its list of ticked options. */
  function Ticked(answers: Answers, name: string): seq<string> {
    if name in answers && answers[name].Items? then answers[name].xs else []
  }

  /** A checkbox option changed to `checked`: appended when checked, every occurrence
      removed when unchecked. */
  function SetOption(answers: Answers, name: string, option: string, checked: bool): (r: Answers)
    ensures r.Keys == answers.Keys + {name}
    ensures forall k | k in answers && k != name :: r[k] == answers[k]
    ensures r[name].Items?
    ensures checked ==> r[name].xs == Ticked(answers, name) + [option]
    ensures !checked ==> option !in r[name].xs
                         && forall v | v != option :: multiset(r[name].xs)[v] == multiset(Ticked(answers, name))[v]
  {
    var current := Ticked(answers, name);
    if checked then SetAnswer(answers, name, Items(current + [option]))
    else
      var next := Remove(current, option);
      forall v | v != option ensures multiset(next)[v] == multiset(current)[v] {
        RemoveCounts(current, option, v);
      }
      SetAnswer(answers, name, Items(next))
  }

  /** A click on an option flips its box: the new state is the negation of whether it
      is currently ticked. */
  function ClickOption(answers: Answers, name: string, option: string): Answers {
    SetOption(answers, name, option, option !in Ticked(answers, name))
  }

  /** Two clicks on the same option restore whether it is ticked, and every other option
      keeps its count. */
  lemma ClickTwice(answers: Answers, name: string, option: string, other: string)
    ensures var twice := Ticked(ClickOption(ClickOption(answers, name, option), name, option), name);
            && (option in twice <==> option in Ticked(answers, name))
            && (other != option ==> multiset(twice)[other] == multiset(Ticked(answers, name))[other])
  {
    var once := ClickOption(answers, name, option);
    assert Ticked(once, name) == Toggle(Ticked(answers, name), option);
    var twice := ClickOption(once, name, option);
    assert Ticked(twice, name) == Toggle(Toggle(Ticked(answers, name), option), option);
    ToggleTwice(Ticked(answers, name), option, other);
  }

  /** What the page receives on submit: the answers when the form has a template. */
  function SubmitPayload(template: Option<Template>, answers: Answers): (p: Option<Answers>)
    ensures p.Some? <==> template.Some?
    ensures p.Some? ==> p.value == answers
  {
    if template.Some? then Some(answers) else None
  }

  predicate ButtonDisabled(status: EventPage.SubmitStatus, isAvailable: bool) {
    status == EventPage.Loading || !isAvailable
  }

  function ButtonText(status: EventPage.SubmitStatus, hasCheckedIn: bool, action: EventPage.Action): (t: string)
    ensures status == EventPage.Loading ==> t == LoadingText
    ensures status != EventPage.Loading ==>
              (t == CheckoutText <==> hasCheckedIn || action == EventPage.CheckoutAction)
    ensures t in {LoadingText, CheckoutText, CheckinText}
  {
    if status == EventPage.Loading then LoadingText
    else if hasCheckedIn || action == EventPage.CheckoutAction then CheckoutText
    else CheckinText
  }
}

=== FILE: checkin_record.dfy ===
/** The participant's record card (frontend/src/components/CheckinRecord.tsx): the
    countdown to the earliest checkout, recomputed from the clock, and which section of
    the card is shown. */
module CheckinRecord {
  import opened Common
  import opened Domain

  const ReadyText: string := "可以簽退了"

  /** A countdown runs only for an open record of an event that needs a checkout. */
  predicate CountdownRuns(checkin: Option<Checkin>, event: Event) {
    checkin.Some? && event.info.requireCheckout && checkin.value.checkoutTime.None?
  }

  /** The instant the countdown runs to, when the event's checkout mode sets one. */
  function CountdownTarget(checkin: Checkin, event: Event): (t: Option<int>)
    ensures WaitsForDuration(event.info) ==>
              t == Some(checkin.checkinTime + event.info.checkoutDuration.value * MinuteMs)
    ensures !WaitsForDuration(event.info) && event.info.checkoutMode == Some(AtEndTime) ==>
              t == Some(event.info.endTime)
    ensures !WaitsForDuration(event.info) && event.info.checkoutMode != Some(AtEndTime) ==> t.None?
  {
    if event.info.checkoutMode == Some(AfterDuration) && event.info.checkoutDuration.Some?
       && event.info.checkoutDuration.value != 0 then
      Some(checkin.checkinTime + event.info.checkoutDuration.value * 60 * 1000)
    else if event.info.checkoutMode == Some(AtEndTime) then Some(event.info.endTime)
    else None
  }

  /** A positive remaining time split into whole hours, minutes and seconds. */
  datatype Remaining = Remaining(hours: int, minutes: int, seconds: int)

  function Decompose(diff: int): (r: Remaining)
    requires diff > 0
    ensures r.hours >= 0 && 0 <= r.minutes < 60 && 0 <= r.seconds < 60
    ensures r.hours * HourMs + r.minutes * MinuteMs + r.seconds * SecondMs <= diff
    ensures diff < r.hours * HourMs + r.minutes * MinuteMs + r.seconds * SecondMs + SecondMs
  {
    var h := diff / HourMs;
    var m := (diff % HourMs) / MinuteMs;
    var s := (diff % MinuteMs) / SecondMs;
    DecomposeBounds(diff, h, m, s);
    Remaining(h, m, s)
  }

  lemma DecomposeBounds(diff: int, h: int, m: int, s: int)
    requires diff > 0
    requires h == diff / HourMs && m == (diff % HourMs) / MinuteMs && s == (diff % MinuteMs) / SecondMs
    ensures h >= 0 && 0 <= m < 60 && 0 <= s < 60
    ensures h * HourMs + m * MinuteMs + s * SecondMs <= diff < h * HourMs + m * MinuteMs + s * SecondMs + SecondMs
  {
    var r := diff % HourMs;
    assert diff == h * HourMs + r;
    assert r == m * MinuteMs + r % MinuteMs;
    assert diff % MinuteMs == r % MinuteMs by {
      assert diff == (h * 60 + m) * MinuteMs + r % MinuteMs;
    }
    var q := diff % MinuteMs;
    assert q == s * SecondMs + q % SecondMs;
  }

  const HourUnit: string := "小時"
  const MinuteUnit: string := "分鐘"
  const SecondUnit: string := "秒"

  /** The countdown text: hours, minutes and seconds, leaving out leading zero parts. */
  function CountdownText(r: Remaining): string {
    var h := IntToString(r.hours);
    var m := IntToString(r.minutes);
    var s := IntToString(r.seconds);
    if r.hours > 0 then h + " " + HourUnit + " " + (m + " " + MinuteUnit + " " + (s + " " + SecondUnit))
    else if r.minutes > 0 then m + " " + MinuteUnit + " " + (s + " " + SecondUnit)
    else s + " " + SecondUnit
  }

  /** Every countdown text reads back as the remaining time it was written from. */
  lemma CountdownTextReadsBack(r: Remaining)
    requires r.hours >= 0 && r.minutes >= 0 && r.seconds >= 0
    ensures ReadCountdown(CountdownText(r)) == Some(r)
  {
    var h := IntToString(r.hours);
    var m := IntToString(r.minutes);
    var s := IntToString(r.seconds);
    IntToStringHasNoSpace(r.hours);
    IntToStringHasNoSpace(r.minutes);
    IntToStringHasNoSpace(r.seconds);
    ParseIntPyRoundTrip(r.hours);
    ParseIntPyRoundTrip(r.minutes);
    ParseIntPyRoundTrip(r.seconds);
    if r.hours > 0 {
      ReadsHours(h, m, s, r);
    } else if r.minutes > 0 {
      ReadsMinutes(m, s, r);
    } else {
      ReadsSeconds(s, r);
    }
  }

  lemma ReadsSeconds(s: string, r: Remaining)
    requires ' ' !in s && ParseIntPy(s) == Some(r.seconds) && r.hours == 0 && r.minutes == 0
    ensures ReadCountdown(s + " " + SecondUnit) == Some(r)
  {
    SplitLast(s, SecondUnit);
    var p := [s, SecondUnit];
    assert |p| == 2 && p[1] == SecondUnit;
    assert ReadPieces(p) == Parts(Some(0), Some(0), ParseIntPy(s));
  }

  lemma ReadsMinutes(m: string, s: string, r: Remaining)
    requires ' ' !in m && ' ' !in s
    requires ParseIntPy(m) == Some(r.minutes) && ParseIntPy(s) == Some(r.seconds) && r.hours == 0
    ensures ReadCountdown(m + " " + MinuteUnit + " " + (s + " " + SecondUnit)) == Some(r)
  {
    MinutesTextSplits(m, s);
    MinutesPiecesRead(m, s, r);
  }

  lemma MinutesTextSplits(m: string, s: string)
    requires ' ' !in m && ' ' !in s
    ensures Split(m + " " + MinuteUnit + " " + (s + " " + SecondUnit), ' ') == [m, MinuteUnit, s, SecondUnit]
  {
    SplitLast(s, SecondUnit);
    SplitPart(m, MinuteUnit, s + " " + SecondUnit);
  }

  lemma MinutesPiecesRead(m: string, s: string, r: Remaining)
    requires ParseIntPy(m) == Some(r.minutes) && ParseIntPy(s) == Some(r.seconds) && r.hours == 0
    ensures ReadPieces([m, MinuteUnit, s, SecondUnit]) == Some(r)
  {
    var p := [m, MinuteUnit, s, SecondUnit];
    assert |p| == 4 && p[1] == MinuteUnit && p[3] == SecondUnit;
    assert ReadPieces(p) == Parts(Some(0), ParseIntPy(m), ParseIntPy(s));
  }

  lemma ReadsHours(h: string, m: string, s: string, r: Remaining)
    requires ' ' !in h && ' ' !in m && ' ' !in s
    requires ParseIntPy(h) == Some(r.hours) && ParseIntPy(m) == Some(r.minutes) && ParseIntPy(s) == Some(r.seconds)
    ensures ReadCountdown(h + " " + HourUnit + " " + (m + " " + MinuteUnit + " " + (s + " " + SecondUnit))) == Some(r)
  {
    HoursTextSplits(h, m, s);
    HoursPiecesRead(h, m, s, r);
  }

  lemma HoursTextSplits(h: string, m: string, s: string)
    requires ' ' !in h && ' ' !in m && ' ' !in s
    ensures Split(h + " " + HourUnit + " " + (m + " " + MinuteUnit + " " + (s + " " + SecondUnit)), ' ')
            == [h, HourUnit, m, MinuteUnit, s, SecondUnit]
  {
    var mins := m + " " + MinuteUnit + " " + (s + " " + SecondUnit);
    MinutesTextSplits(m, s);
    SplitPart(h, HourUnit, mins);
  }

  lemma HoursPiecesRead(h: string, m: string, s: string, r: Remaining)
    requires ParseIntPy(h) == Some(r.hours) && ParseIntPy(m) == Some(r.minutes) && ParseIntPy(s) == Some(r.seconds)
    ensures ReadPieces([h, HourUnit, m, MinuteUnit, s, SecondUnit]) == Some(r)
  {
    var p := [h, HourUnit, m, MinuteUnit, s, SecondUnit];
    assert |p| == 6 && p[1] == HourUnit && p[3] == MinuteUnit && p[5] == SecondUnit;
    assert ReadPieces(p) == Parts(ParseIntPy(h), ParseIntPy(m), ParseIntPy(s));
  }

  /** A number and its unit, then the rest: the spaces split them apart. */
  lemma SplitPart(n: string, unit: string, rest: string)
    requires ' ' !in n && ' ' !in unit
    ensures Split(n + " " + unit + " " + rest, ' ') == [n, unit] + Split(rest, ' ')
  {
    assert n + " " + unit + " " + rest == n + [' '] + unit + [' '] + rest;
    SplitFirstTwo(n, unit, rest, ' ');
  }

  /** A number and its unit at the end of the text. */
  lemma SplitLast(n: string, unit: string)
    requires ' ' !in n && ' ' !in unit
    ensures Split(n + " " + unit, ' ') == [n, unit]
  {
    assert n + " " + unit == n + [' '] + unit;
    SplitTwo(n, unit, ' ');
  }

  /** A reader for countdown texts, independent of how they are written: the pieces
      between spaces are numbers followed by their units (hours, minutes, seconds), and a
      part that is missing counts as zero. */
  function ReadCountdown(t: string): Option<Remaining> {
    ReadPieces(Split(t, ' '))
  }

  function ReadPieces(p: seq<string>): Option<Remaining> {
    if |p| == 6 && p[1] == HourUnit && p[3] == MinuteUnit && p[5] == SecondUnit then
      Parts(ParseIntPy(p[0]), ParseIntPy(p[2]), ParseIntPy(p[4]))
    else if |p| == 4 && p[1] == MinuteUnit && p[3] == SecondUnit then
      Parts(Some(0), ParseIntPy(p[0]), ParseIntPy(p[2]))
    else if |p| == 2 && p[1] == SecondUnit then
      Parts(Some(0), Some(0), ParseIntPy(p[0]))
    else None
  }

  /** The three numbers, when each was read. */
  function Parts(h: Option<int>, m: Option<int>, s: Option<int>): Option<Remaining> {
    if h.Some? && m.Some? && s.Some? then Some(Remaining(h.value, m.value, s.value)) else None
  }

  /** One tick of the countdown: the text shown afterwards, given the text before. While
      the target is ahead, the text says how long is left, in whole seconds. */
  function Tick(shown: string, checkin: Option<Checkin>, event: Event, now: int): (t: string)
    ensures !CountdownRuns(checkin, event) ==> t == shown
    ensures CountdownRuns(checkin, event) && CountdownTarget(checkin.value, event).None? ==> t == shown
    ensures CountdownRuns(checkin, event) && CountdownTarget(checkin.value, event).Some? ==>
              (t == ReadyText <==> now >= CountdownTarget(checkin.value, event).value)
    ensures CountdownRuns(checkin, event) && CountdownTarget(checkin.value, event).Some?
            && now < CountdownTarget(checkin.value, event).value ==>
              var left := CountdownTarget(checkin.value, event).value - now;
              && ReadCountdown(t).Some?
              && var r := ReadCountdown(t).value;
                 && r.hours >= 0 && 0 <= r.minutes < 60 && 0 <= r.seconds < 60
                 && r.hours * HourMs + r.minutes * MinuteMs + r.seconds * SecondMs <= left
                 && left < r.hours * HourMs + r.minutes * MinuteMs + r.seconds * SecondMs + SecondMs
  {
    if !CountdownRuns(checkin, event) then shown
    else match CountdownTarget(checkin.value, event)
      case None => shown
      case Some(target) =>
        var diff := target - now;
        if diff <= 0 then ReadyText
        else
          var r := Decompose(diff);
          CountdownNotReady(r);
          CountdownTextReadsBack(r);
          CountdownText(r)
  }

  lemma CountdownNotReady(r: Remaining)
    ensures CountdownText(r) != ReadyText
  {
    var t := CountdownText(r);
    assert t[|t| - 1] == '秒';
  }

  /** The section under the check-in time. */
  datatype Section = NoCard | CheckedOutSection | WaitingSection(countdownPanel: bool, readyPanel: bool) | NoSection

  function SectionOf(checkin: Option<Checkin>, event: Event, shown: string): (s: Section)
    ensures checkin.None? <==> s == NoCard
    ensures checkin.Some? && checkin.value.checkoutTime.Some? <==> s == CheckedOutSection
    ensures s.WaitingSection? <==> CountdownRuns(checkin, event)
    ensures s.WaitingSection? ==>
              (s.readyPanel <==> shown == ReadyText) && (s.countdownPanel <==> shown != "" && shown != ReadyText)
  {
    if checkin.None? then NoCard
    else if checkin.value.checkoutTime.Some? then CheckedOutSection
    else if event.info.requireCheckout then WaitingSection(shown != "" && shown != ReadyText, shown == ReadyText)
    else NoSection
  }
}

=== FILE: checkins.dfy ===
/** The server side of the check-in lifecycle (backend/app/routers/checkins.py): the
    location gate, the create-or-close decision on the single record a participant has
    per event, the checkout timing rules, the profile merge, and the advisory
    `validate` endpoint the event page consults before showing its button. */
module Checkins {
  import opened Common
  import opened Domain
  import opened Clock

  const EventMissing: string := "活動不存在"
  const LocationRequired: string := "此活動需要開啟定位功能"
  const LocationInvalid: string := "無效的定位資料"
  const AlreadyCompleted: string := "您已經完成簽到和簽退"
  const CheckoutNotRequired: string := "此活動不需要簽退"
  const AdviceCompleted: string := "您已完成簽到退"
  const AdviceCheckout: string := "您可以進行簽退"
  const AdviceCheckin: string := "您可以進行簽到"

  /** The body of POST /api/checkins. `userId` is sent but never consulted. */
  datatype CheckinCreate = CheckinCreate(
    userId: int,
    eventId: string,
    geolocation: Option<string>,
    dynamicData: Option<Answers>,
    profileData: Option<Answers>)

  /** Python `float(text)` on one coordinate; None is a ValueError. */
  type FloatParser = string -> Option<real>

  /** Distance in metres between (lat1, lng1) and (lat2, lng2); the haversine formula
      itself is not modelled. */
  type Distance = (real, real, real, real) -> real

  /** Python `int(x)` on a float: truncation toward zero. */
  function Truncate(x: real): (n: int)
    ensures x >= 0.0 ==> n as real <= x < n as real + 1.0
    ensures x < 0.0 ==> n as real - 1.0 < x <= n as real
  {
    if x >= 0.0 then x.Floor else -((-x).Floor)
  }

  // ---------------------------------------------------------------------------
  // Location gate.

  /** `lat, lng = map(float, text.split(','))`: exactly two pieces, both numbers. */
  function ParseCoordinates(text: string, parseFloat: FloatParser): (r: Option<(real, real)>)
    ensures r.Some? <==> |Split(text, ',')| == 2 && parseFloat(Split(text, ',')[0]).Some?
                         && parseFloat(Split(text, ',')[1]).Some?
    ensures r.Some? ==> r.value == (parseFloat(Split(text, ',')[0]).value,
                                    parseFloat(Split(text, ',')[1]).value)
  {
    var parts := Split(text, ',');
    if |parts| != 2 then None
    else match (parseFloat(parts[0]), parseFloat(parts[1]))
      case (Some(lat), Some(lng)) => Some((lat, lng))
      case _ => None
  }

  /** The page sends "lat,lng"; the server reads back exactly the two numbers. */
  lemma ParseCoordinatesOfPair(lat: string, lng: string, x: real, y: real, parseFloat: FloatParser)
    requires ',' !in lat && ',' !in lng
    requires parseFloat(lat) == Some(x) && parseFloat(lng) == Some(y)
    ensures ParseCoordinates(lat + "," + lng, parseFloat) == Some((x, y))
  {
    SplitTwo(lat, lng, ',');
  }

  function OutOfRangeMessage(distance: real, radius: int): string {
    "您不在活動範圍內 (距離: " + IntToString(Truncate(distance)) + "m, 限制: "
    + IntToString(radius) + "m)"
  }

  /** The location check of a submission; None lets it through. */
  function LocationGate(info: EventInfo, geolocation: Option<string>, parseFloat: FloatParser,
                        distance: Distance): (r: Option<HttpError>)
    ensures !info.locationValidation ==> r.None?
    ensures info.locationValidation && !Present(geolocation)
            ==> r == Some(HttpError(400, LocationRequired))
    ensures info.locationValidation && Present(geolocation)
            && ParseCoordinates(geolocation.value, parseFloat).None?
            ==> r == Some(HttpError(400, LocationInvalid))
    ensures info.locationValidation && Present(geolocation)
            && ParseCoordinates(geolocation.value, parseFloat).Some?
            ==> var (lat, lng) := ParseCoordinates(geolocation.value, parseFloat).value;
                (r.Some? <==> info.latitude.Some? && info.longitude.Some?
                              && distance(lat, lng, info.latitude.value, info.longitude.value)
                                 > info.radius as real)
    ensures r.Some? ==> r.value.status == 400
  {
    if !info.locationValidation then None
    else if !Present(geolocation) then Some(HttpError(400, LocationRequired))
    else match ParseCoordinates(geolocation.value, parseFloat)
      case None => Some(HttpError(400, LocationInvalid))
      case Some((lat, lng)) =>
        if info.latitude.Some? && info.longitude.Some? then
          var d := distance(lat, lng, info.latitude.value, info.longitude.value);
          if d > info.radius as real then Some(HttpError(400, OutOfRangeMessage(d, info.radius)))
          else None
        else None
  }

  // ---------------------------------------------------------------------------
  // Checkout timing.

  /** The earliest instant at which an open record may be closed, when the event sets one:
      a non-zero waiting period after check-in, or the event's end. */
  function CheckoutThreshold(info: EventInfo, checkinTime: int): Option<int> {
    if WaitsForDuration(info) then Some(checkinTime + info.checkoutDuration.value * MinuteMs)
    else if WaitsForEnd(info) then Some(info.endTime)
    else None
  }

  /** Whether checkout is allowed at `now`, and if not, why. */
  datatype CheckoutGate =
    | Open
    | TooSoonAfterCheckin(duration: int, remaining: int)
    | BeforeEnd(end: int)

  function CheckoutGateAt(info: EventInfo, checkinTime: int, now: int): (g: CheckoutGate)
    ensures g.Open? <==> CheckoutThreshold(info, checkinTime).None?
                         || now >= CheckoutThreshold(info, checkinTime).value
    ensures g.TooSoonAfterCheckin? ==>
              WaitsForDuration(info) && g.duration == info.checkoutDuration.value
              && var wait := CheckoutThreshold(info, checkinTime).value - now;
                 g.remaining * MinuteMs <= wait < (g.remaining + 1) * MinuteMs
    ensures g.BeforeEnd? ==> WaitsForEnd(info) && g.end == info.endTime
  {
    if WaitsForDuration(info) then
      var minimum := checkinTime + info.checkoutDuration.value * MinuteMs;
      if now < minimum then TooSoonAfterCheckin(info.checkoutDuration.value, (minimum - now) / MinuteMs)
      else Open
    else if WaitsForEnd(info) && now < info.endTime then BeforeEnd(info.endTime)
    else Open
  }

  /** The reported wait is a whole number of minutes between 0 and the configured duration,
      provided the clock has not gone backwards since check-in. */
  lemma WaitIsBounded(info: EventInfo, checkinTime: int, now: int)
    requires checkinTime <= now
    requires CheckoutGateAt(info, checkinTime, now).TooSoonAfterCheckin?
    ensures 0 <= CheckoutGateAt(info, checkinTime, now).remaining <= info.checkoutDuration.value
  {
    var g := CheckoutGateAt(info, checkinTime, now);
    var d := info.checkoutDuration.value;
    assert g.remaining * MinuteMs <= d * MinuteMs;
    assert 0 < (g.remaining + 1) * MinuteMs;
  }

  function WaitMessage(duration: int, remaining: int): string {
    "簽到後 " + IntToString(duration) + " 分鐘才能簽退，還需等待 " + IntToString(remaining) + " 分鐘"
  }

  function CreateEndMessage(end: int): string {
    "活動結束時間（" + DateTimeText(end) + "）到才能簽退"
  }

  function AdviceEndMessage(end: int): string {
    "活動結束時間（" + ClockText(end) + "）到才能簽退"
  }

  // ---------------------------------------------------------------------------
  // Profile merge.

  /** `{**old, **new}` when the request carries a non-empty profile_data. */
  function MergeProfile(user: User, profile: Option<Answers>): (u: User)
    ensures u.id == user.id && u.lineUserId == user.lineUserId && u.name == user.name
    ensures u.phone == user.phone && u.company == user.company && u.department == user.department
    ensures profile.None? || profile.value == map[] ==> u == user
    ensures profile.Some? ==> u.profileData.Keys == user.profileData.Keys + profile.value.Keys
    ensures profile.Some? ==> forall k | k in profile.value :: u.profileData[k] == profile.value[k]
    ensures forall k | k in user.profileData && (profile.None? || k !in profile.value)
              :: u.profileData[k] == user.profileData[k]
  {
    if profile.Some? && profile.value != map[] then
      user.(profileData := user.profileData + profile.value)
    else user
  }

  // ---------------------------------------------------------------------------
  // Create or close.

  /** What a successful submission returns and stores: the record, the possibly updated
      participant, and whether a new record was created. */
  datatype Submission = Submission(record: Checkin, user: User, created: bool)

  /** POST /api/checkins for the signed-in `user`, where `existing` is that user's record
      for the requested event, if any, and `newId` the identifier a new record gets. */
  function CreateCheckin(event: Option<Event>, user: User, req: CheckinCreate,
                         existing: Option<Checkin>, now: int, newId: int,
                         parseFloat: FloatParser, distance: Distance): (r: Result<Submission>)
    requires existing.Some? ==> existing.value.userId == user.id
                                && existing.value.eventId == req.eventId
    ensures event.None? ==> r == Err(HttpError(404, EventMissing))
    ensures r.Err? ==> r.error.status in {400, 404}
    ensures event.Some? && LocationGate(event.value.info, req.geolocation, parseFloat, distance).Some?
            ==> r == Err(LocationGate(event.value.info, req.geolocation, parseFloat, distance).value)
    ensures r.Ok? ==> r.value.record.userId == user.id && r.value.record.eventId == req.eventId
    ensures r.Ok? ==> r.value.user == MergeProfile(user, req.profileData)
    ensures r.Ok? ==> (r.value.created <==> existing.None?)
    // A first submission opens a record.
    ensures existing.None? ==> (r.Ok? <==> event.Some? && LocationGate(event.value.info,
                                              req.geolocation, parseFloat, distance).None?)
    ensures existing.None? && r.Ok? ==>
              var c := r.value.record;
              c.id == newId && c.checkinTime == now && c.checkoutTime.None?
              && c.status == CheckedInStatus && c.isValid
              && c.geolocation == req.geolocation && c.dynamicData == req.dynamicData
    // A later submission can only close the existing record.
    ensures existing.Some? && existing.value.checkoutTime.Some? && event.Some?
            && LocationGate(event.value.info, req.geolocation, parseFloat, distance).None?
            ==> r == Err(HttpError(400, AlreadyCompleted))
    ensures existing.Some? && existing.value.checkoutTime.None? && event.Some?
            && !event.value.info.requireCheckout
            && LocationGate(event.value.info, req.geolocation, parseFloat, distance).None?
            ==> r == Err(HttpError(400, CheckoutNotRequired))
    ensures existing.Some? ==>
              (r.Ok? <==> event.Some?
                          && LocationGate(event.value.info, req.geolocation, parseFloat, distance).None?
                          && existing.value.checkoutTime.None? && event.value.info.requireCheckout
                          && CheckoutGateAt(event.value.info, existing.value.checkinTime, now).Open?)
    ensures existing.Some? && r.Ok? ==>
              var (c, prev) := (r.value.record, existing.value);
              c.id == prev.id && c.checkinTime == prev.checkinTime && c.dynamicData == prev.dynamicData
              && c.isValid == prev.isValid && c.checkoutTime == Some(now)
              && c.status == CheckedOutStatus
              && c.geolocation == (if Present(req.geolocation) then req.geolocation else prev.geolocation)
  {
    if event.None? then Err(HttpError(404, EventMissing))
    else
      var info := event.value.info;
      match LocationGate(info, req.geolocation, parseFloat, distance)
      case Some(e) => Err(e)
      case None =>
        match existing
        case None =>
          var record := Checkin(newId, user.id, req.eventId, now, None, req.geolocation,
                                req.dynamicData, CheckedInStatus, true);
          Ok(Submission(record, MergeProfile(user, req.profileData), true))
        case Some(prev) =>
          if prev.checkoutTime.Some? then Err(HttpError(400, AlreadyCompleted))
          else if !info.requireCheckout then Err(HttpError(400, CheckoutNotRequired))
          else match CheckoutGateAt(info, prev.checkinTime, now)
            case TooSoonAfterCheckin(d, rem) => Err(HttpError(400, WaitMessage(d, rem)))
            case BeforeEnd(end) => Err(HttpError(400, CreateEndMessage(end)))
            case Open =>
              var geolocation := if Present(req.geolocation) then req.geolocation else prev.geolocation;
              var record := prev.(checkoutTime := Some(now), status := CheckedOutStatus,
                                 geolocation := geolocation);
              Ok(Submission(record, MergeProfile(user, req.profileData), false))
  }

  // ---------------------------------------------------------------------------
  // The record store: at most one record per (user, event).

  predicate OnePerPair(records: seq<Checkin>) {
    forall i, j | 0 <= i < j < |records| ::
      !(records[i].userId == records[j].userId && records[i].eventId == records[j].eventId)
  }

  /** The query for a participant's record of an event. */
  function Lookup(records: seq<Checkin>, userId: int, eventId: string): (r: Option<nat>)
    ensures r.Some? ==> r.value < |records| && records[r.value].userId == userId
                        && records[r.value].eventId == eventId
    ensures r.None? ==> forall i | 0 <= i < |records| ::
                          !(records[i].userId == userId && records[i].eventId == eventId)
  {
    if |records| == 0 then None
    else if records[0].userId == userId && records[0].eventId == eventId then Some(0)
    else match Lookup(records[1..], userId, eventId)
      case None => None
      case Some(i) => Some(i + 1)
  }

  function Existing(records: seq<Checkin>, userId: int, eventId: string): Option<Checkin> {
    match Lookup(records, userId, eventId)
    case None => None
    case Some(i) => Some(records[i])
  }

  /** A submission against the store: the looked-up record is created or closed in place.
      A new record takes the next free identifier. */
  function Submit(records: seq<Checkin>, event: Option<Event>, user: User, req: CheckinCreate,
                  now: int, parseFloat: FloatParser, distance: Distance): (r: Result<(seq<Checkin>, Submission)>)
    requires OnePerPair(records)
    ensures r.Ok? ==> OnePerPair(r.value.0)
    ensures r.Ok? && Lookup(records, user.id, req.eventId).Some? ==>
              var i := Lookup(records, user.id, req.eventId).value;
              r.value.0 == records[i := r.value.1.record]
    ensures r.Ok? && Lookup(records, user.id, req.eventId).None? ==>
              r.value.0 == records + [r.value.1.record]
  {
    var existing := Existing(records, user.id, req.eventId);
    match CreateCheckin(event, user, req, existing, now, NextId(records), parseFloat, distance)
    case Err(e) => Err(e)
    case Ok(s) =>
      match Lookup(records, user.id, req.eventId)
      case Some(i) =>
        var next := records[i := s.record];
        assert forall k | 0 <= k < |next| :: next[k].userId == records[k].userId
                                             && next[k].eventId == records[k].eventId;
        Ok((next, s))
      case None => Ok((records + [s.record], s))
  }

  function NextId(records: seq<Checkin>): (n: int)
    ensures forall i | 0 <= i < |records| :: records[i].id < n
  {
    if |records| == 0 then 1
    else
      var rest := NextId(records[1..]);
      assert forall i | 1 <= i < |records| :: records[i].id == records[1..][i - 1].id;
      if records[0].id < rest then rest else records[0].id + 1
  }

  /** Once a participant has a record for an event, no further submission for that pair
      adds a record: the store keeps its size. */
  lemma {:induction false} NoSecondRecord(records: seq<Checkin>, event: Option<Event>, user: User,
                                          req: CheckinCreate, now: int, req2: CheckinCreate, now2: int,
                                          parseFloat: FloatParser, distance: Distance)
    requires OnePerPair(records)
    requires Submit(records, event, user, req, now, parseFloat, distance).Ok?
    requires req2.eventId == req.eventId
    ensures var after := Submit(records, event, user, req, now, parseFloat, distance).value.0;
            var again := Submit(after, event, user, req2, now2, parseFloat, distance);
            again.Ok? ==> |again.value.0| == |after|
  {
    var after := Submit(records, event, user, req, now, parseFloat, distance).value.0;
    var s := Submit(records, event, user, req, now, parseFloat, distance).value.1;
    assert after[|after| - 1] == s.record || Lookup(records, user.id, req.eventId).Some?;
    if Lookup(records, user.id, req.eventId).Some? {
      var i := Lookup(records, user.id, req.eventId).value;
      assert after[i] == s.record;
    }
    assert Lookup(after, user.id, req2.eventId).Some?;
  }

  /** After a checkout, every further submission for the pair is refused with the
      "already completed" message once it gets past the location gate. */
  lemma ClosedRecordStaysClosed(records: seq<Checkin>, event: Option<Event>, user: User,
                                req: CheckinCreate, now: int, newId: int,
                                parseFloat: FloatParser, distance: Distance)
    requires Existing(records, user.id, req.eventId).Some?
    requires Existing(records, user.id, req.eventId).value.checkoutTime.Some?
    requires event.Some? && LocationGate(event.value.info, req.geolocation, parseFloat, distance).None?
    ensures CreateCheckin(event, user, req, Existing(records, user.id, req.eventId), now, newId,
                          parseFloat, distance) == Err(HttpError(400, AlreadyCompleted))
  {
  }

  // ---------------------------------------------------------------------------
  // The advisory check.

  datatype Advice = Advice(valid: bool, message: string, user: Option<UserInfo>, checkin: Option<Checkin>)

  /** POST /api/checkins/validate: what the page should offer. No location check is made. */
  function ValidateCheckin(event: Option<Event>, user: User, existing: Option<Checkin>, now: int): (r: Advice)
    ensures event.None? ==> r == Advice(false, EventMissing, None, None)
    ensures event.Some? ==> r.user == Some(InfoOf(user)) && r.checkin == existing
    ensures event.Some? && existing.None? ==> r.valid && r.message == AdviceCheckin
    ensures event.Some? && existing.Some? && existing.value.checkoutTime.Some?
            ==> !r.valid && r.message == AdviceCompleted
    ensures event.Some? && existing.Some? && existing.value.checkoutTime.None? ==>
              (r.valid <==> !event.value.info.requireCheckout
                            || CheckoutGateAt(event.value.info, existing.value.checkinTime, now).Open?)
              && (r.valid ==> r.message == AdviceCheckout)
    ensures event.Some? && existing.Some? && existing.value.checkoutTime.None?
            && event.value.info.requireCheckout ==>
              match CheckoutGateAt(event.value.info, existing.value.checkinTime, now)
              case Open => r.message == AdviceCheckout
              case TooSoonAfterCheckin(d, rem) => r.message == WaitMessage(d, rem)
              case BeforeEnd(end) => r.message == AdviceEndMessage(end)
  {
    if event.None? then Advice(false, EventMissing, None, None)
    else
      var info := InfoOf(user);
      match existing
      case None => Advice(true, AdviceCheckin, Some(info), None)
      case Some(c) =>
        if c.checkoutTime.Some? then Advice(false, AdviceCompleted, Some(info), existing)
        else if event.value.info.requireCheckout then
          match CheckoutGateAt(event.value.info, c.checkinTime, now)
          case TooSoonAfterCheckin(d, rem) => Advice(false, WaitMessage(d, rem), Some(info), existing)
          case BeforeEnd(end) => Advice(false, AdviceEndMessage(end), Some(info), existing)
          case Open => Advice(true, AdviceCheckout, Some(info), existing)
        else Advice(true, AdviceCheckout, Some(info), existing)
  }

  /** The advice agrees with the action a submission would take, once the location gate
      passes: a closed record is reported as completed and refused; for events that need a
      checkout the advice is valid exactly when the submission succeeds; with no record the
      advice invites a check-in that then succeeds. For events without a checkout the advice
      still invites a checkout that the submission refuses. */
  lemma ValidateAgreesWithCreate(event: Event, user: User, req: CheckinCreate,
                                 existing: Option<Checkin>, now: int, newId: int,
                                 parseFloat: FloatParser, distance: Distance)
    requires existing.Some? ==> existing.value.userId == user.id
                                && existing.value.eventId == req.eventId
    requires LocationGate(event.info, req.geolocation, parseFloat, distance).None?
    ensures var advice := ValidateCheckin(Some(event), user, existing, now);
            var outcome := CreateCheckin(Some(event), user, req, existing, now, newId, parseFloat, distance);
            && (existing.Some? && existing.value.checkoutTime.Some? ==>
                  advice.message == AdviceCompleted && outcome == Err(HttpError(400, AlreadyCompleted)))
            && (event.info.requireCheckout ==> (advice.valid <==> outcome.Ok?))
            && (existing.None? ==> advice.valid && advice.message == AdviceCheckin
                                   && outcome.Ok? && outcome.value.created)
            && (!event.info.requireCheckout && existing.Some? && existing.value.checkoutTime.None? ==>
                  advice.valid && advice.message == AdviceCheckout
                  && outcome == Err(HttpError(400, CheckoutNotRequired)))
  {
  }

  /** When the advice says to wait, the submission is refused with the very same text. */
  lemma WaitAdviceMatchesRefusal(event: Event, user: User, req: CheckinCreate, c: Checkin,
                                 now: int, newId: int, parseFloat: FloatParser, distance: Distance)
    requires c.userId == user.id && c.eventId == req.eventId && c.checkoutTime.None?
    requires event.info.requireCheckout
    requires LocationGate(event.info, req.geolocation, parseFloat, distance).None?
    requires CheckoutGateAt(event.info, c.checkinTime, now).TooSoonAfterCheckin?
    ensures CreateCheckin(Some(event), user, req, Some(c), now, newId, parseFloat, distance)
            == Err(HttpError(400, ValidateCheckin(Some(event), user, Some(c), now).message))
  {
  }
}

=== FILE: clock.dfy ===
/** Calendar arithmetic on UTC millisecond timestamps: day numbers, weekdays with Monday
    as 0 (Python's `date.weekday`), and the `%H:%M` and `%Y-%m-%d %H:%M` renderings the
    server puts into its messages. */
module Clock {
  import opened Common

  /** The day number of an instant (day 0 is 1970-01-01). */
  function DayOf(t: int): int {
    t / DayMs
  }

  /** The instant of midnight UTC starting a day. */
  function Midnight(day: int): int {
    day * DayMs
  }

  /** Python's `date.weekday()`: Monday is 0 and Sunday is 6; 1970-01-01 was a Thursday. */
  function Weekday(day: int): (w: int)
    ensures 0 <= w < 7
  {
    (day + 3) % 7
  }

  /** Proleptic Gregorian year, month and day of a day number (days-from-civil inverse). */
  function CivilFromDays(day: int): (int, int, int) {
    var z := day + 719468;
    var era := z / 146097;
    var doe := z - era * 146097;
    var yoe := (doe - doe / 1460 + doe / 36524 - doe / 146096) / 365;
    var doy := doe - (365 * yoe + yoe / 4 - yoe / 100);
    var mp := (5 * doy + 2) / 153;
    var d := doy - (153 * mp + 2) / 5 + 1;
    var m := if mp < 10 then mp + 3 else mp - 9;
    var y := yoe + era * 400;
    (if m <= 2 then y + 1 else y, m, d)
  }

  /** The characters a rendered time may contain. */
  predicate IsClockChar(c: char) {
    IsAsciiDigit(c) || c == '-' || c == ':' || c == ' '
  }

  predicate IsClockText(s: string) {
    forall k | 0 <= k < |s| :: IsClockChar(s[k])
  }

  lemma ClockAppend(a: string, b: string)
    requires IsClockText(a) && IsClockText(b)
    ensures IsClockText(a + b)
  {
  }

  /** `%02d`: a single digit gets a leading zero. */
  function Pad2(n: int): (s: string)
    ensures IsClockText(s)
  {
    var t := IntToString(n);
    assert IsClockText(t) by {
      if n < 0 {
        forall k | 0 <= k < |t| ensures IsClockChar(t[k]) {
          if k > 0 { assert t[k] == t[1..][k - 1]; }
        }
      }
    }
    if 0 <= n < 10 then "0" + t else t
  }

  /** `strftime('%H:%M')` of a UTC instant. */
  function ClockText(t: int): (s: string)
    ensures IsClockText(s)
  {
    var msOfDay := t % DayMs;
    var hh := Pad2(msOfDay / HourMs);
    var mm := Pad2((msOfDay % HourMs) / MinuteMs);
    ClockAppend(hh, ":");
    ClockAppend(hh + ":", mm);
    hh + ":" + mm
  }

  /** `strftime('%Y-%m-%d %H:%M')` of a UTC instant. */
  function DateTimeText(t: int): (s: string)
    ensures IsClockText(s)
  {
    var ymd := CivilFromDays(DayOf(t));
    var date := DateText(Pad2(ymd.0), Pad2(ymd.1), Pad2(ymd.2));
    ClockAppend(date, " ");
    ClockAppend(date + " ", ClockText(t));
    date + " " + ClockText(t)
  }

  function DateText(y: string, m: string, d: string): (s: string)
    requires IsClockText(y) && IsClockText(m) && IsClockText(d)
    ensures IsClockText(s)
  {
    ClockAppend(y, "-");
    ClockAppend(y + "-", m);
    ClockAppend(y + "-" + m, "-");
    ClockAppend(y + "-" + m + "-", d);
    y + "-" + m + "-" + d
  }
}

=== FILE: common.dfy ===
/** Shared vocabulary of the check-in system: optional values, results that carry an
    HTTP error, partial-update fields, JSON-like answer values, and the string
    operations (substring search, trimming, splitting, integer parsing and printing)
    that the Python backend and the TypeScript frontend rely on. */
module Common {

  datatype Option<T> = None | Some(value: T)

  /** An HTTP error as FastAPI's HTTPException carries it: a status code and a detail. */
  datatype HttpError = HttpError(status: int, detail: string)

  /** A handler either returns a value or raises an HTTP error. */
  datatype Result<T> = Ok(value: T) | Err(error: HttpError)

  /** A field of a partial update: left out of the request, or supplied (possibly as null,
      which is `Set(None)` when the field itself is nullable). */
  datatype Patch<T> = Unset | Set(value: T)

  function PatchOr<T>(p: Patch<T>, current: T): (r: T)
    ensures p.Unset? ==> r == current
    ensures p.Set? ==> r == p.value
  {
    match p
    case Unset => current
    case Set(v) => v
  }

  /** A JSON value as it appears in a form answer or a profile entry. */
  datatype Value = Str(s: string) | Num(n: int) | Bool(b: bool) | Items(xs: seq<string>) | Null

  /** Form answers and profile data: a JSON object from field name to value. */
  type Answers = map<string, Value>

  /** JavaScript truthiness of a JSON value (arrays are always truthy). */
  predicate JsTruthy(v: Value) {
    match v
    case Str(s) => s != ""
    case Num(n) => n != 0
    case Bool(b) => b
    case Items(_) => true
    case Null => false
  }

  /** A JavaScript string from localStorage or a form: missing (null) or present. A
      present empty string is falsy. */
  predicate Present(o: Option<string>) {
    o.Some? && o.value != ""
  }

  // ---------------------------------------------------------------------------
  // Time, in integer milliseconds since 1970-01-01T00:00:00Z.

  const SecondMs: int := 1000
  const MinuteMs: int := 60000
  const HourMs: int := 3600000
  const DayMs: int := 86400000

  // ---------------------------------------------------------------------------
  // Substrings (JavaScript `includes`, Python `in`).

  predicate ContainsAt(s: string, sub: string, i: int) {
    0 <= i <= |s| - |sub| && s[i..i + |sub|] == sub
  }

  predicate Contains(s: string, sub: string) {
    exists i | 0 <= i <= |s| - |sub| :: ContainsAt(s, sub, i)
  }

  predicate StartsWith(s: string, prefix: string) {
    |prefix| <= |s| && s[..|prefix|] == prefix
  }

  predicate EndsWith(s: string, suffix: string) {
    |suffix| <= |s| && s[|s| - |suffix|..] == suffix
  }

  lemma ContainsMiddle(a: string, sub: string, b: string)
    ensures Contains(a + sub + b, sub)
  {
    var s := a + sub + b;
    assert s[|a|..|a| + |sub|] == sub;
    assert ContainsAt(s, sub, |a|);
  }

  /** A string does not contain `sub` when one character of `sub` occurs nowhere in it. */
  lemma NotContainsByChar(s: string, sub: string, j: int)
    requires 0 <= j < |sub|
    requires forall k | 0 <= k < |s| :: s[k] != sub[j]
    ensures !Contains(s, sub)
  {
    forall i | 0 <= i <= |s| - |sub|
      ensures !ContainsAt(s, sub, i)
    {
      assert s[i + j] != sub[j];
    }
  }

  /** A string does not contain `sub` when two adjacent characters of `sub` never occur
      adjacently in it. */
  lemma NotContainsByPair(s: string, sub: string, j: int)
    requires 0 <= j && j + 1 < |sub|
    requires forall k | 0 <= k < |s| - 1 :: !(s[k] == sub[j] && s[k + 1] == sub[j + 1])
    ensures !Contains(s, sub)
  {
    forall i | 0 <= i <= |s| - |sub|
      ensures !ContainsAt(s, sub, i)
    {
      assert !(s[i + j] == sub[j] && s[i + j + 1] == sub[j + 1]);
    }
  }

  // ---------------------------------------------------------------------------
  // Whitespace and trimming.

  /** White space and line terminators removed by JavaScript's `String.prototype.trim`. */
  predicate IsJsSpace(c: char) {
    c == '\t' || c == '\n' || c == '\U{B}' || c == '\U{C}' || c == '\r' || c == ' '
    || c == '\U{A0}' || c == '\U{1680}' || ('\U{2000}' <= c <= '\U{200A}')
    || c == '\U{2028}' || c == '\U{2029}' || c == '\U{202F}' || c == '\U{205F}'
    || c == '\U{3000}' || c == '\U{FEFF}'
  }

  /** Characters for which Python's `str.isspace` holds (stripped by `str.strip()` and `int()`). */
  predicate IsPySpace(c: char) {
    c == '\t' || c == '\n' || c == '\U{B}' || c == '\U{C}' || c == '\r'
    || ('\U{1C}' <= c <= '\U{1F}') || c == ' ' || c == '\U{85}' || c == '\U{A0}'
    || c == '\U{1680}' || ('\U{2000}' <= c <= '\U{200A}') || c == '\U{2028}'
    || c == '\U{2029}' || c == '\U{202F}' || c == '\U{205F}' || c == '\U{3000}'
  }

  function TrimLeft(s: string, isSpace: char -> bool): (r: string)
    ensures |r| <= |s| && r == s[|s| - |r|..]
    ensures forall k | 0 <= k < |s| - |r| :: isSpace(s[k])
    ensures |r| > 0 ==> !isSpace(r[0])
  {
    if |s| > 0 && isSpace(s[0]) then
      var r := TrimLeft(s[1..], isSpace);
      assert s[1..][|s| - 1 - |r|..] == s[|s| - |r|..];
      r
    else s
  }

  function TrimRight(s: string, isSpace: char -> bool): (r: string)
    ensures |r| <= |s| && r == s[..|r|]
    ensures forall k | |r| <= k < |s| :: isSpace(s[k])
    ensures |r| > 0 ==> !isSpace(r[|r| - 1])
  {
    if |s| > 0 && isSpace(s[|s| - 1]) then
      var r := TrimRight(s[..|s| - 1], isSpace);
      assert s[..|s| - 1][..|r|] == s[..|r|];
      r
    else s
  }

  function Trim(s: string, isSpace: char -> bool): (r: string)
    ensures |r| > 0 ==> !isSpace(r[0]) && !isSpace(r[|r| - 1])
    ensures (forall k | 0 <= k < |s| :: !isSpace(s[k])) ==> r == s
  {
    TrimRight(TrimLeft(s, isSpace), isSpace)
  }

  /** JavaScript `s.trim()`. */
  function TrimJs(s: string): string {
    Trim(s, IsJsSpace)
  }

  /** Python `s.strip()`. */
  function StripPy(s: string): string {
    Trim(s, IsPySpace)
  }

  // ---------------------------------------------------------------------------
  // Splitting on a separator character (Python `str.split(sep)`, JavaScript `split`).

  function IndexOf(s: string, c: char): (k: nat)
    requires c in s
    ensures k < |s| && s[k] == c && c !in s[..k]
  {
    if s[0] == c then 0 else 1 + IndexOf(s[1..], c)
  }

  /** The pieces of `s` between occurrences of `sep`; always at least one piece. */
  function Split(s: string, sep: char): (parts: seq<string>)
    ensures |parts| >= 1
    ensures forall i | 0 <= i < |parts| :: sep !in parts[i]
    decreases |s|
  {
    if sep in s then
      var k := IndexOf(s, sep);
      [s[..k]] + Split(s[k + 1..], sep)
    else
      [s]
  }

  function Join(parts: seq<string>, sep: char): string
    requires |parts| >= 1
  {
    if |parts| == 1 then parts[0] else parts[0] + [sep] + Join(parts[1..], sep)
  }

  /** Splitting loses nothing: joining the pieces with the separator gives the input back. */
  lemma {:induction false} JoinSplit(s: string, sep: char)
    ensures Join(Split(s, sep), sep) == s
    decreases |s|
  {
    if sep in s {
      var k := IndexOf(s, sep);
      JoinSplit(s[k + 1..], sep);
      assert Split(s, sep) == [s[..k]] + Split(s[k + 1..], sep);
      assert (Split(s, sep))[1..] == Split(s[k + 1..], sep);
      assert s == s[..k] + [sep] + s[k + 1..];
    }
  }

  /** A string without the separator splits into itself alone. */
  lemma SplitNoSeparator(s: string, sep: char)
    requires sep !in s
    ensures Split(s, sep) == [s]
  {
  }

  /** A first piece without the separator splits off as the first piece. */
  lemma SplitFirst(a: string, rest: string, sep: char)
    requires sep !in a
    ensures Split(a + [sep] + rest, sep) == [a] + Split(rest, sep)
  {
    var s := a + [sep] + rest;
    assert s[|a|] == sep;
    var k := IndexOf(s, sep);
    assert k == |a|;
    assert s[..k] == a;
    assert s[k + 1..] == rest;
  }

  /** `a + [sep] + b` with no separator in `a` or `b` splits into exactly `[a, b]`. */
  lemma SplitTwo(a: string, b: string, sep: char)
    requires sep !in a && sep !in b
    ensures Split(a + [sep] + b, sep) == [a, b]
  {
    var s := a + [sep] + b;
    assert s[|a|] == sep;
    var k := IndexOf(s, sep);
    assert s[..k] == a;
    assert s[k + 1..] == b;
  }

  /** Two leading pieces without the separator split off as the first two pieces. */
  lemma SplitFirstTwo(a: string, b: string, rest: string, sep: char)
    requires sep !in a && sep !in b
    ensures Split(a + [sep] + b + [sep] + rest, sep) == [a, b] + Split(rest, sep)
  {
    var inner := b + [sep] + rest;
    var whole := a + [sep] + inner;
    assert a + [sep] + b + [sep] + rest == whole;
    SplitFirst(b, rest, sep);
    SplitFirst(a, inner, sep);
    assert [a] + ([b] + Split(rest, sep)) == [a, b] + Split(rest, sep);
  }

  // ---------------------------------------------------------------------------
  // Error details as a page receives them.

  /** The status FastAPI answers when a request body fails its pydantic schema. The
      model's 422 errors name the failing fields in their detail, separated by commas. */
  const ValidationStatus: int := 422

  /** `err.response.data.detail` as a page receives it: the text of an HTTPException, or,
      for a schema failure, FastAPI's array of error objects, one per failing field. */
  datatype Detail = DetailText(text: string) | ErrorObjects(count: nat)

  function DetailOf(e: HttpError): (d: Detail)
    ensures d.ErrorObjects? <==> e.status == ValidationStatus
    ensures d.ErrorObjects? ==> d.count == |Split(e.detail, ',')| >= 1
    ensures d.DetailText? ==> d.text == e.detail
  {
    if e.status == ValidationStatus then ErrorObjects(|Split(e.detail, ',')|)
    else DetailText(e.detail)
  }

  /** `detail || fallback`: an array is truthy even when empty, so only an empty text gives
      way to the fallback. */
  function DetailOr(e: HttpError, fallback: string): (d: Detail)
    ensures e.status == ValidationStatus ==> d == DetailOf(e)
    ensures e.status != ValidationStatus && e.detail != "" ==> d == DetailText(e.detail)
    ensures e.status != ValidationStatus && e.detail == "" ==> d == DetailText(fallback)
  {
    var d := DetailOf(e);
    if d.DetailText? && d.text == "" then DetailText(fallback) else d
  }

  /** What JavaScript makes of a plain object turned into a string. */
  const ObjectText: string := "[object Object]"

  /** `String(array)` for `n` plain objects: their texts separated by commas. */
  function ObjectsText(n: nat): (t: string)
    ensures n >= 1 ==> Split(t, ',') == seq(n, _ => ObjectText)
  {
    if n == 0 then ""
    else if n == 1 then
      SplitNoSeparator(ObjectText, ',');
      ObjectText
    else
      SplitFirst(ObjectText, ObjectsText(n - 1), ',');
      ObjectText + "," + ObjectsText(n - 1)
  }

  /** What `alert` shows for a detail. */
  function AlertText(d: Detail): (t: string)
    ensures d.DetailText? ==> t == d.text
    ensures d.ErrorObjects? && d.count >= 1 ==> Split(t, ',') == seq(d.count, _ => ObjectText)
  {
    match d
    case DetailText(text) => text
    case ErrorObjects(n) => ObjectsText(n)
  }

  /** Whether React can render the detail as a child: a text can; an array of plain
      objects makes rendering throw. */
  predicate Renderable(d: Detail) {
    d.DetailText?
  }

  // ---------------------------------------------------------------------------
  // Decimal digits.

  predicate IsAsciiDigit(c: char) {
    '0' <= c <= '9'
  }

  predicate AllAsciiDigits(s: string) {
    forall k | 0 <= k < |s| :: IsAsciiDigit(s[k])
  }

  function DigitValue(c: char): (d: nat)
    requires IsAsciiDigit(c)
    ensures d < 10
  {
    (c as int) - ('0' as int)
  }

  function DigitChar(d: int): (c: char)
    requires 0 <= d < 10
    ensures IsAsciiDigit(c) && DigitValue(c) == d
  {
    (('0' as int) + d) as char
  }

  /** The value of a string of decimal digits, most significant first. */
  function DigitsValue(s: string): nat
    requires AllAsciiDigits(s)
  {
    if s == [] then 0 else DigitsValue(s[..|s| - 1]) * 10 + DigitValue(s[|s| - 1])
  }

  /** The decimal rendering of a natural number (Python `str`, JavaScript template literal). */
  function NatToString(n: nat): (s: string)
    ensures |s| >= 1 && AllAsciiDigits(s)
    ensures DigitsValue(s) == n
    decreases n
  {
    if n < 10 then [DigitChar(n)]
    else
      var init := NatToString(n / 10);
      var s := init + [DigitChar(n % 10)];
      assert s[..|s| - 1] == init;
      s
  }

  function IntToString(n: int): (s: string)
    ensures |s| >= 1
    ensures n >= 0 ==> AllAsciiDigits(s)
    ensures n < 0 ==> s[0] == '-' && AllAsciiDigits(s[1..])
  {
    if n < 0 then "-" + NatToString(-n) else NatToString(n)
  }

  /** Python `int(s)` in base 10: surrounding white space is stripped and one sign is
      allowed; anything else fails with ValueError (None). */
  function ParseIntPy(s: string): (r: Option<int>)
    ensures r.Some? ==> |StripPy(s)| > 0
  {
    var t := StripPy(s);
    if |t| > 0 && (t[0] == '-' || t[0] == '+') then
      var body := t[1..];
      if |body| > 0 && AllAsciiDigits(body) then
        var v: int := DigitsValue(body);
        Some(if t[0] == '-' then -v else v)
      else None
    else if |t| > 0 && AllAsciiDigits(t) then Some(DigitsValue(t))
    else None
  }

  lemma IntToStringHasNoSpace(n: int)
    ensures forall k | 0 <= k < |IntToString(n)| :: !IsPySpace(IntToString(n)[k])
  {
    var s := IntToString(n);
    forall k | 0 <= k < |s|
      ensures !IsPySpace(s[k])
    {
      if n < 0 && k > 0 {
        assert s[k] == s[1..][k - 1];
      }
    }
  }

  /** Rendering an integer and parsing it back with Python's `int` gives the integer. */
  lemma ParseIntPyRoundTrip(n: int)
    ensures ParseIntPy(IntToString(n)) == Some(n)
  {
    IntToStringHasNoSpace(n);
    var s := IntToString(n);
    assert StripPy(s) == s;
    if n < 0 {
      assert s[1..] == NatToString(-n);
    }
  }

  // ---------------------------------------------------------------------------
  // JavaScript `parseInt(s)` with no radix argument.

  predicate IsHexDigit(c: char) {
    IsAsciiDigit(c) || ('a' <= c <= 'f') || ('A' <= c <= 'F')
  }

  function HexValue(c: char): (d: nat)
    requires IsHexDigit(c)
    ensures d < 16
  {
    if IsAsciiDigit(c) then DigitValue(c)
    else if 'a' <= c <= 'f' then (c as int) - ('a' as int) + 10
    else (c as int) - ('A' as int) + 10
  }

  /** The longest prefix of `s` all of whose characters satisfy `p`. */
  function TakeWhile(s: string, p: char -> bool): (r: string)
    ensures |r| <= |s| && r == s[..|r|]
    ensures forall k | 0 <= k < |r| :: p(r[k])
    ensures |r| < |s| ==> !p(s[|r|])
  {
    if |s| > 0 && p(s[0]) then [s[0]] + TakeWhile(s[1..], p) else []
  }

  function HexDigitsValue(s: string): nat
    requires forall k | 0 <= k < |s| :: IsHexDigit(s[k])
  {
    if s == [] then 0 else HexDigitsValue(s[..|s| - 1]) * 16 + HexValue(s[|s| - 1])
  }

  /** JavaScript `parseInt(s)`: leading white space is skipped, one sign is allowed, a
      "0x"/"0X" prefix selects base 16, and then the longest run of digits is read;
      trailing characters are ignored. No digit at all gives NaN (None). */
  function ParseIntJs(s: string): (r: Option<int>)
  {
    var t := TrimLeft(s, IsJsSpace);
    var negative := |t| > 0 && t[0] == '-';
    var u := if |t| > 0 && (t[0] == '-' || t[0] == '+') then t[1..] else t;
    var magnitude :=
      if |u| >= 2 && u[0] == '0' && (u[1] == 'x' || u[1] == 'X') then
        var h := TakeWhile(u[2..], IsHexDigit);
        if h == [] then None else Some(HexDigitsValue(h))
      else
        var d := TakeWhile(u, IsAsciiDigit);
        if d == [] then None else Some(DigitsValue(d) as int);
    match magnitude
    case None => None
    case Some(m) => Some(if negative then -m else m)
  }

  // ---------------------------------------------------------------------------
  // Filtering a sequence (JavaScript `Array.prototype.filter`).

  function Filter<T>(s: seq<T>, p: T -> bool): (r: seq<T>)
    ensures |r| <= |s|
    ensures forall i | 0 <= i < |r| :: p(r[i])
  {
    if |s| == 0 then []
    else if p(s[0]) then [s[0]] + Filter(s[1..], p)
    else Filter(s[1..], p)
  }

  /** An element survives filtering exactly when it is in the input and satisfies the test. */
  lemma {:induction false} FilterMembership<T>(s: seq<T>, p: T -> bool, x: T)
    ensures x in Filter(s, p) <==> x in s && p(x)
  {
    if |s| > 0 {
      FilterMembership(s[1..], p, x);
      assert s == [s[0]] + s[1..];
    }
  }

  /** Counting by a test splits into counting the elements that also pass a second test
      and those that fail it. */
  lemma {:induction false} FilterCountSplit<T>(s: seq<T>, p: T -> bool, both: T -> bool, only: T -> bool, q: T -> bool)
    requires forall x :: both(x) == (p(x) && q(x))
    requires forall x :: only(x) == (p(x) && !q(x))
    ensures |Filter(s, p)| == |Filter(s, both)| + |Filter(s, only)|
  {
    if |s| > 0 {
      FilterCountSplit(s[1..], p, both, only, q);
    }
  }

  /** Filtering keeps the relative order: a relation that holds from every earlier to
      every later element of the input holds in the output. */
  lemma {:induction false} FilterKeepsOrder<T>(s: seq<T>, p: T -> bool, before: (T, T) -> bool)
    requires forall i, j | 0 <= i < j < |s| :: before(s[i], s[j])
    ensures forall i, j | 0 <= i < j < |Filter(s, p)| :: before(Filter(s, p)[i], Filter(s, p)[j])
  {
    if |s| > 0 {
      var rest := Filter(s[1..], p);
      FilterKeepsOrder(s[1..], p, before);
      if p(s[0]) {
        var r := Filter(s, p);
        assert r == [s[0]] + rest;
        forall i, j | 0 <= i < j < |r|
          ensures before(r[i], r[j])
        {
          if i == 0 {
            assert r[j] == rest[j - 1];
            FilterMembership(s[1..], p, r[j]);
            var k :| 0 <= k < |s[1..]| && s[1..][k] == r[j];
            assert s[k + 1] == r[j];
          } else {
            assert r[i] == rest[i - 1] && r[j] == rest[j - 1];
          }
        }
      }
    }
  }

  /** Every character of a rendered integer is an ASCII digit or the minus sign. */
  lemma IntToStringChars(n: int)
    ensures forall k | 0 <= k < |IntToString(n)| :: IsAsciiDigit(IntToString(n)[k]) || IntToString(n)[k] == '-'
  {
    var s := IntToString(n);
    forall k | 0 <= k < |s|
      ensures IsAsciiDigit(s[k]) || s[k] == '-'
    {
      if n < 0 && k > 0 {
        assert s[k] == s[1..][k - 1];
      }
    }
  }

  // ---------------------------------------------------------------------------
  // Removing and toggling list entries (`filter(v => v !== x)` and its inverse).

  /** The list without any occurrence of `x`, other entries in order. */
  function Remove<T(==)>(xs: seq<T>, x: T): (r: seq<T>)
    ensures x !in r
    ensures forall y | y in r :: y in xs
    ensures forall y | y in xs && y != x :: y in r
  {
    if |xs| == 0 then []
    else if xs[0] == x then Remove(xs[1..], x)
    else [xs[0]] + Remove(xs[1..], x)
  }

  /** Removing `x` keeps every other entry exactly as often as before. */
  lemma {:induction false} RemoveCounts<T>(xs: seq<T>, x: T, y: T)
    requires y != x
    ensures multiset(Remove(xs, x))[y] == multiset(xs)[y]
  {
    if |xs| > 0 {
      RemoveCounts(xs[1..], x, y);
      assert xs == [xs[0]] + xs[1..];
    }
  }

  /** Adds `x` when absent, removes every occurrence when present. */
  function Toggle<T(==)>(xs: seq<T>, x: T): (r: seq<T>)
    ensures x in r <==> x !in xs
    ensures forall y | y in r && y != x :: y in xs
    ensures forall y | y in xs && y != x :: y in r
  {
    if x in xs then Remove(xs, x) else xs + [x]
  }

  /** A checkbox bound to list membership: checking appends the value, unchecking
      removes every copy of it. */
  function Check<T(==)>(xs: seq<T>, x: T, checked: bool): (r: seq<T>)
    ensures checked ==> r == xs + [x]
    ensures !checked ==> x !in r && forall y | y in xs && y != x :: y in r
    ensures forall y | y in r :: y in xs || y == x
  {
    if checked then xs + [x] else Remove(xs, x)
  }

  /** A checkbox shows the current membership, so a click checks an absent value and
      unchecks a present one: a click is a toggle. */
  lemma ClickIsToggle<T>(xs: seq<T>, x: T)
    ensures Check(xs, x, x !in xs) == Toggle(xs, x)
  {
  }

  /** Toggling twice restores membership of the toggled value and leaves every other
      value's count as it was. */
  lemma ToggleTwice<T>(xs: seq<T>, x: T, y: T)
    ensures x in Toggle(Toggle(xs, x), x) <==> x in xs
    ensures y != x ==> multiset(Toggle(Toggle(xs, x), x))[y] == multiset(xs)[y]
  {
    if y != x {
      var once := Toggle(xs, x);
      if x in xs {
        RemoveCounts(xs, x, y);
      } else {
        RemoveCounts(xs + [x], x, y);
      }
    }
  }
}

=== FILE: create_event_page.dfy ===
/** The event-creation page (frontend/src/pages/admin/CreateEventPage.tsx): the request it
    builds from the form for a single event or a recurring series, the checks it makes
    before sending, and the template and weekday toggles. Date inputs are read by a parser
    parameter (`new Date(s)`, `None` for an invalid date); the clock is a parameter. */
module CreateEventPage {
  import opened Common
  import opened Domain
  import opened EventSchema
  import Clock

  const SeriesIncomplete: string := "請填寫完整的系列活動設定"
  const EndNotAfterStart: string := "結束時間必須晚於開始時間"
  /** The message of the RangeError `toISOString` throws for an invalid date. */
  const InvalidTimeValue: string := "Invalid time value"

  type DateParser = string -> Option<int>

  /** The form state. Numeric inputs hold numbers; `maxParticipants` is the raw text. */
  datatype EventForm = EventForm(
    name: string,
    description: string,
    startTime: string,
    endTime: string,
    location: string,
    latitude: Option<real>,
    longitude: Option<real>,
    radius: int,
    maxParticipants: string,
    eventType: string,
    locationValidation: bool,
    requireCheckout: bool,
    checkoutMode: string,
    checkoutDuration: int,
    visibility: string,
    registrationTemplate: string,
    surveyStartTemplate: string,
    surveyEndTemplate: string,
    profileExtensionTemplate: string,
    templateIds: seq<string>)

  const InitialForm: EventForm :=
    EventForm("", "", "", "", "", None, None, 100, "", "會議", false, false, AfterDuration, 30, "public",
              "", "", "", "", [])

  datatype SeriesConfig = SeriesConfig(startDate: string, endDate: string, daysOfWeek: seq<int>,
                                       startTimeLocal: string, endTimeLocal: string)

  const InitialSeries: SeriesConfig := SeriesConfig("", "", [], "09:00", "10:00")

  /** `s || undefined` for a text value. */
  function OrUndefined(s: string): (r: Option<string>)
    ensures r.None? <==> s == ""
    ensures r.Some? ==> r.value == s
  {
    if s == "" then None else Some(s)
  }

  /** `max_participants ? parseInt(max_participants) : undefined`. A NaN is serialised as
      null, which the server reads as no limit, so both end up `None`. */
  function MaxParticipantsOf(text: string): (r: Option<int>)
    ensures text == "" ==> r.None?
    ensures text != "" ==> r == ParseIntJs(text)
  {
    if text == "" then None else ParseIntJs(text)
  }

  /** The checkout mode is sent only when checkout is required. */
  function CheckoutModeOf(f: EventForm): (r: Option<string>)
    ensures r.Some? <==> f.requireCheckout
    ensures r.Some? ==> r.value == f.checkoutMode
  {
    if f.requireCheckout then Some(f.checkoutMode) else None
  }

  /** The duration is sent only for a required checkout after a duration. */
  function CheckoutDurationOf(f: EventForm): (r: Option<int>)
    ensures r.Some? <==> f.requireCheckout && f.checkoutMode == AfterDuration
    ensures r.Some? ==> r.value == f.checkoutDuration
  {
    if f.requireCheckout && f.checkoutMode == AfterDuration then Some(f.checkoutDuration) else None
  }

  /** The request body for a given window, carrying the selected template ids. */
  function Body(f: EventForm, start: int, end: int): (req: EventRequest)
    ensures req.startTime == Some(start) && req.endTime == Some(end) && req.name == f.name
    ensures req.maxParticipants == MaxParticipantsOf(f.maxParticipants)
    ensures req.checkoutMode == CheckoutModeOf(f) && req.checkoutDuration == CheckoutDurationOf(f)
    ensures req.legacy == LegacyTemplates(OrUndefined(f.registrationTemplate), OrUndefined(f.surveyStartTemplate),
                                          OrUndefined(f.surveyEndTemplate), OrUndefined(f.profileExtensionTemplate))
    ensures req.templateIds == Set(Some(f.templateIds))
    ensures req.seriesId.None?
  {
    EventRequest(
      f.name, Some(f.description), Some(start), Some(end), Some(f.location), f.latitude, f.longitude,
      Some(f.radius), MaxParticipantsOf(f.maxParticipants), Some(f.eventType), Some(f.locationValidation),
      Some(f.requireCheckout), CheckoutModeOf(f), CheckoutDurationOf(f), Some(f.visibility), None,
      LegacyTemplates(OrUndefined(f.registrationTemplate), OrUndefined(f.surveyStartTemplate),
                      OrUndefined(f.surveyEndTemplate), OrUndefined(f.profileExtensionTemplate)),
      Set(Some(f.templateIds)))
  }

  /** What pressing "create" does: refuse with a message, or send one of the two requests. */
  datatype Outcome = Refused(message: string) | SendEvent(request: EventRequest) | SendSeries(series: SeriesRequest)

  /** `handleSubmit` with the selected template ids sent along. A series needs both dates
      and a weekday; its shared fields carry the window now .. now + 1 h. A single event
      needs its end strictly after its start; an invalid date is compared as NaN (never
      "not after") and then fails in `toISOString`. */
  function Submit(f: EventForm, recurring: bool, cfg: SeriesConfig, now: int, parse: DateParser): (r: Outcome)
    ensures recurring && (cfg.startDate == "" || cfg.endDate == "" || |cfg.daysOfWeek| == 0) ==>
              r == Refused(SeriesIncomplete)
    ensures (!recurring && parse(f.startTime).Some? && parse(f.endTime).Some?
             && parse(f.endTime).value <= parse(f.startTime).value) ==> r == Refused(EndNotAfterStart)
    ensures !recurring && (parse(f.startTime).None? || parse(f.endTime).None?) ==> r == Refused(InvalidTimeValue)
    ensures r.SendEvent? <==> !recurring && parse(f.startTime).Some? && parse(f.endTime).Some?
                              && parse(f.endTime).value > parse(f.startTime).value
    ensures r.SendEvent? ==> r.request == Body(f, parse(f.startTime).value, parse(f.endTime).value)
    ensures r.SendSeries? <==> recurring && cfg.startDate != "" && cfg.endDate != "" && |cfg.daysOfWeek| > 0
                               && parse(cfg.startDate).Some? && parse(cfg.endDate).Some?
    ensures r.SendSeries? ==> r.series.eventBase == Body(f, now, now + HourMs)
                              && r.series.startDate == Clock.DayOf(parse(cfg.startDate).value)
                              && r.series.endDate == Clock.DayOf(parse(cfg.endDate).value)
                              && r.series.daysOfWeek == cfg.daysOfWeek
  {
    if recurring then
      if cfg.startDate == "" || cfg.endDate == "" || |cfg.daysOfWeek| == 0 then Refused(SeriesIncomplete)
      else match (parse(cfg.startDate), parse(cfg.endDate))
        case (Some(s), Some(e)) =>
          SendSeries(SeriesRequest(Body(f, now, now + HourMs), Clock.DayOf(s), Clock.DayOf(e), cfg.daysOfWeek,
                                   cfg.startTimeLocal, cfg.endTimeLocal))
        case _ => Refused(InvalidTimeValue)
    else
      match (parse(f.startTime), parse(f.endTime))
      case (Some(s), Some(e)) => if e <= s then Refused(EndNotAfterStart) else SendEvent(Body(f, s, e))
      case _ => Refused(InvalidTimeValue)
  }

  /** `handleSubmit` as written: the same checks, but neither request carries the
      selected template ids, so the server applies its default of none. */
  function SubmitAsWritten(f: EventForm, recurring: bool, cfg: SeriesConfig, now: int, parse: DateParser): (r: Outcome)
    ensures var s := Submit(f, recurring, cfg, now, parse);
            && (r.Refused? <==> s.Refused?)
            && (r.Refused? ==> r == s)
            && (r.SendEvent? ==> s.SendEvent? && r.request == s.request.(templateIds := Unset))
            && (r.SendSeries? ==> s.SendSeries? && r.series.eventBase == s.series.eventBase.(templateIds := Unset))
  {
    var s := Submit(f, recurring, cfg, now, parse);
    match s
    case Refused(m) => s
    case SendEvent(req) => SendEvent(req.(templateIds := Unset))
    case SendSeries(ser) => SendSeries(ser.(eventBase := ser.eventBase.(templateIds := Unset)))
  }

  /** As written, the templates ticked on the page never reach the event: the server's
      draft always has an empty template list. */
  lemma SelectedTemplatesDropped(f: EventForm, now: int, parse: DateParser)
    requires |f.templateIds| > 0
    requires SubmitAsWritten(f, false, InitialSeries, now, parse).SendEvent?
    requires ValidateEvent(SubmitAsWritten(f, false, InitialSeries, now, parse).request).Valid?
    ensures ValidateEvent(SubmitAsWritten(f, false, InitialSeries, now, parse).request).draft.templateIds == Some([])
    ensures ValidateEvent(SubmitAsWritten(f, false, InitialSeries, now, parse).request).draft.templateIds
            != Some(f.templateIds)
  {
  }

  /** With the ids sent, the server's draft names exactly the ticked templates. */
  lemma SelectedTemplatesKept(f: EventForm, recurring: bool, cfg: SeriesConfig, now: int, parse: DateParser)
    requires Submit(f, recurring, cfg, now, parse).SendEvent?
    requires ValidateEvent(Submit(f, recurring, cfg, now, parse).request).Valid?
    ensures ValidateEvent(Submit(f, recurring, cfg, now, parse).request).draft.templateIds == Some(f.templateIds)
  {
  }

  /** Whatever the page sends, the schema's window rule holds: a single event's end was
      checked to be after its start, and a series' shared window is one hour long. So the
      server refuses a request from this page only for its name or participant limit. */
  lemma SentWindowAlwaysValid(f: EventForm, recurring: bool, cfg: SeriesConfig, now: int, parse: DateParser)
    requires !Submit(f, recurring, cfg, now, parse).Refused?
    ensures var r := Submit(f, recurring, cfg, now, parse);
            var req := if r.SendEvent? then r.request else r.series.eventBase;
            ValidateEvent(req).Valid? <==> |f.name| >= 1 && (MaxParticipantsOf(f.maxParticipants).Some? ==>
                                                             MaxParticipantsOf(f.maxParticipants).value >= 1)
  {
  }

  /** Ticking a template twice restores whether it is selected, and every other id's
      count is as before. */
  lemma TemplateClickTwice(ids: seq<string>, id: string, other: string)
    ensures var once := Check(ids, id, id !in ids);
            (id in once <==> id !in ids)
            && (id in Check(once, id, id !in once) <==> id in ids)
            && (other != id ==> multiset(Check(once, id, id !in once))[other] == multiset(ids)[other])
  {
    ClickIsToggle(ids, id);
    ClickIsToggle(Toggle(ids, id), id);
    ToggleTwice(ids, id, other);
  }

  /** The weekday buttons (days 0 to 6, Monday first) toggle a day: starting from no
      weekdays, only Monday..Sunday are ever selected, and a second press restores the
      selection of every day. */
  lemma WeekdayButtons(days: seq<int>, day: int, d: int)
    requires forall x | x in days :: 0 <= x < 7
    requires 0 <= day < 7
    ensures forall x | x in Toggle(days, day) :: 0 <= x < 7
    ensures d in Toggle(Toggle(days, day), day) <==> d in days
  {
  }
}

=== FILE: dashboard.dfy ===
/** The admin dashboard's event list (fontend/src/pages/admin/DashboardPage.tsx): the
    multi-select over the listed events, the header checkbox, the refetch (which clears
    the selection when it succeeds) and the bulk delete. A listed event is represented by
    its id; the rest of a row is display only. */
module Dashboard {
  import opened Common

  const DeleteSucceeded: string := "刪除成功"
  const DeleteFailed: string := "刪除過程中發生錯誤"

  /** The page state: the ids of the listed events in list order, the selected ids, and
      whether the spinner is shown. */
  datatype Page = Page(rows: seq<string>, selected: set<string>, loading: bool)

  /** The ids of the listed events. */
  function Ids(rows: seq<string>): (r: set<string>)
    ensures forall i | 0 <= i < |rows| :: rows[i] in r
    ensures forall id | id in r :: id in rows
  {
    if |rows| == 0 then {} else {rows[0]} + Ids(rows[1..])
  }

  /** Event ids are unique, so no id is listed twice. */
  predicate Distinct(rows: seq<string>) {
    forall i, j | 0 <= i < j < |rows| :: rows[i] != rows[j]
  }

  /** A page whose selection names only listed events. */
  predicate Consistent(p: Page) {
    p.selected <= Ids(p.rows)
  }

  /** `fetchEvents`: a successful fetch replaces the list and clears the selection; a
      failed one keeps both. The spinner is off afterwards either way. */
  function Refetch(p: Page, response: Option<seq<string>>): (r: Page)
    ensures !r.loading
    ensures response.Some? ==> r.rows == response.value && r.selected == {}
    ensures response.None? ==> r.rows == p.rows && r.selected == p.selected
  {
    match response
    case Some(rows) => Page(rows, {}, false)
    case None => p.(loading := false)
  }

  /** The header checkbox's `onChange`: ticking selects every listed event, unticking
      selects none. */
  function SelectAll(p: Page, checked: bool): (r: Page)
    ensures r.rows == p.rows && r.loading == p.loading
    ensures checked ==> forall i | 0 <= i < |p.rows| :: p.rows[i] in r.selected
    ensures checked ==> forall id | id in r.selected :: id in p.rows
    ensures !checked ==> r.selected == {}
  {
    p.(selected := if checked then Ids(p.rows) else {})
  }

  /** A row checkbox: the clicked id changes membership, every other id keeps it. */
  function SelectOne(p: Page, id: string): (r: Page)
    ensures r.rows == p.rows && r.loading == p.loading
    ensures id in r.selected <==> id !in p.selected
    ensures r.selected - {id} == p.selected - {id}
  {
    p.(selected := if id in p.selected then p.selected - {id} else p.selected + {id})
  }

  /** Whether the header checkbox shows as ticked: as many selected ids as listed events,
      and at least one event. */
  predicate HeaderChecked(p: Page) {
    |p.selected| == |p.rows| && |p.rows| > 0
  }

  /** The bulk delete button is shown only while something is selected. */
  predicate BulkDeleteShown(p: Page) {
    |p.selected| > 0
  }

  /** What a bulk delete did: the ids it asked the server to delete, the new page and the
      alert shown, if any. */
  datatype BulkDelete = BulkDelete(requested: set<string>, page: Page, alert: Option<string>)

  /** `handleBulkDelete`: nothing happens for an empty selection or a cancelled
      confirmation. Otherwise every selected event is deleted; when all deletions succeed
      the list is fetched again (a failed refetch is swallowed) and success is announced;
      when one fails the failure is announced and the list is left as it was. */
  function DeleteSelected(p: Page, confirmed: bool, allDeleted: bool, refetched: Option<seq<string>>): (r: BulkDelete)
    ensures |p.selected| == 0 || !confirmed ==> r == BulkDelete({}, p, None)
    ensures |p.selected| > 0 && confirmed ==> r.requested == p.selected && !r.page.loading
    ensures |p.selected| > 0 && confirmed && allDeleted ==>
              r.alert == Some(DeleteSucceeded) && r.page == Refetch(p, refetched)
    ensures |p.selected| > 0 && confirmed && !allDeleted ==>
              r.alert == Some(DeleteFailed) && r.page.rows == p.rows && r.page.selected == p.selected
  {
    if |p.selected| == 0 || !confirmed then BulkDelete({}, p, None)
    else if allDeleted then BulkDelete(p.selected, Refetch(p, refetched), Some(DeleteSucceeded))
    else BulkDelete(p.selected, p.(loading := false), Some(DeleteFailed))
  }

  /** With distinct ids there are exactly as many ids as rows. */
  lemma {:induction false} DistinctIdsCount(rows: seq<string>)
    requires Distinct(rows)
    ensures |Ids(rows)| == |rows|
  {
    if |rows| > 0 {
      var rest := rows[1..];
      assert Distinct(rest);
      DistinctIdsCount(rest);
      assert rows[0] !in Ids(rest);
    }
  }

  /** A subset as large as the whole set is the whole set. */
  lemma FullSubset(a: set<string>, b: set<string>)
    requires a <= b && |a| == |b|
    ensures a == b
  {
    assert b == a + (b - a);
    assert |b| == |a| + |b - a|;
  }

  /** On a consistent page with distinct event ids the header checkbox is ticked exactly
      when every listed event is selected and at least one is listed. */
  lemma HeaderMeansAllSelected(p: Page)
    requires Consistent(p) && Distinct(p.rows)
    ensures HeaderChecked(p) <==> |p.rows| > 0 && forall i | 0 <= i < |p.rows| :: p.rows[i] in p.selected
  {
    DistinctIdsCount(p.rows);
    if HeaderChecked(p) {
      FullSubset(p.selected, Ids(p.rows));
    }
    if |p.rows| > 0 && forall i | 0 <= i < |p.rows| :: p.rows[i] in p.selected {
      assert Ids(p.rows) <= p.selected;
      assert p.selected == Ids(p.rows);
    }
  }

  /** The header checkbox reflects its own click: after ticking it the header shows
      ticked (when there is an event), after unticking it shows unticked. */
  lemma SelectAllShowsInHeader(p: Page, checked: bool)
    requires Distinct(p.rows)
    ensures HeaderChecked(SelectAll(p, checked)) <==> checked && |p.rows| > 0
  {
    DistinctIdsCount(p.rows);
  }

  /** Clicks keep the selection within the listed events, and a refetch or select-all
      leaves a consistent page. */
  lemma ActionsKeepConsistent(p: Page, id: string, checked: bool, response: Option<seq<string>>)
    requires Consistent(p)
    ensures id in p.rows ==> Consistent(SelectOne(p, id))
    ensures Consistent(SelectAll(p, checked))
    ensures Consistent(Refetch(p, response))
  {
  }

  /** Clicking the same row twice restores the selection. */
  lemma SelectOneTwice(p: Page, id: string)
    ensures SelectOne(SelectOne(p, id), id) == p
  {
  }

  /** After a confirmed bulk delete that succeeded and a refetch that returns the events
      not deleted, no deleted event is listed, nothing is selected, and the delete button
      is hidden. */
  lemma DeletedEventsGone(p: Page, remaining: seq<string>)
    requires |p.selected| > 0
    requires forall i | 0 <= i < |remaining| :: remaining[i] in p.rows && remaining[i] !in p.selected
    ensures var r := DeleteSelected(p, true, true, Some(remaining));
            && (forall id | id in r.requested :: id !in r.page.rows)
            && !BulkDeleteShown(r.page)
  {
  }
}

=== FILE: dependencies.dfy ===
/** The authentication dependencies (backend/app/core/dependencies.py): turning a bearer
    token into the current admin or LINE user, the optional variant that never fails, and
    the system-admin gate. Token decoding (JWT signature and expiry) is a parameter. */
module Dependencies {
  import opened Common
  import opened Domain

  const InvalidCredentials: string := "無效的認證憑證"
  const UnknownAccount: string := "用戶不存在"
  const SystemAdminRequired: string := "需要系統管理員權限"
  const InternalServerError: string := "Internal Server Error"

  /** The claims the dependencies read from a decoded token. */
  datatype Claims = Claims(sub: Option<string>, username: Option<string>, role: Option<string>)

  /** Decoding a token: its claims, or the decoder's error text. */
  datatype Decoded = Decoded(claims: Claims) | DecodeFailed(reason: string)

  type Decoder = string -> Decoded

  /** The subject id a token names: a decoding failure and a missing or empty `sub` are
      401s; a `sub` that is not an integer makes `int()` raise, which nothing catches (500). */
  function SubjectId(token: string, decode: Decoder): (r: Result<int>)
    ensures decode(token).DecodeFailed? ==>
              r == Err(HttpError(401, InvalidCredentials + ": " + decode(token).reason))
    ensures decode(token).Decoded? && !Present(decode(token).claims.sub) ==>
              r == Err(HttpError(401, InvalidCredentials))
    ensures decode(token).Decoded? && Present(decode(token).claims.sub) ==>
              && (ParseIntPy(decode(token).claims.sub.value).None? ==> r == Err(HttpError(500, InternalServerError)))
              && (ParseIntPy(decode(token).claims.sub.value).Some? ==> r == Ok(ParseIntPy(decode(token).claims.sub.value).value))
  {
    match decode(token)
    case DecodeFailed(reason) => Err(HttpError(401, InvalidCredentials + ": " + reason))
    case Decoded(claims) =>
      if !Present(claims.sub) then Err(HttpError(401, InvalidCredentials))
      else match ParseIntPy(claims.sub.value)
        case None => Err(HttpError(500, InternalServerError))
        case Some(id) => Ok(id)
  }

  function FindAdmin(admins: seq<Admin>, id: int): (r: Option<Admin>)
    ensures r.Some? ==> r.value in admins && r.value.id == id
    ensures r.None? <==> forall a | a in admins :: a.id != id
  {
    if |admins| == 0 then None
    else if admins[0].id == id then Some(admins[0])
    else FindAdmin(admins[1..], id)
  }

  function FindUser(users: seq<User>, id: int): (r: Option<User>)
    ensures r.Some? ==> r.value in users && r.value.id == id
    ensures r.None? <==> forall u | u in users :: u.id != id
  {
    if |users| == 0 then None
    else if users[0].id == id then Some(users[0])
    else FindUser(users[1..], id)
  }

  predicate UniqueAdminIds(admins: seq<Admin>) {
    forall i, j | 0 <= i < j < |admins| :: admins[i].id != admins[j].id
  }

  /** With unique ids the lookup finds the one admin with that id. */
  lemma {:induction false} FindAdminUnique(admins: seq<Admin>, a: Admin)
    requires UniqueAdminIds(admins) && a in admins
    ensures FindAdmin(admins, a.id) == Some(a)
  {
    if admins[0] != a {
      assert a in admins[1..];
      var k :| 0 <= k < |admins| && admins[k] == a;
      assert admins[0].id != a.id;
      FindAdminUnique(admins[1..], a);
    }
  }

  /** `get_current_admin`: the admin whose id the token's subject names; an unknown id is a
      401. Whether the account is active, and which kind of token it is, are not checked. */
  function CurrentAdmin(token: string, decode: Decoder, admins: seq<Admin>): (r: Result<Admin>)
    ensures SubjectId(token, decode).Err? ==> r == Err(SubjectId(token, decode).error)
    ensures SubjectId(token, decode).Ok? && FindAdmin(admins, SubjectId(token, decode).value).None? ==>
              r == Err(HttpError(401, UnknownAccount))
    ensures r.Ok? ==> r.value in admins && SubjectId(token, decode) == Ok(r.value.id)
  {
    match SubjectId(token, decode)
    case Err(e) => Err(e)
    case Ok(id) =>
      match FindAdmin(admins, id)
      case None => Err(HttpError(401, UnknownAccount))
      case Some(a) => Ok(a)
  }

  /** `get_current_user`: the same steps against the LINE users. */
  function CurrentUser(token: string, decode: Decoder, users: seq<User>): (r: Result<User>)
    ensures SubjectId(token, decode).Err? ==> r == Err(SubjectId(token, decode).error)
    ensures SubjectId(token, decode).Ok? && FindUser(users, SubjectId(token, decode).value).None? ==>
              r == Err(HttpError(401, UnknownAccount))
    ensures r.Ok? ==> r.value in users && SubjectId(token, decode) == Ok(r.value.id)
  {
    match SubjectId(token, decode)
    case Err(e) => Err(e)
    case Ok(id) =>
      match FindUser(users, id)
      case None => Err(HttpError(401, UnknownAccount))
      case Some(u) => Ok(u)
  }

  /** `get_optional_current_admin`: no credentials or any failure gives no admin; it never
      fails, and it finds an admin exactly when the required variant does. */
  function OptionalAdmin(credentials: Option<string>, decode: Decoder, admins: seq<Admin>): (r: Option<Admin>)
    ensures r.Some? <==> credentials.Some? && CurrentAdmin(credentials.value, decode, admins).Ok?
    ensures r.Some? ==> r == Some(CurrentAdmin(credentials.value, decode, admins).value)
  {
    if credentials.None? then None
    else match decode(credentials.value)
      case DecodeFailed(_) => None
      case Decoded(claims) =>
        if !Present(claims.sub) then None
        else match ParseIntPy(claims.sub.value)
          case None => None
          case Some(id) => FindAdmin(admins, id)
  }

  /** `require_system_admin`: authentication errors pass through; any other role is a 403. */
  function RequireSystemAdmin(auth: Result<Admin>): (r: Result<Admin>)
    ensures auth.Err? ==> r == auth
    ensures auth.Ok? ==> (r.Ok? <==> IsSystemAdmin(auth.value))
    ensures auth.Ok? && !IsSystemAdmin(auth.value) ==> r == Err(HttpError(403, SystemAdminRequired))
    ensures r.Ok? ==> r == auth
  {
    match auth
    case Err(_) => auth
    case Ok(a) => if a.name != SystemAdminRole then Err(HttpError(403, SystemAdminRequired)) else auth
  }

  /** A token whose subject is an admin's id, rendered as the login does, authenticates as
      that admin — active or not. */
  lemma SubjectTokenAuthenticates(token: string, decode: Decoder, admins: seq<Admin>, a: Admin)
    requires UniqueAdminIds(admins) && a in admins
    requires decode(token).Decoded? && decode(token).claims.sub == Some(IntToString(a.id))
    ensures CurrentAdmin(token, decode, admins) == Ok(a)
  {
    ParseIntPyRoundTrip(a.id);
    FindAdminUnique(admins, a);
    assert IntToString(a.id) != "";
  }

  /** The token kind is not checked: a LINE user's token authenticates as the admin that
      happens to share the user's id. */
  lemma UserTokenServesAsAdminToken(token: string, decode: Decoder, users: seq<User>, admins: seq<Admin>, a: Admin)
    requires UniqueAdminIds(admins) && a in admins
    requires CurrentUser(token, decode, users).Ok? && CurrentUser(token, decode, users).value.id == a.id
    ensures CurrentAdmin(token, decode, admins) == Ok(a)
  {
    FindAdminUnique(admins, a);
  }
}

=== FILE: domain.dfy ===
/** The entities of the check-in system, following the shared TypeScript types and the
    Pydantic schemas: form fields and templates, events, check-in records, LINE users
    and administrators. Times are integer milliseconds since the Unix epoch (UTC). */
module Domain {
  import opened Common

  /** The role name that carries system-wide rights; every other name is an ordinary admin. */
  const SystemAdminRole: string := "系統管理員"

  // Template kinds and survey triggers.
  const RegistrationKind: string := "registration"
  const SurveyKind: string := "survey"
  const ProfileExtensionKind: string := "profile_extension"
  const CourseStart: string := "course_start"
  const CourseEnd: string := "course_end"

  // Checkout modes.
  const AfterDuration: string := "after_duration"
  const AtEndTime: string := "at_end_time"

  // Check-in record statuses.
  const CheckedInStatus: string := "已簽到"
  const CheckedOutStatus: string := "已簽退"

  /** One question of a form template. `kind` is the declared input type ('text', 'number',
      'select', 'radio', 'checkbox', 'date', 'textarea'); the server stores any string. */
  datatype FormField = FormField(
    name: string,
    fieldLabel: string,
    kind: string,
    required: bool,
    options: Option<seq<string>>,
    placeholder: Option<string>)

  datatype Template = Template(
    id: string,
    name: string,
    kind: string,
    surveyTrigger: Option<string>,
    fields: seq<FormField>,
    isPublic: bool,
    owner: Option<int>)

  /** The four single-template columns kept for compatibility next to the template list. */
  datatype LegacyTemplates = LegacyTemplates(
    registration: Option<string>,
    surveyStart: Option<string>,
    surveyEnd: Option<string>,
    profileExtension: Option<string>)

  /** The descriptive part of an event, shared by the create schema and the stored event. */
  datatype EventInfo = EventInfo(
    name: string,
    description: Option<string>,
    startTime: int,
    endTime: int,
    location: Option<string>,
    latitude: Option<real>,
    longitude: Option<real>,
    radius: int,
    maxParticipants: Option<int>,
    eventType: string,
    locationValidation: bool,
    requireCheckout: bool,
    checkoutMode: Option<string>,
    checkoutDuration: Option<int>,
    visibility: string,
    seriesId: Option<string>,
    legacy: LegacyTemplates)

  datatype Event = Event(
    id: string,
    info: EventInfo,
    templates: seq<Template>,
    qrcodeUrl: Option<string>,
    createdBy: int)

  /** A check-in record: one per (user, event), closed by a checkout time. */
  datatype Checkin = Checkin(
    id: int,
    userId: int,
    eventId: string,
    checkinTime: int,
    checkoutTime: Option<int>,
    geolocation: Option<string>,
    dynamicData: Option<Answers>,
    status: string,
    isValid: bool)

  /** A participant who signed in through LINE. */
  datatype User = User(
    id: int,
    lineUserId: string,
    name: string,
    phone: string,
    company: string,
    department: string,
    profileData: Answers)

  /** The participant details returned next to check-in records. */
  datatype UserInfo = UserInfo(name: string, phone: string, company: string, department: string)

  function InfoOf(u: User): UserInfo {
    UserInfo(u.name, u.phone, u.company, u.department)
  }

  /** An administrator; `name` is the role name and `password` the stored hash. */
  datatype Admin = Admin(id: int, username: string, password: string, name: string, isActive: bool)

  predicate IsSystemAdmin(a: Admin) {
    a.name == SystemAdminRole
  }

  /** The checkout rule is a waiting period after check-in (a non-zero duration is needed). */
  predicate WaitsForDuration(info: EventInfo) {
    info.checkoutMode == Some(AfterDuration) && info.checkoutDuration.Some?
    && info.checkoutDuration.value != 0
  }

  /** The checkout rule is the event's end time. */
  predicate WaitsForEnd(info: EventInfo) {
    !WaitsForDuration(info) && info.checkoutMode == Some(AtEndTime)
  }
}

=== FILE: edit_event_form.dfy ===
/** The event edit form (frontend/src/components/EditEventForm.tsx): the form loaded from a
    stored event, the participant-limit input, the update request it sends and the check it
    makes first, and the template checkboxes. Date inputs are read by a parser parameter. */
module EditEventForm {
  import opened Common
  import opened Domain
  import opened EventSchema
  import Events

  const EndNotAfterStart: string := "結束時間必須晚於開始時間"
  const InvalidTimeValue: string := "Invalid time value"

  type DateParser = string -> Option<int>

  /** The form state; `maxParticipants` is `None` for an empty input (null) and for NaN.
      Description and location keep the stored event's null until typed into: the text
      boxes only show a null as "". */
  datatype EditForm = EditForm(
    name: string,
    description: Option<string>,
    startTime: string,
    endTime: string,
    location: Option<string>,
    latitude: Option<real>,
    longitude: Option<real>,
    radius: int,
    maxParticipants: Option<int>,
    eventType: string,
    locationValidation: bool,
    requireCheckout: bool,
    registrationTemplate: string,
    surveyStartTemplate: string,
    surveyEndTemplate: string,
    profileExtensionTemplate: string,
    templateIds: seq<string>)

  /** `o || ''` for an optional text. */
  function OrEmpty(o: Option<string>): (s: string)
    ensures o.None? ==> s == ""
    ensures o.Some? ==> s == o.value
  {
    if o.Some? then o.value else ""
  }

  function TemplateIds(ts: seq<Template>): (ids: seq<string>)
    ensures |ids| == |ts| && forall i | 0 <= i < |ts| :: ids[i] == ts[i].id
  {
    seq(|ts|, i requires 0 <= i < |ts| => ts[i].id)
  }

  /** The form filled from a stored event (a copy of it): a zero radius shows as 100,
      missing template ids as empty text, and the ticked templates are the event's; the
      description and location are copied as they are, null included. The date texts
      come from a formatter that is not part of this model. */
  function Load(e: Event, startText: string, endText: string): (f: EditForm)
    ensures f.name == e.info.name && f.description == e.info.description && f.location == e.info.location
    ensures f.radius == (if e.info.radius == 0 then 100 else e.info.radius)
    ensures f.templateIds == TemplateIds(e.templates)
    ensures f.maxParticipants == e.info.maxParticipants
    ensures f.registrationTemplate == OrEmpty(e.info.legacy.registration)
  {
    EditForm(e.info.name, e.info.description, startText, endText, e.info.location,
             e.info.latitude, e.info.longitude, if e.info.radius == 0 then 100 else e.info.radius,
             e.info.maxParticipants, e.info.eventType, e.info.locationValidation, e.info.requireCheckout,
             OrEmpty(e.info.legacy.registration), OrEmpty(e.info.legacy.surveyStart),
             OrEmpty(e.info.legacy.surveyEnd), OrEmpty(e.info.legacy.profileExtension), TemplateIds(e.templates))
  }

  /** Typing in the participant-limit box: an empty value clears the limit, anything else
      is read by `parseInt` (NaN counted as no limit). */
  function MaxParticipantsInput(text: string): (r: Option<int>)
    ensures text == "" ==> r.None?
    ensures text != "" ==> r == ParseIntJs(text)
  {
    if text == "" then None else ParseIntJs(text)
  }

  /** `max_participants || undefined`: a limit of 0 or none is not sent at all, so the
      stored limit stays as it was. */
  function LimitPatch(m: Option<int>): (p: Patch<Option<int>>)
    ensures p.Set? <==> m.Some? && m.value != 0
    ensures p.Set? ==> p.value == m
  {
    if m.Some? && m.value != 0 then Set(m) else Unset
  }

  /** `s || undefined` for a template id. */
  function IdPatch(s: string): (p: Patch<Option<string>>)
    ensures p.Set? <==> s != ""
    ensures p.Set? ==> p.value == Some(s)
  {
    if s == "" then Unset else Set(Some(s))
  }

  /** The update request with the ticked template ids included. Description and location
      are sent as they stand, a null as null. Checkout mode and duration, visibility and
      series are never sent. */
  function Body(f: EditForm, start: int, end: int): (u: EventUpdate)
    ensures u.startTime == Set(start) && u.endTime == Set(end) && u.name == Set(f.name)
    ensures u.maxParticipants == LimitPatch(f.maxParticipants)
    ensures u.checkoutMode.Unset? && u.checkoutDuration.Unset? && u.visibility.Unset? && u.seriesId.Unset?
    ensures u.description == Set(f.description) && u.location == Set(f.location)
    ensures u.templateIds == Set(Some(f.templateIds))
  {
    EventUpdate(
      Set(f.name), Set(f.description), Set(start), Set(end), Set(f.location),
      Set(f.latitude), Set(f.longitude), Set(f.radius), LimitPatch(f.maxParticipants), Set(f.eventType),
      Set(f.locationValidation), Set(f.requireCheckout), Unset, Unset, Unset, Unset,
      IdPatch(f.registrationTemplate), IdPatch(f.surveyStartTemplate), IdPatch(f.surveyEndTemplate),
      IdPatch(f.profileExtensionTemplate), Set(Some(f.templateIds)))
  }

  /** `ids.filter(id => id !== x)`: every occurrence of `x` removed, the rest in order. */
  function RemoveId(ids: seq<string>, x: string): (r: seq<string>)
    ensures x !in r
    ensures forall y | y != x :: y in r <==> y in ids
    ensures x !in ids ==> r == ids
  {
    if |ids| == 0 then []
    else if ids[0] == x then RemoveId(ids[1..], x)
    else [ids[0]] + RemoveId(ids[1..], x)
  }

  /** A template checkbox: ticking appends the template's id, unticking removes it; the
      rest of the form is untouched. */
  function ToggleTemplate(f: EditForm, id: string, checked: bool): (r: EditForm)
    ensures r == f.(templateIds := r.templateIds)
    ensures checked ==> r.templateIds == f.templateIds + [id]
    ensures !checked ==> id !in r.templateIds
    ensures forall y | y != id :: y in r.templateIds <==> y in f.templateIds
  {
    f.(templateIds := if checked then f.templateIds + [id] else RemoveId(f.templateIds, id))
  }

  /** Ticking a box that was clear and clearing it again gives back the same form. */
  lemma {:induction false} TickThenClear(f: EditForm, id: string)
    requires id !in f.templateIds
    ensures ToggleTemplate(ToggleTemplate(f, id, true), id, false) == f
  {
    RemoveAppended(f.templateIds, id);
  }

  lemma {:induction false} RemoveAppended(ids: seq<string>, x: string)
    requires x !in ids
    ensures RemoveId(ids + [x], x) == ids
  {
    if |ids| > 0 {
      assert (ids + [x])[1..] == ids[1..] + [x];
      RemoveAppended(ids[1..], x);
    }
  }

  /** What pressing "save" does: refuse with a message, or send an update. */
  datatype Outcome = Refused(message: string) | Send(update: EventUpdate)

  /** Pressing "save": the end must be strictly after the start (an invalid date compares as
      NaN and then fails in `toISOString`); otherwise the update is sent. */
  function Submit(f: EditForm, parse: DateParser): (r: Outcome)
    ensures (parse(f.startTime).Some? && parse(f.endTime).Some? && parse(f.endTime).value <= parse(f.startTime).value)
            ==> r == Refused(EndNotAfterStart)
    ensures (parse(f.startTime).None? || parse(f.endTime).None?) ==> r == Refused(InvalidTimeValue)
    ensures r.Send? <==> parse(f.startTime).Some? && parse(f.endTime).Some? && parse(f.endTime).value > parse(f.startTime).value
    ensures r.Send? ==> r.update == Body(f, parse(f.startTime).value, parse(f.endTime).value)
  {
    match (parse(f.startTime), parse(f.endTime))
    case (Some(s), Some(e)) => if e <= s then Refused(EndNotAfterStart) else Send(Body(f, s, e))
    case _ => Refused(InvalidTimeValue)
  }

  /** `handleSubmit` as written: the same checks and fields, but the ticked template ids
      are left out of the request. */
  function SubmitAsWritten(f: EditForm, parse: DateParser): (r: Outcome)
    ensures r.Send? <==> Submit(f, parse).Send?
    ensures r.Refused? ==> r == Submit(f, parse)
    ensures r.Send? ==> r.update.templateIds.Unset? && r.update == Submit(f, parse).update.(templateIds := Unset)
  {
    match Submit(f, parse)
    case Refused(m) => Refused(m)
    case Send(u) => Send(u.(templateIds := Unset))
  }

  /** A request from this form always passes the update schema's window rule, and saving it
      keeps the checkout rule, visibility and series of the stored event. */
  lemma EditKeepsUnsentFields(f: EditForm, parse: DateParser, events: seq<Event>, id: string, stored: seq<Template>)
    requires Submit(f, parse).Send?
    requires Events.UpdateEvent(events, id, Submit(f, parse).update, stored).Ok?
    ensures var e := Events.FindEvent(events, id).value;
            var after := Events.UpdateEvent(events, id, Submit(f, parse).update, stored).value;
            && after.info.checkoutMode == e.info.checkoutMode
            && after.info.checkoutDuration == e.info.checkoutDuration
            && after.info.visibility == e.info.visibility
            && after.info.seriesId == e.info.seriesId
            && after.info.endTime > after.info.startTime
  {
    var e := Events.FindEvent(events, id).value;
    Events.UnsetFieldsKept(e.info, Submit(f, parse).update);
  }

  /** As written, ticking or unticking templates on the edit form has no effect: the saved
      event keeps its old template list. */
  lemma TemplateEditsIgnored(f: EditForm, parse: DateParser, events: seq<Event>, id: string, stored: seq<Template>)
    requires SubmitAsWritten(f, parse).Send?
    requires Events.UpdateEvent(events, id, SubmitAsWritten(f, parse).update, stored).Ok?
    ensures Events.UpdateEvent(events, id, SubmitAsWritten(f, parse).update, stored).value.templates
            == Events.FindEvent(events, id).value.templates
  {
  }

  /** With the ids sent, the saved event's templates are the stored ones whose ids were
      ticked. */
  lemma TemplateEditsSaved(f: EditForm, parse: DateParser, events: seq<Event>, id: string, stored: seq<Template>)
    requires Submit(f, parse).Send?
    requires Events.UpdateEvent(events, id, Submit(f, parse).update, stored).Ok?
    ensures Events.UpdateEvent(events, id, Submit(f, parse).update, stored).value.templates
            == Events.TemplatesWithIds(stored, f.templateIds)
  {
  }

  /** Saving a loaded form whose texts were left alone keeps the stored name, description
      and location, a missing description or location included. */
  lemma UntouchedTextsKept(e: Event, startText: string, endText: string, parse: DateParser,
                           events: seq<Event>, stored: seq<Template>)
    requires Events.FindEvent(events, e.id) == Some(e)
    requires Submit(Load(e, startText, endText), parse).Send?
    requires Events.UpdateEvent(events, e.id, Submit(Load(e, startText, endText), parse).update, stored).Ok?
    ensures var after := Events.UpdateEvent(events, e.id, Submit(Load(e, startText, endText), parse).update, stored).value;
            after.info.name == e.info.name && after.info.description == e.info.description
            && after.info.location == e.info.location
  {
  }

  /** Clearing the limit box does not clear the stored limit: no limit is sent and the old
      one stays. */
  lemma ClearedLimitKept(f: EditForm, parse: DateParser, events: seq<Event>, id: string, stored: seq<Template>)
    requires f.maxParticipants.None? || f.maxParticipants == Some(0)
    requires Submit(f, parse).Send?
    requires Events.UpdateEvent(events, id, Submit(f, parse).update, stored).Ok?
    ensures Events.UpdateEvent(events, id, Submit(f, parse).update, stored).value.info.maxParticipants
            == Events.FindEvent(events, id).value.info.maxParticipants
  {
  }
}

=== FILE: event_page.dfy ===
/** The public event page (frontend/src/pages/public/EventPage.tsx): how it reads the
    server's advice into button state, which form fields it asks for, how it splits the
    answers into check-in data and profile data, and how it reacts to the outcome of a
    submission. */
module EventPage {
  import opened Common
  import opened Domain
  import Checkins

  const ValidationFailedMessage: string := "簽到資格驗證失敗。"
  const IncompleteMessage: string := "活動或用戶信息不完整"
  const CheckinSucceededMessage: string := "簽到成功！"
  const CheckoutSucceededMessage: string := "簽退成功！"
  const SubmitFailedMessage: string := "操作失敗，請重試"
  const OutsideWindowNotice: string := "活動不在可簽到時間範圍內"

  datatype SubmitStatus = Idle | Loading | Succeeded | Failed

  datatype PageState = PageState(
    isCheckinAvailable: bool,
    hasCheckedIn: bool,
    hasCheckedOut: bool,
    canCheckout: bool,
    status: SubmitStatus,
    checkinMessage: Option<string>,
    checkoutMessage: Option<string>,
    currentCheckin: Option<Checkin>,
    lastActionWasCheckout: bool,
    error: Option<string>)

  const Initial: PageState := PageState(false, false, false, false, Idle, None, None, None, false, None)

  // ---------------------------------------------------------------------------
  // Reading the advice.

  /** The branch an advice message selects; the first matching test wins. */
  datatype MessageClass = Completed | CheckoutOpen | CheckoutPending | CheckinOpen | Unrecognised

  predicate SaysCompleted(m: string) {
    Contains(m, "已完成簽到退") || Contains(m, "已完成簽到和簽退")
  }

  predicate SaysCheckoutOpen(m: string) {
    Contains(m, "可以進行簽退") || (Contains(m, "簽退") && Contains(m, "可以"))
  }

  predicate SaysCheckoutPending(m: string) {
    Contains(m, "還需等待") || (Contains(m, "簽退") && Contains(m, "分鐘"))
  }

  predicate SaysCheckinOpen(m: string) {
    Contains(m, "可以進行簽到") || Contains(m, "簽到")
  }

  function Classify(m: string): (c: MessageClass)
    ensures c == Completed <==> SaysCompleted(m)
    ensures c == CheckoutOpen <==> !SaysCompleted(m) && SaysCheckoutOpen(m)
    ensures c == CheckoutPending <==> !SaysCompleted(m) && !SaysCheckoutOpen(m) && SaysCheckoutPending(m)
    ensures c == CheckinOpen <==> !SaysCompleted(m) && !SaysCheckoutOpen(m) && !SaysCheckoutPending(m)
                                  && SaysCheckinOpen(m)
  {
    if SaysCompleted(m) then Completed
    else if SaysCheckoutOpen(m) then CheckoutOpen
    else if SaysCheckoutPending(m) then CheckoutPending
    else if SaysCheckinOpen(m) then CheckinOpen
    else Unrecognised
  }

  /** The four flags a class sets; an unrecognised message leaves them as they were. */
  function SetFlags(s: PageState, c: MessageClass, valid: bool): (t: PageState)
    ensures c == Unrecognised ==> t == s
    ensures c == Completed ==> t.hasCheckedIn && t.hasCheckedOut && !t.isCheckinAvailable && !t.canCheckout
    ensures c == CheckoutOpen ==> t.hasCheckedIn && !t.hasCheckedOut && !t.isCheckinAvailable && t.canCheckout
    ensures c == CheckoutPending ==> t.hasCheckedIn && !t.hasCheckedOut && !t.isCheckinAvailable && !t.canCheckout
    ensures c == CheckinOpen ==> !t.hasCheckedIn && !t.hasCheckedOut && t.isCheckinAvailable == valid && !t.canCheckout
    ensures t.status == s.status && t.checkinMessage == s.checkinMessage && t.currentCheckin == s.currentCheckin
    ensures t.checkoutMessage == s.checkoutMessage && t.lastActionWasCheckout == s.lastActionWasCheckout
    ensures t.error == s.error
  {
    match c
    case Completed => s.(hasCheckedIn := true, hasCheckedOut := true, isCheckinAvailable := false, canCheckout := false)
    case CheckoutOpen => s.(hasCheckedIn := true, hasCheckedOut := false, isCheckinAvailable := false, canCheckout := true)
    case CheckoutPending => s.(hasCheckedIn := true, hasCheckedOut := false, isCheckinAvailable := false, canCheckout := false)
    case CheckinOpen => s.(hasCheckedIn := false, hasCheckedOut := false, isCheckinAvailable := valid, canCheckout := false)
    case Unrecognised => s
  }

  /** The page after asking the server for advice; None is a failed request. */
  function ApplyAdvice(s: PageState, response: Option<Checkins.Advice>): (t: PageState)
    ensures response.None? ==> t == s.(isCheckinAvailable := false, checkinMessage := Some(ValidationFailedMessage))
    ensures response.Some? ==>
              && t.currentCheckin == (if response.value.checkin.Some? then response.value.checkin else s.currentCheckin)
              && t.checkinMessage == (if response.value.valid then s.checkinMessage else Some(response.value.message))
              && t.status == s.status
    ensures response.Some? && Classify(response.value.message) == Unrecognised ==>
              t.hasCheckedIn == s.hasCheckedIn && t.hasCheckedOut == s.hasCheckedOut
              && t.isCheckinAvailable == s.isCheckinAvailable && t.canCheckout == s.canCheckout
  {
    match response
    case None => s.(isCheckinAvailable := false, checkinMessage := Some(ValidationFailedMessage))
    case Some(a) =>
      var withRecord := if a.checkin.Some? then s.(currentCheckin := a.checkin) else s;
      var flagged := SetFlags(withRecord, Classify(a.message), a.valid);
      if a.valid then flagged else flagged.(checkinMessage := Some(a.message))
  }

  // ---------------------------------------------------------------------------
  // What the page renders.

  /** On the main screen, the form is shown until the participant has checked out. */
  predicate FormShown(s: PageState) {
    !s.hasCheckedOut
  }

  const CheckinResultTitle: string := "簽到成功"
  const CheckoutResultTitle: string := "簽退成功"

  /** The page's own text for an event that did not load. */
  const NoEventMessage: string := "活動不存在"

  /** What the page renders, in the order it decides: a spinner while the page loads; the
      page error alone whenever one is set (a null or empty error shows nothing); the
      missing-event message; the LINE sign-in screen without a participant; after a
      success only the result screen, titled by the last action; after a failure only the
      failure screen; otherwise the main screen, with or without the form. */
  datatype Screen =
    | Spinner
    | ErrorMessage(message: string)
    | SignInScreen
    | SuccessScreen(title: string)
    | ErrorScreen
    | MainScreen(formShown: bool)

  /** Whether `error` is truthy. */
  predicate HasError(s: PageState) {
    s.error.Some? && s.error.value != ""
  }

  function ScreenOf(s: PageState, pageLoading: bool, eventLoaded: bool, signedIn: bool): (v: Screen)
    ensures v == Spinner <==> pageLoading
    ensures v.ErrorMessage? && v.message != NoEventMessage ==> !pageLoading && HasError(s) && v.message == s.error.value
    ensures !pageLoading && HasError(s) ==> v == ErrorMessage(s.error.value)
    ensures !pageLoading && !HasError(s) && !eventLoaded ==> v == ErrorMessage(NoEventMessage)
    ensures v == SignInScreen <==> !pageLoading && !HasError(s) && eventLoaded && !signedIn
    ensures v.SuccessScreen? <==> !pageLoading && !HasError(s) && eventLoaded && signedIn && s.status == Succeeded
    ensures v.ErrorScreen? <==> !pageLoading && !HasError(s) && eventLoaded && signedIn && s.status == Failed
    ensures v.SuccessScreen? ==> v.title == (if s.lastActionWasCheckout then CheckoutResultTitle else CheckinResultTitle)
    ensures v.MainScreen? ==> !pageLoading && !HasError(s) && eventLoaded && signedIn
                              && s.status != Succeeded && s.status != Failed
                              && (v.formShown <==> FormShown(s))
  {
    if pageLoading then Spinner
    else if HasError(s) then ErrorMessage(s.error.value)
    else if !eventLoaded then ErrorMessage(NoEventMessage)
    else if !signedIn then SignInScreen
    else match s.status
      case Succeeded => SuccessScreen(if s.lastActionWasCheckout then CheckoutResultTitle else CheckinResultTitle)
      case Failed => ErrorScreen
      case _ => MainScreen(FormShown(s))
  }

  /** A submission without an event or participant leaves the page showing only the
      incomplete-information message, whatever screen it showed before. */
  lemma IncompleteSubmitShowsOnlyError(s: PageState, eventLoaded: bool, signedIn: bool)
    ensures ScreenOf(BeginSubmit(s, false), false, eventLoaded, signedIn) == ErrorMessage(IncompleteMessage)
  {
  }

  /** Whether the form's button may be pressed. */
  predicate ActionAvailable(s: PageState, eventActive: bool) {
    if s.hasCheckedIn then s.canCheckout else eventActive && s.isCheckinAvailable
  }

  datatype Action = CheckinAction | CheckoutAction

  function ActionOf(s: PageState): Action {
    if s.hasCheckedIn then CheckoutAction else CheckinAction
  }

  function WindowNotice(s: PageState, eventActive: bool): (n: Option<string>)
    ensures n.Some? <==> !eventActive && !s.hasCheckedIn
  {
    if !eventActive && !s.hasCheckedIn then Some(OutsideWindowNotice) else None
  }

  // ---------------------------------------------------------------------------
  // The combined form.

  predicate IsEndSurvey(t: Template) {
    t.kind == SurveyKind && t.surveyTrigger == Some(CourseEnd)
  }

  predicate IsStartSurvey(t: Template) {
    t.kind == SurveyKind && t.surveyTrigger == Some(CourseStart)
  }

  predicate IsRegistration(t: Template) {
    t.kind == RegistrationKind
  }

  predicate IsProfileExtension(t: Template) {
    t.kind == ProfileExtensionKind
  }

  /** The fields of the templates, template by template, in order. */
  function FieldsOf(ts: seq<Template>): seq<FormField> {
    if |ts| == 0 then [] else ts[0].fields + FieldsOf(ts[1..])
  }

  lemma {:induction false} FieldsOfMembership(ts: seq<Template>, f: FormField)
    ensures f in FieldsOf(ts) <==> exists i | 0 <= i < |ts| :: f in ts[i].fields
  {
    if |ts| > 0 {
      FieldsOfMembership(ts[1..], f);
      if f in ts[0].fields {
        assert f in FieldsOf(ts);
      }
      if exists i | 0 <= i < |ts| :: f in ts[i].fields {
        var i :| 0 <= i < |ts| && f in ts[i].fields;
        if i > 0 {
          assert f in ts[1..][i - 1].fields;
        }
      }
    }
  }

  lemma FieldsOfAppend(a: seq<Template>, b: seq<Template>)
    ensures FieldsOf(a + b) == FieldsOf(a) + FieldsOf(b)
  {
    if |a| > 0 {
      FieldsOfAppend(a[1..], b);
      assert (a + b)[0] == a[0];
      assert (a + b)[1..] == a[1..] + b;
    } else {
      assert a + b == b;
    }
  }

  /** A profile field is asked for unless the participant's profile already holds a
      non-empty answer for it. */
  predicate StillMissing(profile: Answers, f: FormField) {
    f.name !in profile || profile[f.name] == Str("")
  }

  function ProfileFields(ts: seq<Template>, user: Option<User>): seq<FormField> {
    var fields := FieldsOf(Filter(ts, IsProfileExtension));
    if user.Some? then Filter(fields, f => StillMissing(user.value.profileData, f)) else fields
  }

  function CombinedTemplate(fields: seq<FormField>): Template {
    Template("combined", "合併表單", RegistrationKind, None, fields, false, None)
  }

  /** The fields of the form for an action, as one template; None when there is no event
      or nothing to ask. */
  function ComposeForm(event: Option<Event>, user: Option<User>, action: Action): (r: Option<Template>)
    ensures event.None? ==> r.None?
    ensures r.Some? ==> |r.value.fields| > 0 && r.value == CombinedTemplate(r.value.fields)
    ensures event.Some? && action == CheckoutAction ==>
              r == (var fs := FieldsOf(Filter(event.value.templates, IsEndSurvey));
                    if |fs| == 0 then None else Some(CombinedTemplate(fs)))
    ensures event.Some? && action == CheckinAction ==>
              r == (var ts := event.value.templates;
                    var fs := FieldsOf(Filter(ts, IsRegistration)) + FieldsOf(Filter(ts, IsStartSurvey))
                              + ProfileFields(ts, user);
                    if |fs| == 0 then None else Some(CombinedTemplate(fs)))
  {
    if event.None? then None
    else
      var ts := event.value.templates;
      var fields :=
        if action == CheckoutAction then FieldsOf(Filter(ts, IsEndSurvey))
        else FieldsOf(Filter(ts, IsRegistration)) + FieldsOf(Filter(ts, IsStartSurvey)) + ProfileFields(ts, user);
      if |fields| == 0 then None else Some(CombinedTemplate(fields))
  }

  /** The checkout form asks exactly the fields of the event's closing surveys. */
  lemma CheckoutFormFields(event: Event, user: Option<User>, f: FormField)
    requires ComposeForm(Some(event), user, CheckoutAction).Some?
    ensures f in ComposeForm(Some(event), user, CheckoutAction).value.fields
            <==> exists t | t in event.templates :: IsEndSurvey(t) && f in t.fields
  {
    var ends := Filter(event.templates, IsEndSurvey);
    FieldsOfMembership(ends, f);
    if f in FieldsOf(ends) {
      var i :| 0 <= i < |ends| && f in ends[i].fields;
      FilterMembership(event.templates, IsEndSurvey, ends[i]);
    }
    if exists t | t in event.templates :: IsEndSurvey(t) && f in t.fields {
      var t :| t in event.templates && IsEndSurvey(t) && f in t.fields;
      FilterMembership(event.templates, IsEndSurvey, t);
      var i :| 0 <= i < |ends| && ends[i] == t;
    }
  }

  /** With a signed-in participant, a profile-extension field is asked for exactly when
      the participant's profile lacks a non-empty answer to it; without one, every such
      field is asked for. */
  lemma ProfileFieldSelection(ts: seq<Template>, user: Option<User>, f: FormField)
    ensures f in ProfileFields(ts, user) <==>
              (exists t | t in ts :: IsProfileExtension(t) && f in t.fields)
              && (user.None? || StillMissing(user.value.profileData, f))
  {
    var exts := Filter(ts, IsProfileExtension);
    FieldsOfMembership(exts, f);
    if user.Some? {
      FilterMembership(FieldsOf(exts), g => StillMissing(user.value.profileData, g), f);
    }
    if f in FieldsOf(exts) {
      var i :| 0 <= i < |exts| && f in exts[i].fields;
      FilterMembership(ts, IsProfileExtension, exts[i]);
    }
    if exists t | t in ts :: IsProfileExtension(t) && f in t.fields {
      var t :| t in ts && IsProfileExtension(t) && f in t.fields;
      FilterMembership(ts, IsProfileExtension, t);
      var i :| 0 <= i < |exts| && exts[i] == t;
    }
  }

  // ---------------------------------------------------------------------------
  // Splitting the answers.

  /** The names of the fields of the event's profile-extension templates. */
  function ProfileFieldNames(event: Event): set<string> {
    set f | f in FieldsOf(Filter(event.templates, IsProfileExtension)) :: f.name
  }

  /** The request's dynamic_data and profile_data for the form's answers (None when the
      form had no template). */
  function SplitAnswers(event: Event, answers: Option<Answers>): (r: (Option<Answers>, Option<Answers>))
    ensures r.0 == answers
    ensures r.1.Some? ==> answers.Some? && r.1.value != map[]
                          && r.1.value.Keys == answers.value.Keys * ProfileFieldNames(event)
                          && forall k | k in r.1.value :: r.1.value[k] == answers.value[k]
    ensures r.1.None? ==> answers.None? || answers.value.Keys * ProfileFieldNames(event) == {}
  {
    var names := ProfileFieldNames(event);
    if answers.Some? && |Filter(event.templates, IsProfileExtension)| > 0 then
      var profile := map k | k in answers.value && k in names :: answers.value[k];
      if profile == map[] then
        assert forall k | k in answers.value.Keys * names :: k in profile;
        (answers, None)
      else (answers, Some(profile))
    else
      assert Filter(event.templates, IsProfileExtension) == [] ==> names == {};
      (answers, None)
  }

  // ---------------------------------------------------------------------------
  // Submitting.

  /** Pressing the button: the page must know both the event and the participant. */
  function BeginSubmit(s: PageState, haveEventAndUser: bool): (t: PageState)
    ensures !haveEventAndUser ==> t == s.(error := Some(IncompleteMessage))
    ensures haveEventAndUser ==> t.status == Loading && t.error.None? && t.checkinMessage.None?
                                 && t.checkoutMessage.None?
  {
    if !haveEventAndUser then s.(error := Some(IncompleteMessage))
    else s.(status := Loading, error := None, checkinMessage := None, checkoutMessage := None)
  }

  /** The JSON body of a successful POST /api/checkins as the page receives it (the
      client unwraps the HTTP response to its body). The server sends the record itself;
      the page's service declares a wrapper object with a `checkin` member. */
  datatype ReplyBody = RecordBody(record: Checkin) | WrappedBody(success: bool, checkin: Option<Checkin>)

  /** `response.checkin` as written: the member is absent from a bare record. */
  function CheckinMember(body: ReplyBody): (c: Option<Checkin>)
    ensures body.RecordBody? ==> c.None?
  {
    match body
    case RecordBody(_) => None
    case WrappedBody(_, c) => c
  }

  /** The record the server actually returned, whichever shape the body has. */
  function ReturnedRecord(body: ReplyBody): (c: Option<Checkin>)
    ensures body.RecordBody? ==> c == Some(body.record)
  {
    match body
    case RecordBody(r) => Some(r)
    case WrappedBody(_, c) => c
  }

  predicate IsCheckout(record: Option<Checkin>) {
    record.Some? && (record.value.checkoutTime.Some? || record.value.status == CheckedOutStatus)
  }

  /** The page after a successful submission, given the record it read from the reply. */
  function AfterSuccess(s: PageState, event: Event, record: Option<Checkin>): (t: PageState)
    ensures t.status == Succeeded
    ensures t.currentCheckin == (if record.Some? then record else s.currentCheckin)
    ensures IsCheckout(record) ==> t.hasCheckedOut && !t.canCheckout && t.lastActionWasCheckout
                                   && t.checkinMessage == Some(CheckoutSucceededMessage)
                                   && t.hasCheckedIn == s.hasCheckedIn
    ensures !IsCheckout(record) ==> t.hasCheckedIn && !t.lastActionWasCheckout
                                    && t.checkinMessage == Some(CheckinSucceededMessage)
                                    && t.hasCheckedOut == s.hasCheckedOut
                                    && t.canCheckout == (event.info.requireCheckout || s.canCheckout)
  {
    var withRecord := if record.Some? then s.(currentCheckin := record) else s;
    if IsCheckout(record) then
      withRecord.(hasCheckedOut := true, canCheckout := false, lastActionWasCheckout := true,
                  checkinMessage := Some(CheckoutSucceededMessage), status := Succeeded)
    else
      withRecord.(hasCheckedIn := true, lastActionWasCheckout := false,
                  checkinMessage := Some(CheckinSucceededMessage),
                  canCheckout := if event.info.requireCheckout then true else withRecord.canCheckout,
                  status := Succeeded)
  }

  /** The success handler as written: it looks for the record under `checkin`. */
  function HandleReplyAsWritten(s: PageState, event: Event, body: ReplyBody): PageState {
    AfterSuccess(s, event, CheckinMember(body))
  }

  /** The success handler reading the record the server returned. */
  function HandleReply(s: PageState, event: Event, body: ReplyBody): PageState {
    AfterSuccess(s, event, ReturnedRecord(body))
  }

  /** The page after a refused or failed submission; `detail` is the server's message. */
  function AfterFailure(s: PageState, detail: Option<string>): (t: PageState)
    ensures t.status == Failed
    ensures t.checkinMessage == Some(if Present(detail) then detail.value else SubmitFailedMessage)
    ensures t.checkoutMessage == (if Present(detail) && Contains(detail.value, "還需等待") then detail
                                  else s.checkoutMessage)
    ensures t.hasCheckedIn == s.hasCheckedIn && t.hasCheckedOut == s.hasCheckedOut
    ensures t.canCheckout == s.canCheckout && t.isCheckinAvailable == s.isCheckinAvailable
  {
    var shown := if Present(detail) then detail.value else SubmitFailedMessage;
    var t := s.(status := Failed, checkinMessage := Some(shown));
    if Present(detail) && Contains(detail.value, "還需等待") then t.(checkoutMessage := detail) else t
  }
}

=== FILE: event_schema.dfy ===
/** The event request schemas (backend/app/schemas/event.py): the create request with its
    defaults and its field checks, the all-optional update request, and the recurring
    series request. Date-times arrive already parsed to milliseconds; a date-time that
    failed to parse is `None`. */
module EventSchema {
  import opened Common
  import opened Domain

  const DefaultRadius: int := 100
  const DefaultEventType: string := "會議"
  const PublicVisibility: string := "public"
  const EndBeforeStartMessage: string := "結束時間必須晚於開始時間"

  /** A create request as received. Optional fields with a default are `None` when the
      client left them out; `templateIds` distinguishes a missing list (default `[]`) from
      an explicit null. */
  datatype EventRequest = EventRequest(
    name: string,
    description: Option<string>,
    startTime: Option<int>,
    endTime: Option<int>,
    location: Option<string>,
    latitude: Option<real>,
    longitude: Option<real>,
    radius: Option<int>,
    maxParticipants: Option<int>,
    eventType: Option<string>,
    locationValidation: Option<bool>,
    requireCheckout: Option<bool>,
    checkoutMode: Option<string>,
    checkoutDuration: Option<int>,
    visibility: Option<string>,
    seriesId: Option<string>,
    legacy: LegacyTemplates,
    templateIds: Patch<Option<seq<string>>>)

  /** A request that passed validation: the event's columns and the template ids. */
  datatype EventDraft = EventDraft(info: EventInfo, templateIds: Option<seq<string>>)

  /** The outcome of validation: the draft, or the names of the failing fields in the
      order they are checked. */
  datatype Validated = Valid(draft: EventDraft) | Invalid(fields: seq<string>)

  /** The end-time rule: compared only when the start time itself parsed. */
  predicate EndTimeFails(startTime: Option<int>, endTime: Option<int>) {
    endTime.None? || (startTime.Some? && endTime.value <= startTime.value)
  }

  /** The failing fields, in declaration order. */
  function EventErrors(req: EventRequest): (errs: seq<string>)
    ensures "name" in errs <==> |req.name| < 1
    ensures "start_time" in errs <==> req.startTime.None?
    ensures "end_time" in errs <==> EndTimeFails(req.startTime, req.endTime)
    ensures "max_participants" in errs <==> req.maxParticipants.Some? && req.maxParticipants.value < 1
    ensures forall e | e in errs :: e in {"name", "start_time", "end_time", "max_participants"}
  {
    (if |req.name| < 1 then ["name"] else [])
    + (if req.startTime.None? then ["start_time"] else [])
    + (if EndTimeFails(req.startTime, req.endTime) then ["end_time"] else [])
    + (if req.maxParticipants.Some? && req.maxParticipants.value < 1 then ["max_participants"] else [])
  }

  function OrDefault<T>(o: Option<T>, default: T): (r: T)
    ensures o.Some? ==> r == o.value
    ensures o.None? ==> r == default
  {
    if o.Some? then o.value else default
  }

  /** Validating a create request: it passes exactly when the name is non-empty, both
      times parsed with the end strictly after the start, and a given participant limit is
      at least 1; the defaults fill the fields the client left out. */
  function ValidateEvent(req: EventRequest): (r: Validated)
    ensures r.Valid? <==> |req.name| >= 1 && req.startTime.Some? && req.endTime.Some?
                          && req.endTime.value > req.startTime.value
                          && (req.maxParticipants.Some? ==> req.maxParticipants.value >= 1)
    ensures r.Valid? ==> r.draft.info.endTime > r.draft.info.startTime
    ensures r.Valid? ==> r.draft.info.startTime == req.startTime.value && r.draft.info.endTime == req.endTime.value
    ensures r.Valid? ==> r.draft.info.radius == OrDefault(req.radius, DefaultRadius)
                         && r.draft.info.eventType == OrDefault(req.eventType, DefaultEventType)
                         && r.draft.info.locationValidation == OrDefault(req.locationValidation, false)
                         && r.draft.info.requireCheckout == OrDefault(req.requireCheckout, false)
                         && r.draft.info.visibility == OrDefault(req.visibility, PublicVisibility)
                         && r.draft.templateIds == PatchOr(req.templateIds, Some([]))
    ensures r.Invalid? ==> r.fields == EventErrors(req) && |r.fields| > 0
  {
    var errs := EventErrors(req);
    if |errs| > 0 then Invalid(errs)
    else
      assert "start_time" !in errs && "end_time" !in errs;
      Valid(EventDraft(
        EventInfo(
          req.name, req.description, req.startTime.value, req.endTime.value, req.location,
          req.latitude, req.longitude, OrDefault(req.radius, DefaultRadius), req.maxParticipants,
          OrDefault(req.eventType, DefaultEventType), OrDefault(req.locationValidation, false),
          OrDefault(req.requireCheckout, false), req.checkoutMode, req.checkoutDuration,
          OrDefault(req.visibility, PublicVisibility), req.seriesId, req.legacy),
        PatchOr(req.templateIds, Some([]))))
  }

  /** A request carrying only a name and a valid window gets every documented default. */
  lemma BareRequestDefaults(name: string, start: int, end: int)
    requires |name| >= 1 && end > start
    ensures var r := ValidateEvent(EventRequest(name, None, Some(start), Some(end), None, None, None,
                                                None, None, None, None, None, None, None, None, None,
                                                LegacyTemplates(None, None, None, None), Unset));
            && r.Valid?
            && r.draft.info.radius == 100
            && r.draft.info.eventType == "會議"
            && !r.draft.info.locationValidation && !r.draft.info.requireCheckout
            && r.draft.info.visibility == "public"
            && r.draft.info.checkoutMode.None? && r.draft.info.checkoutDuration.None?
            && r.draft.templateIds == Some([])
  {
  }

  /** An end equal to the start is refused, even with every other field valid. */
  lemma EqualTimesRefused(req: EventRequest)
    requires req.startTime.Some? && req.endTime == req.startTime
    ensures ValidateEvent(req).Invalid? && "end_time" in ValidateEvent(req).fields
  {
  }

  // ---------------------------------------------------------------------------
  // Updates.

  /** An update request: every field may be left out (`Unset`); nullable columns may be
      set to null. */
  datatype EventUpdate = EventUpdate(
    name: Patch<string>,
    description: Patch<Option<string>>,
    startTime: Patch<int>,
    endTime: Patch<int>,
    location: Patch<Option<string>>,
    latitude: Patch<Option<real>>,
    longitude: Patch<Option<real>>,
    radius: Patch<int>,
    maxParticipants: Patch<Option<int>>,
    eventType: Patch<string>,
    locationValidation: Patch<bool>,
    requireCheckout: Patch<bool>,
    checkoutMode: Patch<Option<string>>,
    checkoutDuration: Patch<Option<int>>,
    visibility: Patch<string>,
    seriesId: Patch<Option<string>>,
    registration: Patch<Option<string>>,
    surveyStart: Patch<Option<string>>,
    surveyEnd: Patch<Option<string>>,
    profileExtension: Patch<Option<string>>,
    templateIds: Patch<Option<seq<string>>>)

  const EmptyUpdate: EventUpdate :=
    EventUpdate(Unset, Unset, Unset, Unset, Unset, Unset, Unset, Unset, Unset, Unset, Unset, Unset,
                Unset, Unset, Unset, Unset, Unset, Unset, Unset, Unset, Unset)

  /** The update schema checks each field alone: a given name must be non-empty and a
      given participant limit at least 1; nothing relates the two times. */
  function UpdateErrors(u: EventUpdate): (errs: seq<string>)
    ensures "name" in errs <==> u.name.Set? && |u.name.value| < 1
    ensures "max_participants" in errs <==> u.maxParticipants.Set? && u.maxParticipants.value.Some?
                                            && u.maxParticipants.value.value < 1
    ensures forall e | e in errs :: e in {"name", "max_participants"}
  {
    (if u.name.Set? && |u.name.value| < 1 then ["name"] else [])
    + (if u.maxParticipants.Set? && u.maxParticipants.value.Some? && u.maxParticipants.value.value < 1
       then ["max_participants"] else [])
  }

  /** An update that moves the end before the start passes the update schema. */
  lemma UpdateMayInvertWindow(start: int, end: int)
    requires end <= start
    ensures UpdateErrors(EmptyUpdate.(startTime := Set(start), endTime := Set(end))) == []
  {
  }

  // ---------------------------------------------------------------------------
  // Recurring series.

  /** A series request: the shared event fields, the date range (day numbers of the two
      date-times' calendar dates), the weekdays (Monday is 0) and the local "HH:mm" times. */
  datatype SeriesRequest = SeriesRequest(
    eventBase: EventRequest,
    startDate: int,
    endDate: int,
    daysOfWeek: seq<int>,
    startTimeLocal: string,
    endTimeLocal: string)

  /** A series request is valid exactly when its shared event fields are: the weekdays are
      not range-checked and the date range may be empty or reversed. */
  function ValidateSeries(req: SeriesRequest): (r: Validated)
    ensures r.Valid? <==> ValidateEvent(req.eventBase).Valid?
    ensures r.Invalid? ==> r.fields == EventErrors(req.eventBase)
  {
    ValidateEvent(req.eventBase)
  }
}

=== FILE: event_status.dfy ===
/** Event status as the browser computes it (fontend/src/utils/eventUtils.ts): upcoming
    before the start, ended after the end, active in between, both ends included. */
module EventStatus {
  import opened Domain

  datatype Status = Upcoming | Active | Ended

  /** The status of an event running from `start` to `end`, seen at `now`. */
  function StatusAt(start: int, end: int, now: int): (s: Status)
    ensures s == Upcoming <==> now < start
    ensures s == Ended <==> start <= now && now > end
    ensures s == Active <==> start <= now <= end
  {
    if now < start then Upcoming
    else if now > end then Ended
    else Active
  }

  function GetEventStatus(e: Event, now: int): Status {
    StatusAt(e.info.startTime, e.info.endTime, now)
  }

  predicate IsEventActive(e: Event, now: int) {
    GetEventStatus(e, now) == Active
  }

  /** An event whose start lies after its end is never active. */
  lemma InvertedEventNeverActive(e: Event, now: int)
    requires e.info.startTime > e.info.endTime
    ensures !IsEventActive(e, now)
  {
  }
}

=== FILE: events.dfy ===
/** The event endpoints (backend/app/routers/events.py): the owner-filtered and public
    lists, lookup, partial update, the recurring-series generator, the statistics and the
    check-in list and export rows. The store is a sequence of events in the order of the
    query's ORDER BY; paging is offset/limit on that order. */
module Events {
  import opened Common
  import opened Domain
  import opened EventSchema
  import Clock
  import Dependencies

  const NotFoundMessage: string := "活動不存在"
  const TimeFormatMessage: string := "時間格式不正確，應為 HH:mm"
  const SeriesFailurePrefix: string := "創建系列活動失敗: "
  const NoMatchingDateMessage: string := "在指定的範圍內沒有符合條件的日期"
  const HourRangeMessage: string := "hour must be in 0..23"
  const MinuteRangeMessage: string := "minute must be in 0..59"

  /** Asia/Taipei is eight hours ahead of UTC (no daylight saving since 1979). */
  const TaipeiOffsetMs: int := 8 * HourMs

  // ---------------------------------------------------------------------------
  // Lists.

  /** SQL OFFSET/LIMIT on an ordered result. */
  function Page<T>(s: seq<T>, skip: nat, limit: nat): (r: seq<T>)
    ensures |r| <= limit && |r| <= |s|
    ensures skip >= |s| ==> r == []
    ensures skip < |s| ==> |r| == if skip + limit <= |s| then limit else |s| - skip
    ensures forall i | 0 <= i < |r| :: skip + i < |s| && r[i] == s[skip + i]
  {
    if skip >= |s| then [] else s[skip..if skip + limit <= |s| then skip + limit else |s|]
  }

  /** Ordinary admins see only the events they created; the system admin sees all. */
  predicate VisibleTo(admin: Admin, e: Event) {
    IsSystemAdmin(admin) || e.createdBy == admin.id
  }

  predicate IsPublic(e: Event) {
    e.info.visibility == PublicVisibility
  }

  /** A listed event with its number of check-in records. */
  datatype Listed = Listed(event: Event, checkins: nat)

  function CheckinCount(records: seq<Checkin>, eventId: string): nat {
    |Filter(records, (c: Checkin) => c.eventId == eventId)|
  }

  function WithCounts(events: seq<Event>, records: seq<Checkin>): (r: seq<Listed>)
    ensures |r| == |events|
    ensures forall i | 0 <= i < |r| :: r[i].event == events[i] && r[i].checkins == CheckinCount(records, events[i].id)
  {
    if |events| == 0 then []
    else [Listed(events[0], CheckinCount(records, events[0].id))] + WithCounts(events[1..], records)
  }

  /** The query parameters are plain integers; the database refuses a negative OFFSET or
      LIMIT, and nothing catches that error, so the answer is a 500. */
  predicate BadPaging(skip: int, limit: int) {
    skip < 0 || limit < 0
  }

  const PagingError: HttpError := HttpError(500, Dependencies.InternalServerError)

  /** The admin's event list: only visible events, at most `limit` of them, each with its
      check-in count, in the store's order; a negative `skip` or `limit` is a 500. */
  function ListEvents(events: seq<Event>, records: seq<Checkin>, admin: Admin, skip: int, limit: int): (r: Result<seq<Listed>>)
    ensures r.Err? <==> BadPaging(skip, limit)
    ensures r.Err? ==> r.error == PagingError
    ensures r.Ok? ==> |r.value| <= limit
    ensures r.Ok? ==> forall i | 0 <= i < |r.value| :: r.value[i].event in events && VisibleTo(admin, r.value[i].event)
                                                     && r.value[i].checkins == CheckinCount(records, r.value[i].event.id)
  {
    if BadPaging(skip, limit) then Err(PagingError)
    else
      var visible := Filter(events, (e: Event) => VisibleTo(admin, e));
      var page := Page(visible, skip, limit);
      forall i | 0 <= i < |page| ensures page[i] in events {
        FilterMembership(events, (e: Event) => VisibleTo(admin, e), page[i]);
      }
      Ok(WithCounts(page, records))
  }

  /** The public list: only events whose visibility is "public"; a negative `skip` or
      `limit` is a 500. */
  function PublicEvents(events: seq<Event>, skip: int, limit: int): (r: Result<seq<Event>>)
    ensures r.Err? <==> BadPaging(skip, limit)
    ensures r.Err? ==> r.error == PagingError
    ensures r.Ok? ==> |r.value| <= limit
    ensures r.Ok? ==> forall i | 0 <= i < |r.value| :: r.value[i] in events && IsPublic(r.value[i])
  {
    if BadPaging(skip, limit) then Err(PagingError)
    else
      var shown := Filter(events, IsPublic);
      var page := Page(shown, skip, limit);
      forall i | 0 <= i < |page| ensures page[i] in events {
        FilterMembership(events, IsPublic, page[i]);
      }
      Ok(page)
  }

  /** On a first page large enough for everything, an event is listed exactly when the
      admin may see it. */
  lemma ListedExactlyWhenVisible(events: seq<Event>, records: seq<Checkin>, admin: Admin, limit: nat, e: Event)
    requires limit >= |events|
    ensures ListEvents(events, records, admin, 0, limit).Ok?
    ensures (exists i | 0 <= i < |ListEvents(events, records, admin, 0, limit).value| ::
               ListEvents(events, records, admin, 0, limit).value[i].event == e)
            <==> e in events && VisibleTo(admin, e)
  {
    var visible := Filter(events, (e: Event) => VisibleTo(admin, e));
    FilterMembership(events, (e: Event) => VisibleTo(admin, e), e);
    var r := ListEvents(events, records, admin, 0, limit).value;
    assert Page(visible, 0, limit) == visible;
    if e in events && VisibleTo(admin, e) {
      var k :| 0 <= k < |visible| && visible[k] == e;
      assert r[k].event == e;
    }
  }

  predicate StartsDescending(events: seq<Event>) {
    forall i, j | 0 <= i < j < |events| :: events[i].info.startTime >= events[j].info.startTime
  }

  /** Filtering and paging keep the store's newest-first order. */
  lemma PublicListNewestFirst(events: seq<Event>, skip: int, limit: int)
    requires StartsDescending(events)
    ensures PublicEvents(events, skip, limit).Ok? ==> StartsDescending(PublicEvents(events, skip, limit).value)
  {
    FilterKeepsOrder(events, IsPublic, (a: Event, b: Event) => a.info.startTime >= b.info.startTime);
  }

  /** Looking an event up by id. */
  function FindEvent(events: seq<Event>, id: string): (r: Option<Event>)
    ensures r.Some? ==> r.value in events && r.value.id == id
    ensures r.None? <==> forall e | e in events :: e.id != id
  {
    if |events| == 0 then None
    else if events[0].id == id then Some(events[0])
    else FindEvent(events[1..], id)
  }

  function GetEvent(events: seq<Event>, id: string): (r: Result<Event>)
    ensures r.Err? <==> forall e | e in events :: e.id != id
    ensures r.Err? ==> r.error == HttpError(404, NotFoundMessage)
    ensures r.Ok? ==> r.value in events && r.value.id == id
  {
    match FindEvent(events, id)
    case None => Err(HttpError(404, NotFoundMessage))
    case Some(e) => Ok(e)
  }

  // ---------------------------------------------------------------------------
  // Partial update.

  /** The stored templates whose ids are listed (`WHERE id IN ids`). */
  function TemplatesWithIds(stored: seq<Template>, ids: seq<string>): (r: seq<Template>)
    ensures forall t | t in r :: t in stored && t.id in ids
  {
    var r := Filter(stored, (t: Template) => t.id in ids);
    forall t | t in r ensures t in stored {
      FilterMembership(stored, (t: Template) => t.id in ids, t);
    }
    r
  }

  /** The supplied fields replace the stored ones; the others are kept. */
  function ApplyInfo(info: EventInfo, u: EventUpdate): (r: EventInfo)
  {
    EventInfo(
      PatchOr(u.name, info.name), PatchOr(u.description, info.description),
      PatchOr(u.startTime, info.startTime), PatchOr(u.endTime, info.endTime),
      PatchOr(u.location, info.location), PatchOr(u.latitude, info.latitude),
      PatchOr(u.longitude, info.longitude), PatchOr(u.radius, info.radius),
      PatchOr(u.maxParticipants, info.maxParticipants), PatchOr(u.eventType, info.eventType),
      PatchOr(u.locationValidation, info.locationValidation),
      PatchOr(u.requireCheckout, info.requireCheckout), PatchOr(u.checkoutMode, info.checkoutMode),
      PatchOr(u.checkoutDuration, info.checkoutDuration), PatchOr(u.visibility, info.visibility),
      PatchOr(u.seriesId, info.seriesId),
      LegacyTemplates(
        PatchOr(u.registration, info.legacy.registration), PatchOr(u.surveyStart, info.legacy.surveyStart),
        PatchOr(u.surveyEnd, info.legacy.surveyEnd), PatchOr(u.profileExtension, info.legacy.profileExtension)))
  }

  /** The update endpoint: a schema failure is a 422, a missing event a 404; otherwise the
      supplied columns change and the template list is replaced only by a non-null id list. */
  function UpdateEvent(events: seq<Event>, id: string, u: EventUpdate, stored: seq<Template>): (r: Result<Event>)
    ensures |UpdateErrors(u)| > 0 ==> r.Err? && r.error.status == ValidationStatus
    ensures |UpdateErrors(u)| == 0 && FindEvent(events, id).None? ==> r == Err(HttpError(404, NotFoundMessage))
    ensures r.Ok? <==> |UpdateErrors(u)| == 0 && FindEvent(events, id).Some?
    ensures r.Ok? ==> var e := FindEvent(events, id).value;
                      && r.value.id == e.id && r.value.createdBy == e.createdBy && r.value.qrcodeUrl == e.qrcodeUrl
                      && r.value.info == ApplyInfo(e.info, u)
                      && (u.templateIds.Set? && u.templateIds.value.Some? ==>
                            r.value.templates == TemplatesWithIds(stored, u.templateIds.value.value))
                      && (!(u.templateIds.Set? && u.templateIds.value.Some?) ==> r.value.templates == e.templates)
  {
    var errs := UpdateErrors(u);
    if |errs| > 0 then Err(HttpError(ValidationStatus, Join(errs, ',')))
    else match FindEvent(events, id)
      case None => Err(HttpError(404, NotFoundMessage))
      case Some(e) =>
        var templates :=
          if u.templateIds.Set? && u.templateIds.value.Some? then TemplatesWithIds(stored, u.templateIds.value.value)
          else e.templates;
        Ok(Event(e.id, ApplyInfo(e.info, u), templates, e.qrcodeUrl, e.createdBy))
  }

  /** An empty update changes nothing. */
  lemma EmptyUpdateKeepsEvent(events: seq<Event>, id: string, stored: seq<Template>)
    requires FindEvent(events, id).Some?
    ensures UpdateEvent(events, id, EmptyUpdate, stored) == Ok(FindEvent(events, id).value)
  {
  }

  /** Only the supplied fields change: a field left out of the update keeps its value. */
  lemma UnsetFieldsKept(info: EventInfo, u: EventUpdate)
    ensures u.name.Unset? ==> ApplyInfo(info, u).name == info.name
    ensures u.startTime.Unset? && u.endTime.Unset? ==>
              ApplyInfo(info, u).startTime == info.startTime && ApplyInfo(info, u).endTime == info.endTime
    ensures u.checkoutMode.Unset? && u.checkoutDuration.Unset? ==>
              ApplyInfo(info, u).checkoutMode == info.checkoutMode
              && ApplyInfo(info, u).checkoutDuration == info.checkoutDuration
    ensures u.visibility.Unset? && u.seriesId.Unset? ==>
              ApplyInfo(info, u).visibility == info.visibility && ApplyInfo(info, u).seriesId == info.seriesId
    ensures u.requireCheckout.Unset? && u.locationValidation.Unset? ==>
              ApplyInfo(info, u).requireCheckout == info.requireCheckout
              && ApplyInfo(info, u).locationValidation == info.locationValidation
  {
  }

  /** Applying the same update twice is the same as applying it once. */
  lemma UpdateIdempotent(info: EventInfo, u: EventUpdate)
    ensures ApplyInfo(ApplyInfo(info, u), u) == ApplyInfo(info, u)
  {
  }

  /** Nothing relates the two times on update: an update can store an event whose end is
      not after its start. */
  lemma UpdateCanInvertWindow(events: seq<Event>, id: string, stored: seq<Template>, start: int, end: int)
    requires FindEvent(events, id).Some? && end <= start
    ensures var r := UpdateEvent(events, id, EmptyUpdate.(startTime := Set(start), endTime := Set(end)), stored);
            r.Ok? && r.value.info.endTime <= r.value.info.startTime
  {
    UpdateMayInvertWindow(start, end);
  }

  // ---------------------------------------------------------------------------
  // Recurring series.

  /** Python `h, m = map(int, s.split(':'))`: exactly two pieces, each an integer. */
  function ParseClock(s: string): (r: Option<(int, int)>)
    ensures r.Some? <==> |Split(s, ':')| == 2 && ParseIntPy(Split(s, ':')[0]).Some?
                         && ParseIntPy(Split(s, ':')[1]).Some?
    ensures r.Some? ==> Some(r.value.0) == ParseIntPy(Split(s, ':')[0])
                        && Some(r.value.1) == ParseIntPy(Split(s, ':')[1])
  {
    var parts := Split(s, ':');
    if |parts| != 2 then None
    else match (ParseIntPy(parts[0]), ParseIntPy(parts[1]))
      case (Some(h), Some(m)) => Some((h, m))
      case _ => None
  }

  /** Any two integers written as "h:m" parse back to themselves. */
  lemma ParseClockRoundTrip(h: int, m: int)
    ensures ParseClock(IntToString(h) + ":" + IntToString(m)) == Some((h, m))
  {
    IntToStringChars(h);
    IntToStringChars(m);
    var a := IntToString(h);
    var b := IntToString(m);
    assert ':' !in a && ':' !in b;
    SplitTwo(a, b, ':');
    assert a + ":" + b == a + [':'] + b;
    ParseIntPyRoundTrip(h);
    ParseIntPyRoundTrip(m);
  }

  /** Python's `time.replace(hour=h, minute=m)` check: the hour first, then the minute. */
  function ClockError(h: int, m: int): (r: Option<string>)
    ensures r.None? <==> 0 <= h < 24 && 0 <= m < 60
    ensures !(0 <= h < 24) ==> r == Some(HourRangeMessage)
    ensures 0 <= h < 24 && !(0 <= m < 60) ==> r == Some(MinuteRangeMessage)
  {
    if !(0 <= h < 24) then Some(HourRangeMessage)
    else if !(0 <= m < 60) then Some(MinuteRangeMessage)
    else None
  }

  /** The calendar days from `first` to `last` (inclusive) whose weekday is listed, in
      ascending order. */
  function QualifyingDays(first: int, last: int, weekdays: seq<int>): seq<int>
    decreases last - first
  {
    if last < first then []
    else QualifyingDays(first, last - 1, weekdays) + (if Clock.Weekday(last) in weekdays then [last] else [])
  }

  /** A day qualifies exactly when it lies in the range and its weekday is listed. */
  lemma {:induction false} QualifyingDaysMembership(first: int, last: int, weekdays: seq<int>, d: int)
    ensures d in QualifyingDays(first, last, weekdays) <==> first <= d <= last && Clock.Weekday(d) in weekdays
    decreases last - first
  {
    if last >= first {
      QualifyingDaysMembership(first, last - 1, weekdays, d);
    }
  }

  lemma {:induction false} QualifyingDaysAscending(first: int, last: int, weekdays: seq<int>)
    ensures forall i, j | 0 <= i < j < |QualifyingDays(first, last, weekdays)| ::
              QualifyingDays(first, last, weekdays)[i] < QualifyingDays(first, last, weekdays)[j]
    ensures forall d | d in QualifyingDays(first, last, weekdays) :: d <= last
    decreases last - first
  {
    if last >= first {
      QualifyingDaysAscending(first, last - 1, weekdays);
      var prev := QualifyingDays(first, last - 1, weekdays);
      var ds := QualifyingDays(first, last, weekdays);
      forall i | 0 <= i < |prev|
        ensures prev[i] < last
      {
        assert prev[i] in prev;
      }
      if Clock.Weekday(last) in weekdays {
        assert ds == prev + [last];
        forall i, j | 0 <= i < j < |ds|
          ensures ds[i] < ds[j]
        {
          assert ds[i] == prev[i];
          if j < |prev| {
            assert ds[j] == prev[j];
          }
        }
      } else {
        assert ds == prev;
      }
    }
  }

  /** Listed weekdays outside 0..6 are never matched: dropping them changes nothing. */
  lemma {:induction false} OutOfRangeWeekdaysIgnored(first: int, last: int, weekdays: seq<int>)
    ensures QualifyingDays(first, last, weekdays)
            == QualifyingDays(first, last, Filter(weekdays, (w: int) => 0 <= w < 7))
    decreases last - first
  {
    if last >= first {
      OutOfRangeWeekdaysIgnored(first, last - 1, weekdays);
      var w := Clock.Weekday(last);
      FilterMembership(weekdays, (w: int) => 0 <= w < 7, w);
      assert w in weekdays <==> w in Filter(weekdays, (w: int) => 0 <= w < 7);
    }
  }

  /** A local wall-clock time of a day as a UTC instant. */
  function LocalInstant(day: int, h: int, m: int): int {
    day * DayMs + h * HourMs + m * MinuteMs - TaipeiOffsetMs
  }

  /** The start and end instants of the event on a day; an end not after the start is
      moved to the next day. */
  function Window(day: int, sh: int, sm: int, eh: int, em: int): (w: (int, int))
    ensures w.0 == LocalInstant(day, sh, sm)
    ensures ClockError(sh, sm).None? && ClockError(eh, em).None? ==> w.1 > w.0
    ensures w.1 == LocalInstant(day, eh, em) || w.1 == LocalInstant(day + 1, eh, em)
    ensures w.1 == LocalInstant(day + 1, eh, em) <==> LocalInstant(day, eh, em) <= LocalInstant(day, sh, sm)
    ensures ClockError(sh, sm).None? && ClockError(eh, em).None? ==> w.1 - w.0 <= DayMs
  {
    var start := LocalInstant(day, sh, sm);
    var end := LocalInstant(day, eh, em);
    assert LocalInstant(day + 1, eh, em) == end + DayMs;
    if end <= start then (start, end + DayMs) else (start, end)
  }

  /** A generated series member: its columns, templates and creator. */
  datatype NewEvent = NewEvent(info: EventInfo, templates: seq<Template>, createdBy: int)

  /** The template list shared by the series: fetched only for a non-empty id list. */
  function SeriesTemplates(stored: seq<Template>, ids: Option<seq<string>>): (r: seq<Template>)
    ensures ids.None? || ids.value == [] ==> r == []
    ensures ids.Some? && ids.value != [] ==> r == TemplatesWithIds(stored, ids.value)
  {
    if ids.Some? && ids.value != [] then TemplatesWithIds(stored, ids.value) else []
  }

  function SeriesMember(base: EventInfo, day: int, sh: int, sm: int, eh: int, em: int, seriesId: string,
                        templates: seq<Template>, admin: Admin): NewEvent {
    var w := Window(day, sh, sm, eh, em);
    NewEvent(base.(startTime := w.0, endTime := w.1, seriesId := Some(seriesId)), templates, admin.id)
  }

  /** The series for a list of days, one member per day in order. */
  function SeriesFor(base: EventInfo, days: seq<int>, sh: int, sm: int, eh: int, em: int, seriesId: string,
                     templates: seq<Template>, admin: Admin): (r: seq<NewEvent>)
    ensures |r| == |days|
    ensures forall i | 0 <= i < |r| :: r[i] == SeriesMember(base, days[i], sh, sm, eh, em, seriesId, templates, admin)
  {
    if |days| == 0 then []
    else SeriesFor(base, days[..|days| - 1], sh, sm, eh, em, seriesId, templates, admin)
         + [SeriesMember(base, days[|days| - 1], sh, sm, eh, em, seriesId, templates, admin)]
  }

  /** One more day adds its member at the end. */
  lemma SeriesForAppend(base: EventInfo, days: seq<int>, d: int, sh: int, sm: int, eh: int, em: int,
                        seriesId: string, templates: seq<Template>, admin: Admin)
    ensures SeriesFor(base, days + [d], sh, sm, eh, em, seriesId, templates, admin)
            == SeriesFor(base, days, sh, sm, eh, em, seriesId, templates, admin)
               + [SeriesMember(base, d, sh, sm, eh, em, seriesId, templates, admin)]
  {
    assert (days + [d])[..|days|] == days;
  }

  /** What the generator produces once both times parsed: the empty-range error, the
      clock-range error noticed on the first qualifying day, or one member per qualifying
      day. Each error passes through the handler that turns every exception into a 500. */
  function MembersOutcome(base: EventInfo, first: int, last: int, weekdays: seq<int>, sh: int, sm: int,
                          eh: int, em: int, seriesId: string, templates: seq<Template>, admin: Admin)
    : (r: Result<seq<NewEvent>>)
    ensures QualifyingDays(first, last, weekdays) == [] ==>
              r == Err(HttpError(500, SeriesFailurePrefix + "400: " + NoMatchingDateMessage))
    ensures r.Ok? <==> QualifyingDays(first, last, weekdays) != [] && ClockError(sh, sm).None? && ClockError(eh, em).None?
    ensures r.Err? ==> r.error.status == 500 && StartsWith(r.error.detail, SeriesFailurePrefix)
  {
    var days := QualifyingDays(first, last, weekdays);
    if days == [] then Err(HttpError(500, SeriesFailurePrefix + "400: " + NoMatchingDateMessage))
    else if ClockError(sh, sm).Some? then Err(HttpError(500, SeriesFailurePrefix + ClockError(sh, sm).value))
    else if ClockError(eh, em).Some? then Err(HttpError(500, SeriesFailurePrefix + ClockError(eh, em).value))
    else Ok(SeriesFor(base, days, sh, sm, eh, em, seriesId, templates, admin))
  }

  /** The series endpoint's outcome, after schema validation of the request: a time that
      is not two integers is a 400 raised before the generator runs. */
  function SeriesOutcome(req: SeriesRequest, draft: EventDraft, stored: seq<Template>, admin: Admin,
                         seriesId: string): (r: Result<seq<NewEvent>>)
    ensures ParseClock(req.startTimeLocal).None? || ParseClock(req.endTimeLocal).None? ==>
              r == Err(HttpError(400, TimeFormatMessage))
    ensures r.Err? && r.error.status != 400 ==> StartsWith(r.error.detail, SeriesFailurePrefix)
  {
    var sp := ParseClock(req.startTimeLocal);
    var ep := ParseClock(req.endTimeLocal);
    if sp.None? || ep.None? then Err(HttpError(400, TimeFormatMessage))
    else MembersOutcome(draft.info, req.startDate, req.endDate, req.daysOfWeek, sp.value.0, sp.value.1,
                        ep.value.0, ep.value.1, seriesId, SeriesTemplates(stored, draft.templateIds), admin)
  }

  /** The generator loop: walks the days of the range one at a time, creating a member on
      each day whose weekday is listed and stopping at the first clock-range error. */
  method GenerateMembers(base: EventInfo, first: int, last: int, weekdays: seq<int>, sh: int, sm: int,
                         eh: int, em: int, seriesId: string, templates: seq<Template>, admin: Admin)
    returns (r: Result<seq<NewEvent>>)
    ensures r == MembersOutcome(base, first, last, weekdays, sh, sm, eh, em, seriesId, templates, admin)
  {
    var events: seq<NewEvent> := [];
    ghost var days: seq<int> := [];
    var day := first;
    while day <= last
      invariant first <= day && (day <= last + 1 || day == first)
      invariant days == QualifyingDays(first, day - 1, weekdays)
      invariant events == SeriesFor(base, days, sh, sm, eh, em, seriesId, templates, admin)
      invariant events != [] ==> ClockError(sh, sm).None? && ClockError(eh, em).None?
      decreases last - day
    {
      if Clock.Weekday(day) in weekdays {
        if ClockError(sh, sm).Some? || ClockError(eh, em).Some? {
          var e := if ClockError(sh, sm).Some? then ClockError(sh, sm).value else ClockError(eh, em).value;
          ClockFailureOutcome(base, first, last, weekdays, sh, sm, eh, em, seriesId, templates, admin, day);
          return Err(HttpError(500, SeriesFailurePrefix + e));
        }
        SeriesForAppend(base, days, day, sh, sm, eh, em, seriesId, templates, admin);
        events := events + [SeriesMember(base, day, sh, sm, eh, em, seriesId, templates, admin)];
      }
      days := days + (if Clock.Weekday(day) in weekdays then [day] else []);
      day := day + 1;
    }
    assert days == QualifyingDays(first, last, weekdays);
    if events == [] {
      return Err(HttpError(500, SeriesFailurePrefix + "400: " + NoMatchingDateMessage));
    }
    return Ok(events);
  }

  /** A clock-range error met on a qualifying day is the outcome of the whole series. */
  lemma ClockFailureOutcome(base: EventInfo, first: int, last: int, weekdays: seq<int>, sh: int, sm: int,
                            eh: int, em: int, seriesId: string, templates: seq<Template>, admin: Admin,
                            day: int)
    requires first <= day <= last && Clock.Weekday(day) in weekdays
    requires ClockError(sh, sm).Some? || ClockError(eh, em).Some?
    ensures MembersOutcome(base, first, last, weekdays, sh, sm, eh, em, seriesId, templates, admin)
            == Err(HttpError(500, SeriesFailurePrefix
                                  + (if ClockError(sh, sm).Some? then ClockError(sh, sm).value
                                     else ClockError(eh, em).value)))
  {
    QualifyingDaysMembership(first, last, weekdays, day);
  }

  /** The series endpoint: parse both times, fetch the templates, run the generator. */
  method CreateSeries(req: SeriesRequest, draft: EventDraft, stored: seq<Template>, admin: Admin, seriesId: string)
    returns (r: Result<seq<NewEvent>>)
    requires ValidateEvent(req.eventBase) == Valid(draft)
    ensures r == SeriesOutcome(req, draft, stored, admin, seriesId)
  {
    var sp := ParseClock(req.startTimeLocal);
    var ep := ParseClock(req.endTimeLocal);
    if sp.None? || ep.None? {
      return Err(HttpError(400, TimeFormatMessage));
    }
    var templates := SeriesTemplates(stored, draft.templateIds);
    r := GenerateMembers(draft.info, req.startDate, req.endDate, req.daysOfWeek, sp.value.0, sp.value.1,
                         ep.value.0, ep.value.1, seriesId, templates, admin);
  }

  /** The series holds one member per qualifying day: its start is that day's local start
      time, its end is after its start and at most a day later, and every member shares the
      series id, the templates, the creator and the base's other columns. */
  lemma SeriesMembers(base: EventInfo, first: int, last: int, weekdays: seq<int>, sh: int, sm: int, eh: int, em: int,
                      seriesId: string, templates: seq<Template>, admin: Admin, d: int)
    requires ClockError(sh, sm).None? && ClockError(eh, em).None?
    ensures var r := SeriesFor(base, QualifyingDays(first, last, weekdays), sh, sm, eh, em, seriesId, templates, admin);
            && ((exists i | 0 <= i < |r| :: r[i].info.startTime == LocalInstant(d, sh, sm))
                <==> first <= d <= last && Clock.Weekday(d) in weekdays)
            && (forall i | 0 <= i < |r| ::
                  && r[i].info.startTime < r[i].info.endTime <= r[i].info.startTime + DayMs
                  && r[i].info.seriesId == Some(seriesId)
                  && r[i].templates == templates && r[i].createdBy == admin.id
                  && r[i].info.name == base.name && r[i].info.requireCheckout == base.requireCheckout
                  && r[i].info.checkoutMode == base.checkoutMode && r[i].info.visibility == base.visibility)
  {
    var days := QualifyingDays(first, last, weekdays);
    var r := SeriesFor(base, days, sh, sm, eh, em, seriesId, templates, admin);
    QualifyingDaysMembership(first, last, weekdays, d);
    if first <= d <= last && Clock.Weekday(d) in weekdays {
      var k :| 0 <= k < |days| && days[k] == d;
      assert r[k].info.startTime == LocalInstant(d, sh, sm);
    }
    if exists i | 0 <= i < |r| :: r[i].info.startTime == LocalInstant(d, sh, sm) {
      var i :| 0 <= i < |r| && r[i].info.startTime == LocalInstant(d, sh, sm);
      assert LocalInstant(days[i], sh, sm) == LocalInstant(d, sh, sm);
      assert days[i] == d;
    }
  }

  /** Members come out in ascending start order, so the reload ordered by start time
      returns them in the order they were generated. */
  lemma SeriesAscending(base: EventInfo, first: int, last: int, weekdays: seq<int>, sh: int, sm: int, eh: int, em: int,
                        seriesId: string, templates: seq<Template>, admin: Admin)
    ensures var r := SeriesFor(base, QualifyingDays(first, last, weekdays), sh, sm, eh, em, seriesId, templates, admin);
            forall i, j | 0 <= i < j < |r| :: r[i].info.startTime < r[j].info.startTime
  {
    QualifyingDaysAscending(first, last, weekdays);
  }

  // ---------------------------------------------------------------------------
  // Statistics.

  datatype Stats = Stats(total: nat, checkedIn: int, checkedOut: nat)

  function OpenCount(records: seq<Checkin>, eventId: string): nat {
    |Filter(records, (c: Checkin) => c.eventId == eventId && c.checkoutTime.None?)|
  }

  function ClosedCount(records: seq<Checkin>, eventId: string): nat {
    |Filter(records, (c: Checkin) => c.eventId == eventId && c.checkoutTime.Some?)|
  }

  /** The statistics endpoint: 404 for a missing event; otherwise the record count, the
      checked-out count, and their difference, which is the number of open records. */
  function EventStats(events: seq<Event>, records: seq<Checkin>, eventId: string): (r: Result<Stats>)
    ensures r.Err? <==> FindEvent(events, eventId).None?
    ensures r.Err? ==> r.error == HttpError(404, NotFoundMessage)
    ensures r.Ok? ==> r.value.total == CheckinCount(records, eventId)
                      && r.value.checkedOut == ClosedCount(records, eventId)
                      && r.value.checkedIn == OpenCount(records, eventId)
                      && r.value.checkedIn >= 0
                      && r.value.checkedIn + r.value.checkedOut == r.value.total
  {
    if FindEvent(events, eventId).None? then Err(HttpError(404, NotFoundMessage))
    else
      var total := CheckinCount(records, eventId);
      var checkedOut := ClosedCount(records, eventId);
      FilterCountSplit(records, (c: Checkin) => c.eventId == eventId,
                       (c: Checkin) => c.eventId == eventId && c.checkoutTime.Some?,
                       (c: Checkin) => c.eventId == eventId && c.checkoutTime.None?,
                       (c: Checkin) => c.checkoutTime.Some?);
      Ok(Stats(total, total - checkedOut, checkedOut))
  }

  // ---------------------------------------------------------------------------
  // Check-in list and export rows.

  datatype CheckinRow = CheckinRow(record: Checkin, user: UserInfo)

  /** The rows for an event: its records whose user still exists, in the store's order,
      each with that user's details. */
  function CheckinRows(records: seq<Checkin>, users: map<int, User>, eventId: string): (r: seq<CheckinRow>)
    ensures |r| <= CheckinCount(records, eventId)
    ensures forall i | 0 <= i < |r| :: r[i].record in records && r[i].record.eventId == eventId
                                      && r[i].record.userId in users
                                      && r[i].user == InfoOf(users[r[i].record.userId])
  {
    if |records| == 0 then []
    else
      var rest := CheckinRows(records[1..], users, eventId);
      var c := records[0];
      assert records == [c] + records[1..];
      if c.eventId == eventId && c.userId in users then [CheckinRow(c, InfoOf(users[c.userId]))] + rest
      else rest
  }

  /** Every record of the event whose user exists has a row. */
  lemma EveryRecordListed(records: seq<Checkin>, users: map<int, User>, eventId: string, c: Checkin)
    requires c in records && c.eventId == eventId && c.userId in users
    ensures exists i | 0 <= i < |CheckinRows(records, users, eventId)| :: CheckinRows(records, users, eventId)[i].record == c
  {
    var i := RowOf(records, users, eventId, c);
  }

  /** The position of a record's row. */
  lemma {:induction false} RowOf(records: seq<Checkin>, users: map<int, User>, eventId: string, c: Checkin)
    returns (i: nat)
    requires c in records && c.eventId == eventId && c.userId in users
    ensures i < |CheckinRows(records, users, eventId)| && CheckinRows(records, users, eventId)[i].record == c
  {
    var r := CheckinRows(records, users, eventId);
    var rest := CheckinRows(records[1..], users, eventId);
    var head := records[0];
    var kept := head.eventId == eventId && head.userId in users;
    assert kept ==> r == [CheckinRow(head, InfoOf(users[head.userId]))] + rest;
    assert !kept ==> r == rest;
    if head == c {
      i := 0;
    } else {
      assert c in records[1..] by {
        assert records == [head] + records[1..];
      }
      var j := RowOf(records[1..], users, eventId, c);
      i := if kept then j + 1 else j;
    }
  }

  /** An export row: the user's details, the two times, the status and the location. */
  datatype ExportRow = ExportRow(name: string, phone: string, company: string, department: string,
                                 checkinTime: int, checkoutTime: Option<int>, status: string,
                                 geolocation: Option<string>)

  function ExportRows(records: seq<Checkin>, users: map<int, User>, eventId: string): seq<ExportRow> {
    if |records| == 0 then []
    else
      var rest := ExportRows(records[1..], users, eventId);
      var c := records[0];
      if c.eventId == eventId && c.userId in users then
        var u := users[c.userId];
        [ExportRow(u.name, u.phone, u.company, u.department, c.checkinTime, c.checkoutTime, c.status, c.geolocation)] + rest
      else rest
  }

  /** The export row a list row corresponds to. */
  function ExportOf(row: CheckinRow): ExportRow {
    ExportRow(row.user.name, row.user.phone, row.user.company, row.user.department,
              row.record.checkinTime, row.record.checkoutTime, row.record.status, row.record.geolocation)
  }

  function ExportAll(rows: seq<CheckinRow>): (r: seq<ExportRow>)
    ensures |r| == |rows|
    ensures forall i | 0 <= i < |r| :: r[i] == ExportOf(rows[i])
  {
    if |rows| == 0 then [] else [ExportOf(rows[0])] + ExportAll(rows[1..])
  }

  /** The export skips and orders records exactly as the list does: its rows are the list
      rows, field for field. */
  lemma {:induction false} ExportMatchesList(records: seq<Checkin>, users: map<int, User>, eventId: string)
    ensures ExportRows(records, users, eventId) == ExportAll(CheckinRows(records, users, eventId))
  {
    if |records| > 0 {
      ExportMatchesList(records[1..], users, eventId);
      var c := records[0];
      var rest := CheckinRows(records[1..], users, eventId);
      if c.eventId == eventId && c.userId in users {
        var row := CheckinRow(c, InfoOf(users[c.userId]));
        assert CheckinRows(records, users, eventId) == [row] + rest;
        assert ([row] + rest)[1..] == rest;
      }
    }
  }
}

=== FILE: files.dfy ===
/** The static file endpoint (backend/app/routers/files.py): the requested path is joined
    to the upload directory, made absolute and normalised lexically, checked against the
    upload directory, and only then looked up. Path handling follows Python's POSIX
    `os.path`: `join`, `abspath` and `normpath`. The working directory and the file
    system are parameters. */
module Files {
  import opened Common

  const ForbiddenMessage: string := "禁止訪問該路徑"
  const MissingMessage: string := "文件不存在"

  predicate IsAbs(p: string) {
    |p| > 0 && p[0] == '/'
  }

  /** `os.path.join(a, b)`: an absolute `b` replaces `a`; otherwise `b` is appended after a
      separator, which is not doubled when `a` is empty or already ends in one. */
  function PyJoin(a: string, b: string): (r: string)
    ensures IsAbs(b) ==> r == b
    ensures !IsAbs(b) && a != "" && a[|a| - 1] != '/' ==> r == a + "/" + b
    ensures !IsAbs(b) && (a == "" || a[|a| - 1] == '/') ==> r == a + b
  {
    if IsAbs(b) then b else if a == "" || a[|a| - 1] == '/' then a + b else a + "/" + b
  }

  /** A component of a normalised path: not empty, not "." or "..", no separator. */
  predicate IsName(c: string) {
    c != "" && c != "." && c != ".." && '/' !in c
  }

  predicate AllNames(comps: seq<string>) {
    forall i | 0 <= i < |comps| :: IsName(comps[i])
  }

  /** One step of `normpath` on an absolute path: empty and "." components vanish, ".."
      drops the last kept component (nothing above the root), a name is kept. */
  function Push(stack: seq<string>, comp: string): (r: seq<string>)
    requires '/' !in comp
    ensures AllNames(stack) ==> AllNames(r)
  {
    if comp == "" || comp == "." then stack
    else if comp == ".." then (if |stack| > 0 then stack[..|stack| - 1] else stack)
    else stack + [comp]
  }

  predicate NoSeparators(comps: seq<string>) {
    forall i | 0 <= i < |comps| :: '/' !in comps[i]
  }

  /** The components kept after walking `comps` from `stack`. */
  function Fold(stack: seq<string>, comps: seq<string>): (r: seq<string>)
    requires NoSeparators(comps)
    ensures AllNames(stack) ==> AllNames(r)
    decreases |comps|
  {
    if |comps| == 0 then stack else Fold(Push(stack, comps[0]), comps[1..])
  }

  /** An absolute normalised path: one or two leading separators and its names. */
  datatype AbsPath = AbsPath(lead: nat, comps: seq<string>)

  /** `normpath` keeps exactly two leading separators, and turns any other number into one. */
  function Leading(p: string): (n: nat)
    ensures n == 1 || n == 2
  {
    if |p| >= 2 && p[..2] == "//" && !(|p| >= 3 && p[2] == '/') then 2 else 1
  }

  /** `normpath` of an absolute path. */
  function Normalize(p: string): (a: AbsPath)
    requires IsAbs(p)
    ensures a.lead == 1 || a.lead == 2
    ensures AllNames(a.comps)
  {
    AbsPath(Leading(p), Fold([], Split(p, '/')))
  }

  /** `abspath`: a relative path is first joined to the working directory. */
  function AbsPathOf(p: string, cwd: string): (a: AbsPath)
    requires IsAbs(cwd)
    ensures AllNames(a.comps)
  {
    Normalize(if IsAbs(p) then p else PyJoin(cwd, p))
  }

  function JoinPath(comps: seq<string>): string {
    if |comps| == 0 then "" else Join(comps, '/')
  }

  function Slashes(n: nat): (s: string)
    ensures |s| == n && forall i | 0 <= i < n :: s[i] == '/'
  {
    if n == 0 then "" else "/" + Slashes(n - 1)
  }

  /** The text of a normalised absolute path. */
  function Render(a: AbsPath): string {
    Slashes(a.lead) + JoinPath(a.comps)
  }

  /** The check as written: the absolute requested path must start, character by
      character, with the absolute upload directory. */
  predicate AdmittedAsWritten(uploadDir: string, filePath: string, cwd: string)
    requires IsAbs(cwd)
  {
    StartsWith(Render(AbsPathOf(PyJoin(uploadDir, filePath), cwd)), Render(AbsPathOf(uploadDir, cwd)))
  }

  /** The check as intended: the upload directory's names are a leading part of the
      requested path's names (the comparison `os.path.commonpath` makes). */
  predicate Admitted(uploadDir: string, filePath: string, cwd: string)
    requires IsAbs(cwd)
  {
    AbsPathOf(uploadDir, cwd).comps <= AbsPathOf(PyJoin(uploadDir, filePath), cwd).comps
  }

  /** What the file system holds at a path. */
  datatype Entry = Absent | Directory | Regular

  /** `get_file` with a given path check: a refused path is a 403 before the file system
      is consulted; a missing path or a directory is a 404; otherwise the joined path is
      served. */
  function Serve(admitted: bool, full: string, fs: string -> Entry): (r: Result<string>)
    ensures !admitted ==> r == Err(HttpError(403, ForbiddenMessage))
    ensures admitted && fs(full) != Regular ==> r == Err(HttpError(404, MissingMessage))
    ensures r.Ok? <==> admitted && fs(full) == Regular
    ensures r.Ok? ==> r.value == full
  {
    if !admitted then Err(HttpError(403, ForbiddenMessage))
    else if fs(full) == Absent then Err(HttpError(404, MissingMessage))
    else if fs(full) != Regular then Err(HttpError(404, MissingMessage))
    else Ok(full)
  }

  /** `get_file` as written. */
  function GetFileAsWritten(uploadDir: string, filePath: string, cwd: string, fs: string -> Entry): (r: Result<string>)
    requires IsAbs(cwd)
    ensures r.Err? && r.error.status == 403 <==> !AdmittedAsWritten(uploadDir, filePath, cwd)
    ensures r.Ok? ==> r.value == PyJoin(uploadDir, filePath)
  {
    Serve(AdmittedAsWritten(uploadDir, filePath, cwd), PyJoin(uploadDir, filePath), fs)
  }

  /** `get_file` with the check by components. */
  function GetFile(uploadDir: string, filePath: string, cwd: string, fs: string -> Entry): (r: Result<string>)
    requires IsAbs(cwd)
    ensures r.Err? && r.error.status == 403 <==> !Admitted(uploadDir, filePath, cwd)
    ensures r.Ok? ==> r.value == PyJoin(uploadDir, filePath)
                      && AbsPathOf(uploadDir, cwd).comps <= AbsPathOf(r.value, cwd).comps
  {
    Serve(Admitted(uploadDir, filePath, cwd), PyJoin(uploadDir, filePath), fs)
  }

  // ---------------------------------------------------------------------------
  // Splitting and walking joined paths.

  /** Splitting at a separator placed between two texts splits each text separately. */
  lemma {:induction false} SplitAround(a: string, b: string)
    ensures Split(a + "/" + b, '/') == Split(a, '/') + Split(b, '/')
    decreases |a|, 1
  {
    if '/' in a {
      SplitAroundSeparator(a, b);
    } else {
      SplitFirst(a, b, '/');
      SplitNoSeparator(a, '/');
    }
  }

  /** The case where `a` holds a separator: split off its first piece and recurse. */
  lemma {:induction false} SplitAroundSeparator(a: string, b: string)
    requires '/' in a
    ensures Split(a + "/" + b, '/') == Split(a, '/') + Split(b, '/')
    decreases |a|, 0
  {
    var k := IndexOf(a, '/');
    var head, tail := a[..k], a[k + 1..];
    SplitAroundStep(a, b, k);
    SplitAround(tail, b);
    Regroup(head, Split(a, '/'), Split(tail, '/'), Split(a + "/" + b, '/'), Split(tail + "/" + b, '/'),
            Split(b, '/'));
  }

  lemma Regroup(h: string, whole: seq<string>, rest: seq<string>, joined: seq<string>,
                restJoined: seq<string>, after: seq<string>)
    requires whole == [h] + rest && joined == [h] + restJoined && restJoined == rest + after
    ensures joined == whole + after
  {
  }

  /** Splitting off the piece before the first separator of `a`, alone or followed by
      more text. */
  lemma SplitAroundStep(a: string, b: string, k: nat)
    requires k < |a| && a[k] == '/' && '/' !in a[..k]
    ensures Split(a, '/') == [a[..k]] + Split(a[k + 1..], '/')
    ensures Split(a + "/" + b, '/') == [a[..k]] + Split(a[k + 1..] + "/" + b, '/')
  {
    var head, tail := a[..k], a[k + 1..];
    assert a == head + "/" + tail;
    SplitFirst(head, tail, '/');
    assert a + "/" + b == head + "/" + (tail + "/" + b);
    SplitFirst(head, tail + "/" + b, '/');
  }

  /** Walking two lists is walking the first, then the second. */
  lemma {:induction false} FoldAppend(stack: seq<string>, a: seq<string>, b: seq<string>)
    requires NoSeparators(a) && NoSeparators(b)
    ensures NoSeparators(a + b)
    ensures Fold(stack, a + b) == Fold(Fold(stack, a), b)
    decreases |a|
  {
    if |a| > 0 {
      assert (a + b)[0] == a[0];
      assert (a + b)[1..] == a[1..] + b;
      FoldAppend(Push(stack, a[0]), a[1..], b);
    } else {
      assert a + b == b;
    }
  }

  /** Without ".." nothing already kept is dropped. */
  lemma {:induction false} FoldKeepsStack(stack: seq<string>, comps: seq<string>)
    requires NoSeparators(comps)
    requires forall i | 0 <= i < |comps| :: comps[i] != ".."
    ensures stack <= Fold(stack, comps)
    decreases |comps|
  {
    if |comps| > 0 {
      FoldKeepsStack(Push(stack, comps[0]), comps[1..]);
    }
  }

  /** Walking the pieces of `a` with an empty piece after them is walking `a`'s pieces. */
  lemma TrailingSeparatorWalk(stack: seq<string>, init: string, b: string)
    ensures Fold(stack, Split(init + "/" + b, '/')) == Fold(Fold(stack, Split(init + "/", '/')), Split(b, '/'))
  {
    SplitAround(init, b);
    SplitAround(init, "");
    assert init + "/" + "" == init + "/";
    SplitNoSeparator("", '/');
    FoldAppend(stack, Split(init, '/'), Split(b, '/'));
    FoldAppend(stack, Split(init, '/'), [""]);
  }

  /** The components of a joined relative path: those of the base, then those of the
      appended path. */
  lemma JoinWalk(stack: seq<string>, a: string, b: string)
    requires !IsAbs(b)
    ensures Fold(stack, Split(PyJoin(a, b), '/')) == Fold(Fold(stack, Split(a, '/')), Split(b, '/'))
  {
    if a == "" {
      SplitNoSeparator(a, '/');
      assert PyJoin(a, b) == b;
    } else if a[|a| - 1] == '/' {
      var init := a[..|a| - 1];
      assert a == init + "/";
      assert PyJoin(a, b) == init + "/" + b;
      TrailingSeparatorWalk(stack, init, b);
    } else {
      assert PyJoin(a, b) == a + "/" + b;
      SplitAround(a, b);
      FoldAppend(stack, Split(a, '/'), Split(b, '/'));
    }
  }

  /** The names of the requested path continue the upload directory's names as the
      components of the request path would from there. */
  lemma RequestWalk(uploadDir: string, filePath: string, cwd: string)
    requires IsAbs(cwd) && !IsAbs(filePath)
    ensures AbsPathOf(PyJoin(uploadDir, filePath), cwd).comps
            == Fold(AbsPathOf(uploadDir, cwd).comps, Split(filePath, '/'))
  {
    var full := PyJoin(uploadDir, filePath);
    if IsAbs(uploadDir) {
      assert IsAbs(full);
      JoinWalk([], uploadDir, filePath);
    } else {
      assert !IsAbs(full);
      JoinWalk([], cwd, full);
      JoinWalk(Fold([], Split(cwd, '/')), uploadDir, filePath);
      JoinWalk([], cwd, uploadDir);
    }
  }

  // ---------------------------------------------------------------------------
  // Properties of the two checks.

  /** A relative request path with no ".." component is always inside the upload
      directory, so the intended check admits it. */
  lemma PlainNamesAdmitted(uploadDir: string, filePath: string, cwd: string)
    requires IsAbs(cwd) && !IsAbs(filePath)
    requires forall i | 0 <= i < |Split(filePath, '/')| :: Split(filePath, '/')[i] != ".."
    ensures Admitted(uploadDir, filePath, cwd)
  {
    RequestWalk(uploadDir, filePath, cwd);
    FoldKeepsStack(AbsPathOf(uploadDir, cwd).comps, Split(filePath, '/'));
  }

  /** Names joined after a leading part start with the text of that part. */
  lemma JoinPrefix(front: seq<string>, rest: seq<string>)
    requires |front| > 0 && |rest| > 0
    ensures JoinPath(front + rest) == JoinPath(front) + "/" + JoinPath(rest)
    decreases |front|
  {
    if |front| > 1 {
      assert (front + rest)[1..] == front[1..] + rest;
      JoinPrefix(front[1..], rest);
    } else {
      assert (front + rest)[1..] == rest;
    }
  }

  /** A path inside a directory, written with the same leading separators, starts with
      the directory's text: everything the intended check admits the written check admits
      too, unless the two differ only in a doubled leading separator. */
  lemma InsideStartsWithDirectory(lead: nat, dir: seq<string>, path: seq<string>)
    requires dir <= path
    ensures StartsWith(Render(AbsPath(lead, path)), Render(AbsPath(lead, dir)))
  {
    var rest := path[|dir|..];
    assert path == dir + rest;
    if |dir| > 0 && |rest| > 0 {
      JoinPrefix(dir, rest);
      assert Render(AbsPath(lead, path)) == Render(AbsPath(lead, dir)) + ("/" + JoinPath(rest));
    } else if |dir| == 0 {
      var whole := Render(AbsPath(lead, path));
      assert Render(AbsPath(lead, dir)) == Slashes(lead);
      assert whole == Slashes(lead) + JoinPath(path);
      assert whole[..lead] == Slashes(lead);
      assert StartsWith(whole, Render(AbsPath(lead, dir)));
    } else {
      assert path == dir;
    }
  }

  /** A single separator between two names splits into those names. */
  lemma SplitNames(a: string, b: string)
    requires '/' !in a && '/' !in b
    ensures Split(a + "/" + b, '/') == [a, b]
  {
    SplitFirst(a, b, '/');
    SplitNoSeparator(b, '/');
  }

  /** A path whose second character is a name character has one leading separator. */
  lemma SingleLead(p: string)
    requires |p| >= 2 && p[1] != '/'
    ensures Leading(p) == 1
  {
    assert p[..2][1] == p[1];
  }

  /** Three names with separators between them split into those names. */
  lemma SplitThree(a: string, b: string, c: string)
    requires '/' !in a && '/' !in b && '/' !in c
    ensures Split(a + "/" + b + "/" + c, '/') == [a, b, c]
  {
    var bc := b + "/" + c;
    assert a + "/" + b + "/" + c == a + "/" + bc;
    SplitFirst(a, bc, '/');
    SplitNames(b, c);
    assert [a] + [b, c] == [a, b, c];
  }

  /** Walking names from a stack appends them. */
  lemma {:induction false} FoldNames(stack: seq<string>, names: seq<string>)
    requires AllNames(names) && NoSeparators(names)
    ensures Fold(stack, names) == stack + names
    decreases |names|
  {
    if |names| > 0 {
      assert stack + [names[0]] + names[1..] == stack + names;
      FoldNames(stack + [names[0]], names[1..]);
    }
  }

  /** Walking a leading empty or "." piece keeps the stack; a leading ".." drops its
      last name. */
  lemma FoldFirst(stack: seq<string>, first: string, rest: seq<string>)
    requires first == "" || first == "." || first == ".."
    requires NoSeparators(rest)
    ensures NoSeparators([first] + rest)
    ensures Fold(stack, [first] + rest)
            == Fold(if first == ".." && |stack| > 0 then stack[..|stack| - 1] else stack, rest)
  {
    assert ([first] + rest)[0] == first;
    assert ([first] + rest)[1..] == rest;
  }

  /** The text of two and three names. */
  lemma RenderNames(a: string, b: string, c: string)
    ensures Render(AbsPath(1, [a, b])) == "/" + a + "/" + b
    ensures Render(AbsPath(1, [a, b, c])) == "/" + a + "/" + b + "/" + c
  {
    assert Join([b], '/') == b;
    assert [a, b][1..] == [b];
    assert Join([a, b], '/') == a + "/" + b;
    assert [a, b, c][1..] == [b, c];
    assert Join([b, c], '/') == b + "/" + c;
    assert Join([a, b, c], '/') == a + "/" + (b + "/" + c);
    assert Slashes(1) == "/";
  }

  /** The working directory "/" + `c` walks to its one name. */
  lemma RootNameWalk(c: string)
    requires IsName(c)
    ensures NoSeparators(Split("/" + c, '/'))
    ensures Fold([], Split("/" + c, '/')) == [c]
  {
    assert "/" + c == "" + "/" + c;
    SplitNames("", c);
    assert Split("/" + c, '/') == [""] + [c];
    FoldFirst([], "", [c]);
    FoldNames([], [c]);
  }

  /** "./" + `u` walks from a stack to that stack with `u` added. */
  lemma DotNameWalk(stack: seq<string>, u: string)
    requires IsName(u)
    ensures NoSeparators(Split("./" + u, '/'))
    ensures Fold(stack, Split("./" + u, '/')) == stack + [u]
  {
    assert "./" + u == "." + "/" + u;
    SplitNames(".", u);
    assert Split("./" + u, '/') == ["."] + [u];
    FoldFirst(stack, ".", [u]);
    FoldNames(stack, [u]);
  }

  /** The upload directory "./" + `u` seen from the working directory "/" + `c`. */
  lemma UploadDirResolved(c: string, u: string)
    requires IsName(c) && IsName(u)
    ensures AbsPathOf("./" + u, "/" + c) == AbsPath(1, [c, u])
  {
    var cwd, upload := "/" + c, "./" + u;
    var full := PyJoin(cwd, upload);
    assert full == "/" + c + "/" + upload;
    assert full[1] == c[0];
    SingleLead(full);
    assert !IsAbs(upload);
    JoinWalk([], cwd, upload);
    RootNameWalk(c);
    DotNameWalk([c], u);
    assert [c] + [u] == [c, u];
  }

  /** The request "../" + `v` + "/" + `f` against that upload directory. */
  lemma SiblingResolved(c: string, u: string, v: string, f: string)
    requires IsName(c) && IsName(u) && IsName(v) && IsName(f)
    ensures AbsPathOf(PyJoin("./" + u, "../" + v + "/" + f), "/" + c) == AbsPath(1, [c, v, f])
  {
    var cwd, upload, request := "/" + c, "./" + u, "../" + v + "/" + f;
    var full := PyJoin(upload, request);
    assert full == upload + "/" + request;
    assert !IsAbs(full);
    assert PyJoin(cwd, full) == "/" + c + "/" + full;
    SingleLead(PyJoin(cwd, full));
    SiblingComps(c, u, v, f);
  }

  /** The pieces of a request that climbs one level and names a directory and a file. */
  lemma ParentPieces(v: string, f: string)
    requires IsName(v) && IsName(f)
    ensures Split("../" + v + "/" + f, '/') == ["..", v, f]
  {
    assert "../" + v + "/" + f == ".." + "/" + v + "/" + f;
    SplitThree("..", v, f);
  }

  /** Climbing out of the last directory and naming two more replaces it. */
  lemma ClimbOne(c: string, u: string, v: string, f: string)
    requires IsName(c) && IsName(u) && IsName(v) && IsName(f)
    ensures NoSeparators(["..", v, f])
    ensures Fold([c, u], ["..", v, f]) == [c, v, f]
  {
    assert ["..", v, f] == [".."] + [v, f];
    FoldFirst([c, u], "..", [v, f]);
    assert [c, u][..1] == [c];
    FoldNames([c], [v, f]);
  }

  /** The names of that request. */
  lemma SiblingComps(c: string, u: string, v: string, f: string)
    requires IsName(c) && IsName(u) && IsName(v) && IsName(f)
    ensures AbsPathOf(PyJoin("./" + u, "../" + v + "/" + f), "/" + c).comps == [c, v, f]
  {
    var cwd, upload, request := "/" + c, "./" + u, "../" + v + "/" + f;
    UploadDirResolved(c, u);
    ParentPieces(v, f);
    RequestWalk(upload, request, cwd);
    ClimbOne(c, u, v, f);
  }

  /** The written check admits any sibling directory whose name extends the upload
      directory's name, and the intended check refuses it: from the working directory
      "/" + `c`, the request "../" + `v` + "/" + `f` against the upload directory
      "./" + `u` resolves beside the upload directory, not inside it. */
  lemma SiblingAdmittedAsWritten(c: string, u: string, v: string, f: string)
    requires IsName(c) && IsName(u) && IsName(v) && IsName(f)
    requires StartsWith(v, u) && v != u
    ensures AdmittedAsWritten("./" + u, "../" + v + "/" + f, "/" + c)
    ensures !Admitted("./" + u, "../" + v + "/" + f, "/" + c)
  {
    UploadDirResolved(c, u);
    SiblingResolved(c, u, v, f);
    var dir, req := AbsPath(1, [c, u]), AbsPath(1, [c, v, f]);
    RenderNames(c, u, f);
    RenderNames(c, v, f);
    var r := Render(req);
    assert r[..|Render(dir)|] == "/" + c + "/" + v[..|u|];
    assert [c, v, f][1] != u;
  }

  /** The written check lets a sibling directory through: with the upload directory
      "./uploads" and working directory "/app", the request "../uploads_x/secret.txt"
      resolves to "/app/uploads_x/secret.txt", which starts with "/app/uploads" as text
      but lies outside it. */
  lemma SiblingDirectoryAdmitted()
    ensures AdmittedAsWritten("./" + "uploads", "../" + "uploads_x" + "/" + "secret.txt", "/" + "app")
    ensures !Admitted("./" + "uploads", "../" + "uploads_x" + "/" + "secret.txt", "/" + "app")
  {
    assert IsName("app") && IsName("uploads") && IsName("uploads_x") && IsName("secret.txt");
    assert "uploads_x"[..7] == "uploads";
    SiblingAdmittedAsWritten("app", "uploads", "uploads_x", "secret.txt");
  }

  /** With the intended check, that sibling is refused with a 403 whatever the file
      system holds. */
  lemma SiblingRefused(fs: string -> Entry)
    ensures GetFile("./" + "uploads", "../" + "uploads_x" + "/" + "secret.txt", "/" + "app", fs)
            == Err(HttpError(403, ForbiddenMessage))
  {
    SiblingDirectoryAdmitted();
  }
}

=== FILE: home_page.dfy ===
/** The public home page (frontend/src/pages/public/HomePage.tsx): the public events are
    shown in three groups by status, each in list order, with a QR code per event. */
module HomePage {
  import opened Common
  import opened Domain
  import opened EventStatus

  const NoEventsNotice: string := "目前沒有公開活動"
  const DefaultApiUrl: string := "http://localhost:8000"

  datatype Groups = Groups(active: seq<Event>, upcoming: seq<Event>, ended: seq<Event>)

  function GroupEvents(events: seq<Event>, now: int): (g: Groups)
    ensures forall i | 0 <= i < |g.active| :: GetEventStatus(g.active[i], now) == Active
    ensures forall i | 0 <= i < |g.upcoming| :: GetEventStatus(g.upcoming[i], now) == Upcoming
    ensures forall i | 0 <= i < |g.ended| :: GetEventStatus(g.ended[i], now) == Ended
  {
    Groups(Filter(events, e => GetEventStatus(e, now) == Active),
           Filter(events, e => GetEventStatus(e, now) == Upcoming),
           Filter(events, e => GetEventStatus(e, now) == Ended))
  }

  /** The three groups partition the list: together they hold every event exactly as
      often as the list does. */
  lemma {:induction false} GroupsPartition(events: seq<Event>, now: int)
    ensures var g := GroupEvents(events, now);
            multiset(g.active) + multiset(g.upcoming) + multiset(g.ended) == multiset(events)
  {
    if |events| > 0 {
      var e, rest := events[0], events[1..];
      GroupsPartition(rest, now);
      var g, gr := GroupEvents(events, now), GroupEvents(rest, now);
      GroupStep(events, now);
      assert events == [e] + rest;
      OneMore(e, rest, gr.active, gr.upcoming, gr.ended, g.active, g.upcoming, g.ended);
    }
  }

  /** The first event joins the group of its status; the other groups are those of the
      rest of the list. */
  lemma GroupStep(events: seq<Event>, now: int)
    requires |events| > 0
    ensures var (g, gr, e) := (GroupEvents(events, now), GroupEvents(events[1..], now), events[0]);
            var st := GetEventStatus(e, now);
            && g.active == (if st == Active then [e] + gr.active else gr.active)
            && g.upcoming == (if st == Upcoming then [e] + gr.upcoming else gr.upcoming)
            && g.ended == (if st == Ended then [e] + gr.ended else gr.ended)
  {
  }

  /** Adding an element to one of three parts of a list adds it to the whole. */
  lemma OneMore<T>(e: T, rest: seq<T>, a: seq<T>, b: seq<T>, c: seq<T>, a2: seq<T>, b2: seq<T>, c2: seq<T>)
    requires multiset(a) + multiset(b) + multiset(c) == multiset(rest)
    requires (a2 == [e] + a && b2 == b && c2 == c) || (a2 == a && b2 == [e] + b && c2 == c)
             || (a2 == a && b2 == b && c2 == [e] + c)
    ensures multiset(a2) + multiset(b2) + multiset(c2) == multiset([e] + rest)
  {
  }

  /** An event is in a group exactly when it is in the list and has that group's status. */
  lemma GroupMembership(events: seq<Event>, now: int, e: Event)
    ensures e in GroupEvents(events, now).active <==> e in events && GetEventStatus(e, now) == Active
    ensures e in GroupEvents(events, now).upcoming <==> e in events && GetEventStatus(e, now) == Upcoming
    ensures e in GroupEvents(events, now).ended <==> e in events && GetEventStatus(e, now) == Ended
  {
    FilterMembership(events, e => GetEventStatus(e, now) == Active, e);
    FilterMembership(events, e => GetEventStatus(e, now) == Upcoming, e);
    FilterMembership(events, e => GetEventStatus(e, now) == Ended, e);
  }

  /** The notice shown instead of the groups. */
  function Notice(events: seq<Event>): (n: Option<string>)
    ensures n.Some? <==> |events| == 0
    ensures n.Some? ==> n.value == NoEventsNotice
  {
    if |events| == 0 then Some(NoEventsNotice) else None
  }

  /** The API base: the configured one, or the local default when unset or empty. */
  function ApiUrl(configured: Option<string>): string {
    if Present(configured) then configured.value else DefaultApiUrl
  }

  /** The QR image source of an event: served by the file endpoint when the event has one. */
  function QrSource(apiUrl: string, e: Event): (src: string)
    ensures Present(e.qrcodeUrl) ==>
              StartsWith(src, apiUrl + "/api/files/") && src[|apiUrl + "/api/files/"|..] == e.qrcodeUrl.value
    ensures !Present(e.qrcodeUrl) ==> src == ""
  {
    if Present(e.qrcodeUrl) then apiUrl + "/api/files/" + e.qrcodeUrl.value else ""
  }
}

=== FILE: register_form.dfy ===
/** The participant registration form (frontend/src/components/RegisterForm.tsx): the
    validation order, the trimmed payload and the error shown after a submission. */
module RegisterForm {
  import opened Common
  import Users

  const NameMissing: string := "請輸入姓名"
  const PhoneMissing: string := "請輸入電話"
  const PhoneInvalid: string := "請輸入有效的手機號碼（09開頭，共10碼）"
  const CompanyMissing: string := "請輸入公司(科系)名稱"
  const DepartmentMissing: string := "請輸入部門(組別)"
  const SubmitFailed: string := "提交失敗"

  datatype Form = Form(name: string, phone: string, company: string, department: string)

  /** `/^09\d{8}$/.test(v)`: "09" and exactly eight ASCII digits, nothing after them. */
  predicate JsPhoneMatches(v: string) {
    |v| == 10 && v[0] == '0' && v[1] == '9' && forall k | 2 <= k < 10 :: IsAsciiDigit(v[k])
  }

  /** `validateForm`: the message of the first failing check, in the order name, phone
      present, phone format, company, department; `None` when every check passes. Each
      check looks at the trimmed value. */
  function Validate(f: Form): (r: Option<string>)
    ensures r == Some(NameMissing) <==> TrimJs(f.name) == ""
    ensures r == Some(PhoneMissing) <==> TrimJs(f.name) != "" && TrimJs(f.phone) == ""
    ensures r == Some(PhoneInvalid) <==> TrimJs(f.name) != "" && TrimJs(f.phone) != ""
                                         && !JsPhoneMatches(TrimJs(f.phone))
    ensures r == Some(CompanyMissing) <==> TrimJs(f.name) != "" && JsPhoneMatches(TrimJs(f.phone))
                                           && TrimJs(f.company) == ""
    ensures r == Some(DepartmentMissing) <==> TrimJs(f.name) != "" && JsPhoneMatches(TrimJs(f.phone))
                                              && TrimJs(f.company) != "" && TrimJs(f.department) == ""
    ensures r.None? <==> TrimJs(f.name) != "" && JsPhoneMatches(TrimJs(f.phone))
                         && TrimJs(f.company) != "" && TrimJs(f.department) != ""
  {
    if TrimJs(f.name) == "" then Some(NameMissing)
    else if TrimJs(f.phone) == "" then Some(PhoneMissing)
    else if !JsPhoneMatches(TrimJs(f.phone)) then Some(PhoneInvalid)
    else if TrimJs(f.company) == "" then Some(CompanyMissing)
    else if TrimJs(f.department) == "" then Some(DepartmentMissing)
    else None
  }

  /** The values handed to `onSubmit`. */
  function Payload(f: Form): Form {
    Form(TrimJs(f.name), TrimJs(f.phone), TrimJs(f.company), TrimJs(f.department))
  }

  /** What a submission does: the error to show and the payload sent, if any. */
  datatype Submission = Submission(error: Option<string>, sent: Option<Form>)

  /** `handleSubmit` up to the call: a failing check shows its message and sends nothing; a
      passing one clears the error and sends the trimmed values. */
  function HandleSubmit(f: Form): (r: Submission)
    ensures r.sent.Some? <==> Validate(f).None?
    ensures r.sent.None? ==> r.error == Validate(f) && r.error.Some?
    ensures r.sent.Some? ==> r.error.None? && r.sent.value == Payload(f)
  {
    match Validate(f)
    case Some(msg) => Submission(Some(msg), None)
    case None => Submission(None, Some(Payload(f)))
  }

  /** A rejected `onSubmit`: its message, or a fixed text for a non-Error rejection. */
  function SubmitFailure(message: Option<string>): (error: string)
    ensures message.Some? ==> error == message.value
    ensures message.None? ==> error == SubmitFailed
  {
    if message.Some? then message.value else SubmitFailed
  }

  /** Every phone the form accepts also passes the backend's phone rule, whichever
      characters count as Unicode digits. */
  lemma FrontendPhoneAcceptedByBackend(v: string, isDigit: Users.DigitClass)
    requires forall c | IsAsciiDigit(c) :: isDigit(c)
    requires JsPhoneMatches(v)
    ensures Users.PhoneMatches(v, isDigit)
  {
    forall k | 2 <= k < 10 ensures isDigit(v[k]) {
      assert IsAsciiDigit(v[k]);
    }
  }

  /** Whatever the form sends passes the backend's registration schema. */
  lemma PayloadPassesBackendSchema(f: Form, lineUserId: string, profile: Answers, isDigit: Users.DigitClass)
    requires forall c | IsAsciiDigit(c) :: isDigit(c)
    requires HandleSubmit(f).sent.Some?
    ensures var p := HandleSubmit(f).sent.value;
            Users.CreateErrors(Users.UserCreate(lineUserId, p.name, p.phone, p.company, p.department, profile), isDigit) == []
  {
    var p := HandleSubmit(f).sent.value;
    FrontendPhoneAcceptedByBackend(p.phone, isDigit);
  }

  /** The backend accepts phones the form refuses: one with a trailing newline (which the
      form's trimming removes anyway) and one with a non-ASCII decimal digit. */
  lemma BackendAcceptsMore(digits: string, isDigit: Users.DigitClass, other: char)
    requires |digits| == 8 && AllAsciiDigits(digits)
    requires forall c | IsAsciiDigit(c) :: isDigit(c)
    requires isDigit(other) && !IsAsciiDigit(other)
    ensures Users.PhoneMatches("09" + digits + "\n", isDigit) && !JsPhoneMatches("09" + digits + "\n")
    ensures Users.PhoneMatches("09" + [other] + digits[1..], isDigit) && !JsPhoneMatches("09" + [other] + digits[1..])
  {
    Users.TrailingNewlineAccepted(digits, isDigit);
    var s := "09" + [other] + digits[1..];
    assert s[2] == other;
    forall k | 3 <= k < 10 ensures isDigit(s[k]) {
      assert s[k] == digits[k - 2];
      assert IsAsciiDigit(digits[k - 2]);
    }
  }
}

=== FILE: template_editor.dfy ===
/** The template editor (frontend/src/pages/admin/TemplateManagementPage.tsx): the field
    list operations, the options text, starting an edit, and what "save" sends. */
module TemplateEditor {
  import opened Common
  import opened Domain
  import Templates

  const NameRequired: string := "請輸入範本名稱"
  const SaveFailed: string := "儲存失敗"
  const FieldPrefix: string := "field_"

  /** The editor's form: the template without id and owner. */
  datatype Draft = Draft(name: string, kind: string, surveyTrigger: string, isPublic: bool, fields: seq<FormField>)

  const EmptyDraft: Draft := Draft("", RegistrationKind, CourseStart, false, [])

  /** A blank text question with a given name. */
  function BlankField(name: string): FormField {
    FormField(name, "", "text", false, None, None)
  }

  /** `addField` as written: the new question is named after the list's new length. */
  function AddFieldAsWritten(d: Draft): (e: Draft)
    ensures e.fields == d.fields + [BlankField(FieldPrefix + NatToString(|d.fields| + 1))]
    ensures e.(fields := d.fields) == d
  {
    d.(fields := d.fields + [BlankField(FieldPrefix + NatToString(|d.fields| + 1))])
  }

  /** `removeField(i)`: exactly entry i goes; the others keep their order. */
  function RemoveField(d: Draft, i: int): (e: Draft)
    requires 0 <= i < |d.fields|
    ensures |e.fields| == |d.fields| - 1
    ensures forall j | 0 <= j < i :: e.fields[j] == d.fields[j]
    ensures forall j | i <= j < |e.fields| :: e.fields[j] == d.fields[j + 1]
    ensures e.(fields := d.fields) == d
  {
    d.(fields := d.fields[..i] + d.fields[i + 1..])
  }

  /** The question types the editor's type menu offers, in menu order. */
  const FieldKinds: seq<string> := ["text", "textarea", "number", "select", "radio", "checkbox", "date"]

  /** The parts of a question the editor lets one change. */
  datatype FieldUpdate = FieldUpdate(fieldLabel: Patch<string>, kind: Patch<string>, required: Patch<bool>,
                                     options: Patch<seq<string>>)

  function ApplyField(f: FormField, u: FieldUpdate): FormField {
    f.(fieldLabel := PatchOr(u.fieldLabel, f.fieldLabel), kind := PatchOr(u.kind, f.kind),
       required := PatchOr(u.required, f.required),
       options := if u.options.Set? then Some(u.options.value) else f.options)
  }

  /** `updateField(i, u)`: the supplied parts are merged into entry i; nothing else
      changes, and the entry keeps its name. */
  function UpdateField(d: Draft, i: int, u: FieldUpdate): (e: Draft)
    requires 0 <= i < |d.fields|
    ensures |e.fields| == |d.fields|
    ensures forall j | 0 <= j < |d.fields| && j != i :: e.fields[j] == d.fields[j]
    ensures e.fields[i].name == d.fields[i].name
    ensures u.fieldLabel.Set? ==> e.fields[i].fieldLabel == u.fieldLabel.value
    ensures u.fieldLabel.Unset? ==> e.fields[i].fieldLabel == d.fields[i].fieldLabel
    ensures u.kind.Set? ==> e.fields[i].kind == u.kind.value
    ensures u.kind.Unset? ==> e.fields[i].kind == d.fields[i].kind
    ensures u.required.Set? ==> e.fields[i].required == u.required.value
    ensures u.required.Unset? ==> e.fields[i].required == d.fields[i].required
    ensures u.options.Set? ==> e.fields[i].options == Some(u.options.value)
    ensures u.options.Unset? ==> e.fields[i].options == d.fields[i].options
    ensures e.(fields := d.fields) == d
  {
    d.(fields := d.fields[i := ApplyField(d.fields[i], u)])
  }

  /** The options box: the text split at commas, each piece trimmed. */
  function ParseOptions(text: string): (opts: seq<string>)
    ensures |opts| == |Split(text, ',')|
    ensures forall k | 0 <= k < |opts| :: opts[k] == TrimJs(Split(text, ',')[k])
  {
    var parts := Split(text, ',');
    seq(|parts|, k requires 0 <= k < |parts| => TrimJs(parts[k]))
  }

  /** An empty options box gives one empty option, not none. */
  lemma EmptyOptionsText()
    ensures ParseOptions("") == [""]
  {
    SplitNoSeparator("", ',');
  }

  /** Options without commas or surrounding space survive being shown (`join(',')`) and
      read back. */
  lemma {:induction false} OptionsRoundTrip(opts: seq<string>)
    requires |opts| >= 1
    requires forall k | 0 <= k < |opts| :: ',' !in opts[k] && TrimJs(opts[k]) == opts[k]
    ensures ParseOptions(Join(opts, ',')) == opts
  {
    SplitJoin(opts, ',');
  }

  lemma {:induction false} SplitJoin(parts: seq<string>, sep: char)
    requires |parts| >= 1
    requires forall k | 0 <= k < |parts| :: sep !in parts[k]
    ensures Split(Join(parts, sep), sep) == parts
  {
    if |parts| > 1 {
      SplitJoin(parts[1..], sep);
      assert sep !in parts[0];
      SplitFirst(parts[0], Join(parts[1..], sep), sep);
      assert parts == [parts[0]] + parts[1..];
    } else {
      SplitNoSeparator(parts[0], sep);
    }
  }

  /** `handleStartEdit`: the template's name, kind, visibility and a copy of its questions;
      a missing or empty survey trigger shows as "course_start". */
  function StartEdit(t: Template): (d: Draft)
    ensures d.name == t.name && d.kind == t.kind && d.isPublic == t.isPublic && d.fields == t.fields
    ensures t.surveyTrigger.Some? && t.surveyTrigger.value != "" ==> d.surveyTrigger == t.surveyTrigger.value
    ensures t.surveyTrigger.None? || t.surveyTrigger.value == "" ==> d.surveyTrigger == CourseStart
  {
    Draft(t.name, t.kind,
          if t.surveyTrigger.Some? && t.surveyTrigger.value != "" then t.surveyTrigger.value else CourseStart,
          t.isPublic, t.fields)
  }

  /** What "save" does: refuse, or send a create or an update with every part of the draft. */
  datatype SaveRequest =
    | Refused(message: string)
    | CreateRequest(create: Templates.TemplateCreate)
    | UpdateRequest(id: string, update: Templates.TemplateUpdate)

  /** `handleSave`: an empty name is refused before any call; an edit (a non-empty id)
      sends the whole draft as an update, anything else creates. */
  function Save(d: Draft, editingId: Option<string>): (r: SaveRequest)
    ensures r.Refused? <==> d.name == ""
    ensures r.Refused? ==> r.message == NameRequired
    ensures r.UpdateRequest? <==> d.name != "" && editingId.Some? && editingId.value != ""
    ensures r.UpdateRequest? ==> r.id == editingId.value
                                 && r.update == Templates.TemplateUpdate(Set(d.name), Set(d.kind), Set(Some(d.surveyTrigger)),
                                                                         Set(d.fields), Set(d.isPublic))
    ensures r.CreateRequest? ==> r.create == Templates.TemplateCreate(d.name, d.kind, Some(d.surveyTrigger), d.fields, d.isPublic)
  {
    if d.name == "" then Refused(NameRequired)
    else if editingId.Some? && editingId.value != "" then
      UpdateRequest(editingId.value, Templates.TemplateUpdate(Set(d.name), Set(d.kind), Set(Some(d.surveyTrigger)),
                                                              Set(d.fields), Set(d.isPublic)))
    else CreateRequest(Templates.TemplateCreate(d.name, d.kind, Some(d.surveyTrigger), d.fields, d.isPublic))
  }

  /** The message shown after a failed save: the server's detail, or a fixed text. */
  function SaveError(detail: Option<string>): (m: string)
    ensures detail.Some? && detail.value != "" ==> m == detail.value
    ensures detail.None? || detail.value == "" ==> m == SaveFailed
  {
    if detail.Some? && detail.value != "" then detail.value else SaveFailed
  }

  /** Because the editor sends the visibility flag back on every save, an ordinary admin
      who owns a template the system admin made public can no longer save any change to
      it: the server refuses the re-sent flag. */
  lemma PublishedTemplateLocksOwner(store: seq<Template>, admin: Admin, id: string)
    requires !IsSystemAdmin(admin)
    requires id != "" && Templates.IndexOfId(store, id).Some?
    requires var t := store[Templates.IndexOfId(store, id).value]; Templates.Owns(admin, t) && t.isPublic && t.name != ""
    ensures var t := store[Templates.IndexOfId(store, id).value];
            var r := Save(StartEdit(t), Some(id));
            r.UpdateRequest? && Templates.UpdateTemplate(store, admin, r.id, r.update)
                                == Err(HttpError(403, Templates.PublishForbidden))
  {
  }

  /** Saving an unchanged draft of one's own template is a no-op on the stored fields. */
  lemma ResaveKeepsTemplate(store: seq<Template>, admin: Admin, id: string)
    requires id != "" && Templates.IndexOfId(store, id).Some?
    requires var t := store[Templates.IndexOfId(store, id).value];
             Templates.MayChange(admin, t) && (t.isPublic ==> IsSystemAdmin(admin)) && t.name != ""
             && t.surveyTrigger.Some? && t.surveyTrigger.value != ""
    ensures var i := Templates.IndexOfId(store, id).value;
            var r := Save(StartEdit(store[i]), Some(id));
            r.UpdateRequest? && Templates.UpdateTemplate(store, admin, r.id, r.update) == Ok(store)
  {
    var i := Templates.IndexOfId(store, id).value;
    var r := Save(StartEdit(store[i]), Some(id));
    assert Templates.ApplyTemplate(store[i], r.update) == store[i];
    assert store[i := store[i]] == store;
  }

  // ---------------------------------------------------------------------------
  // Field names.

  /** Names are unique when no two questions share one. */
  predicate UniqueNames(fs: seq<FormField>) {
    forall i, j | 0 <= i < j < |fs| :: fs[i].name != fs[j].name
  }

  /** Adding, adding, removing the first and adding again leaves two questions named
      "field_2": the numbering follows the list's length, not the names in use. */
  lemma AddAfterRemoveDuplicates()
    ensures var d := AddFieldAsWritten(RemoveField(AddFieldAsWritten(AddFieldAsWritten(EmptyDraft)), 0));
            |d.fields| == 2 && d.fields[0].name == "field_2" && d.fields[1].name == "field_2"
            && !UniqueNames(d.fields)
  {
    assert NatToString(1) == "1";
    assert NatToString(2) == "2";
  }

  /** The number a name "field_N" carries, if it has that form. */
  function Suffix(name: string): (r: Option<nat>)
    ensures r.Some? ==> |name| > |FieldPrefix| && AllAsciiDigits(name[|FieldPrefix|..])
  {
    if |name| > |FieldPrefix| && name[..|FieldPrefix|] == FieldPrefix && AllAsciiDigits(name[|FieldPrefix|..])
    then Some(DigitsValue(name[|FieldPrefix|..]))
    else None
  }

  /** At least every number carried by a question's name. */
  function MaxSuffix(fs: seq<FormField>): (m: nat)
    ensures forall i | 0 <= i < |fs| :: Suffix(fs[i].name).Some? ==> Suffix(fs[i].name).value <= m
  {
    if |fs| == 0 then 0
    else
      var rest := MaxSuffix(fs[..|fs| - 1]);
      var last := match Suffix(fs[|fs| - 1].name) case Some(n) => n case None => 0;
      assert forall i | 0 <= i < |fs| - 1 :: fs[i] == fs[..|fs| - 1][i];
      if last > rest then last else rest
  }

  /** A name no question has: one past the largest number in use. */
  function FreshName(fs: seq<FormField>): (name: string)
    ensures forall i | 0 <= i < |fs| :: fs[i].name != name
  {
    var name := FieldPrefix + NatToString(MaxSuffix(fs) + 1);
    assert name[..|FieldPrefix|] == FieldPrefix && name[|FieldPrefix|..] == NatToString(MaxSuffix(fs) + 1);
    assert Suffix(name) == Some(MaxSuffix(fs) + 1);
    name
  }

  /** `addField` with a name that is not in use. */
  function AddField(d: Draft): (e: Draft)
    ensures e.fields == d.fields + [BlankField(FreshName(d.fields))]
    ensures e.(fields := d.fields) == d
    ensures UniqueNames(d.fields) ==> UniqueNames(e.fields)
  {
    var e := d.(fields := d.fields + [BlankField(FreshName(d.fields))]);
    e
  }

  /** With fresh names, every sequence of adds, removes and updates keeps the names
      unique; here one step of each. */
  lemma EditsKeepNamesUnique(d: Draft, i: int, u: FieldUpdate)
    requires UniqueNames(d.fields)
    ensures UniqueNames(AddField(d).fields)
    ensures 0 <= i < |d.fields| ==> UniqueNames(RemoveField(d, i).fields)
    ensures 0 <= i < |d.fields| ==> UniqueNames(UpdateField(d, i, u).fields)
  {
    if 0 <= i < |d.fields| {
      var r := RemoveField(d, i).fields;
      forall a, b | 0 <= a < b < |r| ensures r[a].name != r[b].name {
        var a' := if a < i then a else a + 1;
        var b' := if b < i then b else b + 1;
        assert r[a] == d.fields[a'] && r[b] == d.fields[b'];
      }
    }
  }

  /** The same add, add, remove, add sequence gives distinct names with fresh naming. */
  lemma AddAfterRemoveDistinct()
    ensures var d := AddField(RemoveField(AddField(AddField(EmptyDraft)), 0));
            |d.fields| == 2 && UniqueNames(d.fields)
  {
    var d2 := AddField(AddField(EmptyDraft));
    EditsKeepNamesUnique(EmptyDraft, 0, FieldUpdate(Unset, Unset, Unset, Unset));
    EditsKeepNamesUnique(AddField(EmptyDraft), 0, FieldUpdate(Unset, Unset, Unset, Unset));
    EditsKeepNamesUnique(d2, 0, FieldUpdate(Unset, Unset, Unset, Unset));
    EditsKeepNamesUnique(RemoveField(d2, 0), 0, FieldUpdate(Unset, Unset, Unset, Unset));
  }
}

=== FILE: templates.dfy ===
/** The form-template endpoints (backend/app/routers/templates.py): who may list, read,
    create, change and delete a template. Templates are kept in a sequence; a template's
    owner is the admin who created it, `None` when the nullable creator column is empty.
    Deleting an admin deletes that admin's templates with it (a cascade that
    `Auth.DeleteAdmin` does not follow). */
module Templates {
  import opened Common
  import opened Domain

  const TemplateMissing: string := "範本不存在"
  const PublicCreateForbidden: string := "只有系統管理員可以創建公共範本"
  const PrivateReadForbidden: string := "無權訪問此私人範本"
  const UpdateForbidden: string := "無權修改此範本"
  const PublishForbidden: string := "只有系統管理員可以將範本設為公共"
  const DeleteForbidden: string := "無權刪除此範本"

  /** Whether the admin owns the template. */
  predicate Owns(admin: Admin, t: Template) {
    t.owner == Some(admin.id)
  }

  /** Read access: the system admin sees all; others see public templates and their own. */
  predicate MaySee(admin: Admin, t: Template) {
    IsSystemAdmin(admin) || t.isPublic || Owns(admin, t)
  }

  /** Write access: the owner or the system admin. */
  predicate MayChange(admin: Admin, t: Template) {
    Owns(admin, t) || IsSystemAdmin(admin)
  }

  /** The template list for an admin, in store order. */
  function ListTemplates(store: seq<Template>, admin: Admin): (r: seq<Template>)
    ensures forall t | t in r :: t in store && MaySee(admin, t)
    ensures forall t | t in store && MaySee(admin, t) :: t in r
    ensures IsSystemAdmin(admin) ==> r == store
  {
    var r := Filter(store, (t: Template) => MaySee(admin, t));
    forall t | t in r || (t in store && MaySee(admin, t))
      ensures t in r <==> t in store && MaySee(admin, t)
    {
      FilterMembership(store, (t: Template) => MaySee(admin, t), t);
    }
    if IsSystemAdmin(admin) then store else r
  }

  /** The index of the template with an id, if any. */
  function IndexOfId(store: seq<Template>, id: string): (r: Option<nat>)
    ensures r.Some? ==> r.value < |store| && store[r.value].id == id
    ensures r.None? <==> forall i | 0 <= i < |store| :: store[i].id != id
  {
    if |store| == 0 then None
    else if store[0].id == id then Some(0)
    else match IndexOfId(store[1..], id)
      case None => None
      case Some(i) => Some(i + 1)
  }

  /** A create request: the template without id and owner. */
  datatype TemplateCreate = TemplateCreate(name: string, kind: string, surveyTrigger: Option<string>,
                                           fields: seq<FormField>, isPublic: bool)

  /** Creating a template: only the system admin may create a public one; the creator
      becomes the owner. */
  function CreateTemplate(store: seq<Template>, admin: Admin, req: TemplateCreate, newId: string)
    : (r: Result<seq<Template>>)
    ensures r.Err? <==> req.isPublic && !IsSystemAdmin(admin)
    ensures r.Err? ==> r.error == HttpError(403, PublicCreateForbidden)
    ensures r.Ok? ==> |r.value| == |store| + 1 && r.value[..|store|] == store
    ensures r.Ok? ==> var t := r.value[|store|];
                      t.id == newId && Owns(admin, t) && t.isPublic == req.isPublic
                      && t.name == req.name && t.fields == req.fields && MayChange(admin, t)
  {
    if req.isPublic && !IsSystemAdmin(admin) then Err(HttpError(403, PublicCreateForbidden))
    else Ok(store + [Template(newId, req.name, req.kind, req.surveyTrigger, req.fields, req.isPublic, Some(admin.id))])
  }

  /** Reading one template: 404 when missing, 403 exactly for another admin's private
      template read by an ordinary admin. */
  function GetTemplate(store: seq<Template>, admin: Admin, id: string): (r: Result<Template>)
    ensures IndexOfId(store, id).None? ==> r == Err(HttpError(404, TemplateMissing))
    ensures IndexOfId(store, id).Some? ==>
              var t := store[IndexOfId(store, id).value];
              && (r.Err? <==> !t.isPublic && !Owns(admin, t) && !IsSystemAdmin(admin))
              && (r.Err? ==> r.error == HttpError(403, PrivateReadForbidden))
              && (r.Ok? ==> r.value == t)
    ensures r.Ok? ==> MaySee(admin, r.value)
  {
    match IndexOfId(store, id)
    case None => Err(HttpError(404, TemplateMissing))
    case Some(i) =>
      var t := store[i];
      if !t.isPublic && t.owner != Some(admin.id) && !IsSystemAdmin(admin) then Err(HttpError(403, PrivateReadForbidden))
      else Ok(t)
  }

  /** An update request; every field may be left out. */
  datatype TemplateUpdate = TemplateUpdate(name: Patch<string>, kind: Patch<string>,
                                           surveyTrigger: Patch<Option<string>>,
                                           fields: Patch<seq<FormField>>, isPublic: Patch<bool>)

  function ApplyTemplate(t: Template, u: TemplateUpdate): Template {
    t.(name := PatchOr(u.name, t.name), kind := PatchOr(u.kind, t.kind),
       surveyTrigger := PatchOr(u.surveyTrigger, t.surveyTrigger),
       fields := PatchOr(u.fields, t.fields), isPublic := PatchOr(u.isPublic, t.isPublic))
  }

  /** Changing a template: 404, then 403 for anyone but the owner or the system admin,
      then 403 when an ordinary admin tries to make it public; otherwise the supplied
      fields change and nothing else in the store does. */
  function UpdateTemplate(store: seq<Template>, admin: Admin, id: string, u: TemplateUpdate)
    : (r: Result<seq<Template>>)
    ensures IndexOfId(store, id).None? ==> r == Err(HttpError(404, TemplateMissing))
    ensures IndexOfId(store, id).Some? ==>
              var i := IndexOfId(store, id).value;
              && (!MayChange(admin, store[i]) ==> r == Err(HttpError(403, UpdateForbidden)))
              && (MayChange(admin, store[i]) && u.isPublic == Set(true) && !IsSystemAdmin(admin) ==>
                    r == Err(HttpError(403, PublishForbidden)))
              && (r.Ok? <==> MayChange(admin, store[i]) && (u.isPublic == Set(true) ==> IsSystemAdmin(admin)))
              && (r.Ok? ==> |r.value| == |store| && r.value[i] == ApplyTemplate(store[i], u)
                            && r.value[i].id == id && r.value[i].owner == store[i].owner
                            && forall j | 0 <= j < |store| && j != i :: r.value[j] == store[j])
  {
    match IndexOfId(store, id)
    case None => Err(HttpError(404, TemplateMissing))
    case Some(i) =>
      var t := store[i];
      if t.owner != Some(admin.id) && !IsSystemAdmin(admin) then Err(HttpError(403, UpdateForbidden))
      else if u.isPublic == Set(true) && !IsSystemAdmin(admin) then Err(HttpError(403, PublishForbidden))
      else Ok(store[i := ApplyTemplate(t, u)])
  }

  /** Deleting a template: 404, then 403 for anyone but the owner or the system admin;
      otherwise exactly that template is removed. */
  function DeleteTemplate(store: seq<Template>, admin: Admin, id: string): (r: Result<seq<Template>>)
    ensures IndexOfId(store, id).None? ==> r == Err(HttpError(404, TemplateMissing))
    ensures IndexOfId(store, id).Some? ==>
              var i := IndexOfId(store, id).value;
              && (r.Err? <==> !MayChange(admin, store[i]))
              && (r.Err? ==> r.error == HttpError(403, DeleteForbidden))
              && (r.Ok? ==> r.value == store[..i] + store[i + 1..])
  {
    match IndexOfId(store, id)
    case None => Err(HttpError(404, TemplateMissing))
    case Some(i) =>
      if store[i].owner != Some(admin.id) && !IsSystemAdmin(admin) then Err(HttpError(403, DeleteForbidden))
      else Ok(store[..i] + store[i + 1..])
  }

  /** Whoever may change or delete a template may also read it and finds it in their list. */
  lemma ChangeImpliesSee(store: seq<Template>, admin: Admin, id: string, u: TemplateUpdate)
    ensures UpdateTemplate(store, admin, id, u).Ok? || DeleteTemplate(store, admin, id).Ok? ==>
              var t := store[IndexOfId(store, id).value];
              GetTemplate(store, admin, id) == Ok(t) && t in ListTemplates(store, admin)
  {
  }

  /** An ordinary admin cannot touch a public template someone else owns. */
  lemma OthersPublicTemplatesReadOnly(store: seq<Template>, admin: Admin, id: string, u: TemplateUpdate)
    requires !IsSystemAdmin(admin)
    requires IndexOfId(store, id).Some? && !Owns(admin, store[IndexOfId(store, id).value])
    ensures UpdateTemplate(store, admin, id, u).Err? && DeleteTemplate(store, admin, id).Err?
    ensures GetTemplate(store, admin, id).Ok? <==> store[IndexOfId(store, id).value].isPublic
  {
  }

  /** Only the system admin ever makes a template public: after a successful create or
      update by an ordinary admin, every public template in the store was public before. */
  lemma OnlySystemAdminPublishes(store: seq<Template>, admin: Admin, id: string, u: TemplateUpdate,
                                 req: TemplateCreate, newId: string)
    requires !IsSystemAdmin(admin)
    ensures var r := UpdateTemplate(store, admin, id, u);
            r.Ok? ==> forall j | 0 <= j < |store| :: r.value[j].isPublic ==> store[j].isPublic
    ensures var r := CreateTemplate(store, admin, req, newId);
            r.Ok? ==> !r.value[|store|].isPublic
  {
  }
}

=== FILE: user_management.dfy ===
/** The people-and-permissions page (fontend/src/pages/admin/UserManagementPage.tsx): who
    sees the create button and the per-row toggle and delete actions, the body the toggle
    sends, and the create-admin dialog. The signed-in admin comes from the session store;
    the server's answers are the functions of module Auth. */
module UserManagement {
  import opened Common
  import opened Domain
  import Auth
  import Dependencies

  const DefaultRole: string := "管理員"
  const CreateSucceeded: string := "新增管理員成功"
  const CreateFailed: string := "新增失敗"

  /** The create-button is shown only to a system admin. */
  predicate CreateButtonShown(viewer: Option<Admin>) {
    viewer.Some? && IsSystemAdmin(viewer.value)
  }

  /** A row's toggle and delete buttons: shown to a system admin, except on their own row. */
  predicate ActionsShown(viewer: Option<Admin>, row: Admin) {
    viewer.Some? && IsSystemAdmin(viewer.value) && viewer.value.id != row.id
  }

  /** The toggle button sends the opposite of the row's current status. */
  function ToggleBody(row: Admin): (activeIn: Option<bool>)
    ensures activeIn.Some? && activeIn.value != row.isActive
  {
    Some(!row.isActive)
  }

  /** The toggle button's label: deactivate an active account, activate an inactive one. */
  function ToggleLabel(row: Admin): (text: string)
    ensures row.isActive <==> text == "停用"
    ensures !row.isActive <==> text == "啟用"
  {
    if row.isActive then "停用" else "啟用"
  }

  /** The create-admin dialog's fields. */
  datatype NewAdminForm = NewAdminForm(username: string, password: string, name: string)

  const InitialForm: NewAdminForm := NewAdminForm("", "", DefaultRole)

  /** The dialog: whether it is open and what its fields hold. */
  datatype Dialog = Dialog(open: bool, form: NewAdminForm)

  /** The browser refuses to submit while a `required` input is empty. */
  predicate Submittable(f: NewAdminForm) {
    f.username != "" && f.password != ""
  }

  /** The request the dialog sends: the three fields as typed. */
  function Request(f: NewAdminForm): (req: Auth.AdminCreate)
    ensures req.username == f.username && req.password == f.password && req.name == f.name
  {
    Auth.AdminCreate(f.username, f.password, f.name)
  }

  /** What submitting the dialog did: the dialog afterwards and the alert shown. */
  datatype Submitted = Submitted(dialog: Dialog, alert: string)

  /** `handleCreateAdmin` given the server's answer: success closes the dialog, resets the
      fields and announces it; a failure alerts the server's detail (for a schema failure
      FastAPI's array of error objects, which `alert` turns into "[object Object]" per
      object; a fixed text for an empty text) and keeps the dialog as it was. */
  function HandleCreate(d: Dialog, reply: Result<seq<Admin>>): (r: Submitted)
    ensures reply.Ok? ==> r.dialog == Dialog(false, InitialForm) && r.alert == CreateSucceeded
    ensures reply.Err? ==> r.dialog == d
    ensures reply.Err? && reply.error.status != ValidationStatus && reply.error.detail != "" ==> r.alert == reply.error.detail
    ensures reply.Err? && reply.error.status != ValidationStatus && reply.error.detail == "" ==> r.alert == CreateFailed
    ensures reply.Err? && reply.error.status == ValidationStatus ==>
              Split(r.alert, ',') == seq(|Split(reply.error.detail, ',')|, _ => ObjectText)
  {
    match reply
    case Ok(_) => Submitted(Dialog(false, InitialForm), CreateSucceeded)
    case Err(e) => Submitted(d, AlertText(DetailOr(e, CreateFailed)))
  }

  /** The row buttons are shown exactly when the server would carry out the action: a
      signed-in system admin acting on another listed account. Hidden buttons correspond
      to a 403 (not a system admin) or a 400 (one's own account). */
  lemma ActionsShownIffAccepted(admins: seq<Admin>, viewer: Admin, caller: Admin, row: Admin)
    requires caller.id == viewer.id && caller.name == viewer.name
    requires row in admins
    ensures ActionsShown(Some(viewer), row) <==> Auth.DeleteAdmin(admins, caller, row.id).Ok?
    ensures ActionsShown(Some(viewer), row) <==> Auth.SetAdminStatus(admins, caller, row.id, ToggleBody(row)).Ok?
  {
  }

  /** The create button is shown exactly to the admins whose create requests pass the
      permission gate. */
  lemma CreateButtonIffPermitted(admins: seq<Admin>, viewer: Admin, f: NewAdminForm, hash: Auth.Hasher)
    ensures CreateButtonShown(Some(viewer)) <==>
            Auth.CreateAdmin(admins, viewer, Request(f), hash) != Err(HttpError(403, Dependencies.SystemAdminRequired))
  {
  }

  /** Pressing the toggle on an account flips that account's stored status and leaves
      every other account as it was. */
  lemma ToggleFlipsStatus(admins: seq<Admin>, caller: Admin, row: Admin)
    requires Auth.SetAdminStatus(admins, caller, row.id, ToggleBody(row)).Ok?
    ensures var after := Auth.SetAdminStatus(admins, caller, row.id, ToggleBody(row)).value;
            forall i | 0 <= i < |admins| ::
              && (admins[i] == row ==> after[i] == row.(isActive := !row.isActive))
              && (admins[i].id != row.id ==> after[i] == admins[i])
  {
  }

  /** An account created from the dialog without touching the role is an ordinary admin,
      and after the creation the dialog is closed and back at its defaults. */
  lemma DefaultDialogCreatesOrdinaryAdmin(admins: seq<Admin>, caller: Admin, d: Dialog, hash: Auth.Hasher)
    requires d.form.name == InitialForm.name && Submittable(d.form)
    requires Auth.CreateAdmin(admins, caller, Request(d.form), hash).Ok?
    ensures !IsSystemAdmin(Auth.CreateAdmin(admins, caller, Request(d.form), hash).value[|admins|])
    ensures HandleCreate(d, Auth.CreateAdmin(admins, caller, Request(d.form), hash)).dialog == Dialog(false, InitialForm)
  {
  }

  /** The dialog does not check the password's length: a system admin's request with a
      shorter password is refused by the schema, and the alert reads "[object Object]". */
  lemma ShortPasswordAlertsObject(admins: seq<Admin>, caller: Admin, d: Dialog, hash: Auth.Hasher)
    requires IsSystemAdmin(caller) && |d.form.password| < Auth.MinPasswordLength
    ensures HandleCreate(d, Auth.CreateAdmin(admins, caller, Request(d.form), hash)) == Submitted(d, ObjectText)
  {
    SplitNoSeparator("password", ',');
  }
}

=== FILE: users.dfy ===
/** The LINE-user registry (backend/app/routers/users.py) and its request schema
    (backend/app/schemas/user.py): registration with the phone-number rule, lookup by id,
    and the optional-field update schema. Users are kept in a sequence. */
module Users {
  import opened Common
  import opened Domain

  const LineIdTaken: string := "此 LINE 帳號已註冊"
  const UserMissing: string := "用戶不存在"
  const PhoneFormatMessage: string := "手機號碼格式錯誤，必須是09開頭的10碼數字"

  /** The character class `\d` of a Python `str` pattern: every Unicode decimal digit.
      Which characters those are is left as a parameter. */
  type DigitClass = char -> bool

  /** `re.match(r'^09\d{8}$', v)`: "09", eight digits, then the end of the string or a
      single newline that ends it (`$` without MULTILINE also matches before a final "\n"). */
  predicate PhoneMatches(v: string, isDigit: DigitClass) {
    && 10 <= |v| <= 11
    && v[0] == '0' && v[1] == '9'
    && (forall k | 2 <= k < 10 :: isDigit(v[k]))
    && (|v| == 11 ==> v[10] == '\n')
  }

  /** A registration request. */
  datatype UserCreate = UserCreate(lineUserId: string, name: string, phone: string,
                                   company: string, department: string, profileData: Answers)

  /** The failing fields of a registration request, in declaration order. */
  function CreateErrors(req: UserCreate, isDigit: DigitClass): (errs: seq<string>)
    ensures "name" in errs <==> |req.name| < 1
    ensures "phone" in errs <==> !PhoneMatches(req.phone, isDigit)
    ensures "company" in errs <==> |req.company| < 1
    ensures "department" in errs <==> |req.department| < 1
    ensures forall e | e in errs :: e in {"name", "phone", "company", "department"}
  {
    var a := if |req.name| < 1 then ["name"] else [];
    var b := if !PhoneMatches(req.phone, isDigit) then ["phone"] else [];
    var c := if |req.company| < 1 then ["company"] else [];
    var d := if |req.department| < 1 then ["department"] else [];
    assert forall x | x in a + b + c + d :: x in a || x in b || x in c || x in d;
    a + b + c + d
  }

  function FindByLineId(users: seq<User>, lineUserId: string): (r: Option<User>)
    ensures r.Some? ==> r.value in users && r.value.lineUserId == lineUserId
    ensures r.None? <==> forall u | u in users :: u.lineUserId != lineUserId
  {
    if |users| == 0 then None
    else if users[0].lineUserId == lineUserId then Some(users[0])
    else FindByLineId(users[1..], lineUserId)
  }

  predicate UniqueLineIds(users: seq<User>) {
    forall i, j | 0 <= i < j < |users| :: users[i].lineUserId != users[j].lineUserId
  }

  /** The id the database assigns next: larger than every id in use. */
  function NextUserId(users: seq<User>): (id: int)
    ensures forall u | u in users :: u.id < id
  {
    if |users| == 0 then 1
    else
      var rest := NextUserId(users[1..]);
      assert forall u | u in users :: u == users[0] || u in users[1..];
      if users[0].id + 1 > rest then users[0].id + 1 else rest
  }

  /** Registration: a schema failure is a 422; a LINE id already registered is a 409;
      otherwise the user is appended with the sent details and an empty profile — the
      request's `profile_data` is not stored. */
  function CreateUser(users: seq<User>, req: UserCreate, isDigit: DigitClass): (r: Result<seq<User>>)
    ensures |CreateErrors(req, isDigit)| > 0 ==> r.Err? && r.error.status == ValidationStatus
    ensures |CreateErrors(req, isDigit)| == 0 && FindByLineId(users, req.lineUserId).Some? ==>
              r == Err(HttpError(409, LineIdTaken))
    ensures r.Ok? <==> |CreateErrors(req, isDigit)| == 0 && FindByLineId(users, req.lineUserId).None?
    ensures r.Ok? ==> |r.value| == |users| + 1 && r.value[..|users|] == users
                      && var u := r.value[|users|];
                         u.lineUserId == req.lineUserId && u.name == req.name && u.phone == req.phone
                         && u.company == req.company && u.department == req.department
                         && u.profileData == map[] && FindByLineId(users, u.lineUserId).None?
    ensures r.Ok? && UniqueLineIds(users) ==> UniqueLineIds(r.value)
  {
    var errs := CreateErrors(req, isDigit);
    if |errs| > 0 then Err(HttpError(ValidationStatus, Join(errs, ',')))
    else if FindByLineId(users, req.lineUserId).Some? then Err(HttpError(409, LineIdTaken))
    else
      var u := User(NextUserId(users), req.lineUserId, req.name, req.phone, req.company, req.department, map[]);
      var s := users + [u];
      assert UniqueLineIds(users) ==> UniqueLineIds(s) by {
        if UniqueLineIds(users) {
          forall i, j | 0 <= i < j < |s| ensures s[i].lineUserId != s[j].lineUserId {
            if j == |users| {
              assert s[i] in users;
            }
          }
        }
      }
      Ok(s)
  }

  /** Registering the same LINE id twice: the second attempt is refused and the registry
      keeps one user with that id. */
  lemma SecondRegistrationRefused(users: seq<User>, req: UserCreate, again: UserCreate, isDigit: DigitClass)
    requires CreateUser(users, req, isDigit).Ok?
    requires again.lineUserId == req.lineUserId && |CreateErrors(again, isDigit)| == 0
    ensures CreateUser(CreateUser(users, req, isDigit).value, again, isDigit) == Err(HttpError(409, LineIdTaken))
  {
    var next := CreateUser(users, req, isDigit).value;
    assert next[|users|] in next;
  }

  /** Looking up one user: 404 when the id is unknown. */
  function GetUser(users: seq<User>, id: int): (r: Result<User>)
    ensures r.Err? <==> forall u | u in users :: u.id != id
    ensures r.Err? ==> r.error == HttpError(404, UserMissing)
    ensures r.Ok? ==> r.value in users && r.value.id == id
  {
    if |users| == 0 then Err(HttpError(404, UserMissing))
    else if users[0].id == id then Ok(users[0])
    else GetUser(users[1..], id)
  }

  /** A newly registered user can be looked up under the id it was given. */
  lemma RegisteredUserFound(users: seq<User>, req: UserCreate, isDigit: DigitClass)
    requires CreateUser(users, req, isDigit).Ok?
    ensures var u := CreateUser(users, req, isDigit).value[|users|];
            GetUser(CreateUser(users, req, isDigit).value, u.id) == Ok(u)
  {
    var next := CreateUser(users, req, isDigit).value;
    NewestFound(users, next[|users|]);
  }

  lemma {:induction false} NewestFound(users: seq<User>, u: User)
    requires forall v | v in users :: v.id != u.id
    ensures GetUser(users + [u], u.id) == Ok(u)
  {
    if |users| > 0 {
      assert users[0] in users;
      assert (users + [u])[1..] == users[1..] + [u];
      NewestFound(users[1..], u);
    }
  }

  /** An update request: every field optional. */
  datatype UserUpdate = UserUpdate(name: Option<string>, phone: Option<string>, company: Option<string>,
                                   department: Option<string>, profileData: Option<Answers>)

  /** The update schema's phone rule: a missing or empty phone is not checked. */
  predicate UpdatePhoneAccepted(phone: Option<string>, isDigit: DigitClass) {
    phone.None? || phone.value == "" || PhoneMatches(phone.value, isDigit)
  }

  /** The failing fields of an update request: only the phone is checked, and the other
      fields carry no minimum length. */
  function UpdateErrors(u: UserUpdate, isDigit: DigitClass): (errs: seq<string>)
    ensures errs == [] <==> UpdatePhoneAccepted(u.phone, isDigit)
    ensures errs != [] ==> errs == ["phone"]
    ensures u.phone.Some? && u.phone.value != "" ==>
              (errs == [] <==> CreateErrors(UserCreate("", "x", u.phone.value, "x", "x", map[]), isDigit) == [])
  {
    if UpdatePhoneAccepted(u.phone, isDigit) then [] else ["phone"]
  }

  /** Python's `$` admits one trailing newline: "09" and eight digits followed by "\n"
      passes the backend's phone rule. */
  lemma TrailingNewlineAccepted(digits: string, isDigit: DigitClass)
    requires |digits| == 8 && AllAsciiDigits(digits)
    requires forall c | IsAsciiDigit(c) :: isDigit(c)
    ensures PhoneMatches("09" + digits, isDigit)
    ensures PhoneMatches("09" + digits + "\n", isDigit)
    ensures !PhoneMatches("09" + digits + "\n\n", isDigit)
  {
    var s := "09" + digits;
    forall k | 2 <= k < 10 ensures isDigit(s[k]) && isDigit((s + "\n")[k]) {
      assert s[k] == digits[k - 2];
      assert IsAsciiDigit(digits[k - 2]);
    }
  }
}
